=== FILE: README.md ===
# Exam tracker core, modelled in Dafny

A verified model of the server-side core of an exam-preparation tracker, a
Next.js application. Students are assigned exams. An exam is split into
sections, subjects and topics, and a student records a progress status for
each topic (NOT_STARTED, IN_PROGRESS, COMPLETED, REVIEWED). They time study
sessions with a pomodoro timer. Two dashboards roll this progress up into
counts and percentages.

The model covers these parts:

- the dashboard aggregations: the detail report, topic to subject to section, and the flat summary counters;
- the store operations: progress upsert, exam and subject creation, registration, sign-in with the session callbacks, pomodoro sessions and the available-exams listing;
- the validators, the role and permission predicates, pagination, HTML escaping, the public-path and CORS checks, and error classification;
- the per-client rate limiter;
- the figures the two dashboard pages derive from the summary counters.

The database is an immutable value `Store.Db`. It holds one sequence per table,
and each row has a soft-delete flag. Progress rows sit in a map keyed by
(user, topic), mirroring the table's unique index. A handler is a function from
the store and its request to a `Step`: the new store, and either the answer or
the thrown error. `ErrorHandler.AsyncHandler` turns a thrown error into the
error response. The clock, generated ids, password hashing and comparison, JavaScript's case mapping, and
column defaults of the database schema are parameters.

`Math.round(x / t * 100)` is modelled twice. `Rounding.DoublePercent` follows
the source's double arithmetic: the quotient and the product are each rounded
to the nearest double, then `Math.round` applies. `Rounding.Percent` is the
exact half-up rounding of the rational share, `(200x + t) / (2t)` with floor
division. The two differ when the double quotient lands just below a half: 23
of 40 gives 57 in doubles and 58 exactly (see "## Findings"). The dashboard
members use the exact rounding. Study hours rounded to one decimal are kept as
whole tenths of an hour.

The detail report counts a REVIEWED topic as completed as well as reviewed.
A three-topic subject with one REVIEWED topic therefore reports one completed
topic and 67%. The handlers are modelled as written, including the defects listed under
"## Findings". Each defect has a corrected member beside it, with the intended
property proved.

## Model

| member | source | states |
|---|---|---|
| AppErrors.NewAppError | lib/errors/AppError.ts:8-26 | an omitted status is 500 and an omitted operational flag is true; message and code are kept |
| AppErrors.NewValidationError | lib/errors/AppError.ts:28-35 | status 422, code VALIDATION_ERROR, the default validation message when none is given |
| AppErrors.NewUnauthorizedError | lib/errors/AppError.ts:37-41 | status 401, code UNAUTHORIZED, the default message when none is given |
| AppErrors.NewForbiddenError | lib/errors/AppError.ts:43-47 | status 403, code FORBIDDEN, the default message when none is given |
| AppErrors.NewNotFoundError | lib/errors/AppError.ts:49-53 | status 404, code NOT_FOUND, the default message when none is given |
| AppErrors.NewConflictError | lib/errors/AppError.ts:55-59 | status 409, code CONFLICT, always the caller's message |
| ErrorHandler.FoldIssuesSpec | lib/errors/errorHandler.ts:49-55 | the details object has exactly the joined issue paths as keys, and each key holds the message of the last issue with that path |
| ErrorHandler.IssueKey | lib/errors/errorHandler.ts:51 | an issue's path joined with dots |
| ErrorHandler.FoldIssues | lib/errors/errorHandler.ts:49-55 | the reduce over the issues, a later issue overwriting the entry of an earlier one with the same key |
| ErrorHandler.HandleError | lib/errors/errorHandler.ts:21-75 | an AppError answers with its own status, message and code; an object with issues answers 422 with the folded details; anything else answers 500 with the fixed internal message; success is always false |
| ErrorHandler.PlainErrorHidden | lib/errors/errorHandler.ts:63-75 | a plain Error never leaks its message: the answer is 500 with the internal-error message |
| ErrorHandler.AsyncHandler | lib/errors/errorHandler.ts:77-87 | a handler that returns answers its own response, and one that throws answers exactly the handleError response |
| Sanitize.EscapeChar | lib/utils/sanitize.ts:7-14 | each of the five special characters becomes an entity starting with `&`, any other character stays itself |
| Sanitize.EscapeHtml | lib/utils/sanitize.ts:6-15 | the output contains none of `< > " '` and is never shorter than the input |
| Sanitize.EscapeHtmlConcat | lib/utils/sanitize.ts:14 | escaping is applied character by character, so it distributes over concatenation |
| Sanitize.EscapeHtmlLength | lib/utils/sanitize.ts:6-15 | the length is unchanged exactly when the text holds no special character, and then the text itself comes back |
| Sanitize.UnescapeCons | lib/utils/sanitize.ts:7-13 | decoding an escaped character in front of any text recovers the character |
| Sanitize.NoEntityAt | lib/utils/sanitize.ts:7-13 | text not starting with `&` starts with none of the five entities |
| Sanitize.UnescapeEscape | lib/utils/sanitize.ts:6-15 | decoding the escaped text gives the original back |
| Sanitize.EscapeHtmlInjective | lib/utils/sanitize.ts:6-15 | two texts with the same escaping are the same text |
| Sanitize.EscapeHtmlNotIdempotent | lib/utils/sanitize.ts:8 | escaping twice escapes the `&` of an entity again: `&` gives `&amp;` then `&amp;amp;` |
| Sanitize.SanitizeInput | lib/utils/sanitize.ts:17-19 | trimming comes first: decoding the output gives the trimmed input, and the output holds no `< > " '` |
| Effects.Fail | lib/errors/errorHandler.ts:77-87 | a thrown error leaves the store as it was |
| Pagination.GetPaginationParams | lib/utils/pagination.ts:24-35 | the page is at least 1 (a missing or non-positive page gives 1); the size lies in 1..100, a missing or zero size gives 20, a negative one 1, an oversize one 100 |
| Pagination.GetSkip | lib/utils/pagination.ts:37-39 | skip plus page size is page times page size; never negative for a page of at least 1 |
| Pagination.GetTotalPages | lib/utils/pagination.ts:41-43 | the least number of pages that hold every row: enough pages, one fewer is too few, zero exactly for no rows |
| Pagination.CreatePaginatedResponse | lib/utils/pagination.ts:45-64 | the rows unchanged, the metadata copied, hasNext iff the page is before the last, hasPrev iff the page is after the first |
| Pagination.SkipWithinTotal | lib/utils/pagination.ts:37-43 | a page inside the page range starts before the last row |
| Pagination.TakePage | lib/utils/pagination.ts:37-39 | at most `take` rows, the contiguous slice starting at `skip`, full when enough rows remain |
| Permissions.HasRole | lib/auth/permissions.ts:19-21 | membership of the role in the required list |
| Permissions.IsAdmin | lib/auth/permissions.ts:26-28 | the role is ADMIN |
| Permissions.IsInstitutionAdmin | lib/auth/permissions.ts:33-35 | the role is INSTITUTION_ADMIN |
| Permissions.CanManageInstitution | lib/auth/permissions.ts:40-55 | an admin always; an institution admin iff the institution ids are strictly equal; nobody else |
| Permissions.CanManageUser | lib/auth/permissions.ts:60-81 | an admin always; anyone for their own user id; an institution admin iff the institution ids are strictly equal; nobody else |
| Permissions.CanViewExam | lib/auth/permissions.ts:86-102 | an institution admin iff the institution ids are strictly equal; every other role always |
| Permissions.CanCreateExam | lib/auth/permissions.ts:107-109 | the role is ADMIN or INSTITUTION_ADMIN |
| Permissions.CanUpdateExam | lib/auth/permissions.ts:114-119 | both the right to create exams and the right to view this exam |
| Permissions.AdminPassesAll | lib/auth/permissions.ts:26-119 | an admin passes every check for every target |
| Permissions.CanCreateExamRoles | lib/auth/permissions.ts:107-109 | exam creation is allowed exactly for the admin and institution-admin roles |
| Permissions.UpdateImpliesCreate | lib/auth/permissions.ts:114-119 | updating an exam needs both the right to create exams and the right to view it |
| Permissions.InstitutionAdminScope | lib/auth/permissions.ts:40-119 | an institution admin manages, views and updates exactly what belongs to their own institution, compared with strict equality (null is not undefined) |
| Permissions.ManageSelf | lib/auth/permissions.ts:71-73 | everyone may manage their own user record |
| Permissions.PlainUserRights | lib/auth/permissions.ts:40-119 | individuals and viewers may view any exam but manage no institution, no other user, and create or update no exam |
| RateLimit.Configure | lib/middleware/rateLimit.ts:13-16 | omitted settings take the configured defaults |
| RateLimit.Expired | lib/middleware/rateLimit.ts:23 | a record is expired strictly after its reset time |
| RateLimit.Decide | lib/middleware/rateLimit.ts:17-65 | an expired record is dropped first; no record opens a window of one; a count at the limit rejects with nothing changed; otherwise the count goes up by one in the same window |
| RateLimit.OthersUnchanged | lib/middleware/rateLimit.ts:17-65 | a request touches only its own client's record and leaves it present |
| RateLimit.ResetTimeStillLive | lib/middleware/rateLimit.ts:23 | expiry is strict: at exactly the reset time the record is still counted |
| RateLimit.ReplayInWindow | lib/middleware/rateLimit.ts:17-65 | inside one window the count grows by exactly the requests let through and never past the larger of the limit and its start |
| RateLimit.WindowLimit | lib/middleware/rateLimit.ts:17-65 | a window lets at most max(limit, 1) requests through |
| RateLimit.Sweep | lib/middleware/rateLimit.ts:76-83 | the periodic sweep drops exactly the expired records and keeps the others unchanged |
| RateLimit.SweepInvisible | lib/middleware/rateLimit.ts:22-25 | an earlier sweep never changes how a later request is answered nor the record it leaves |
| RateLimit.GetIdentifier | lib/middleware/rateLimit.ts:68-73 | the first comma piece of a non-empty forwarded-for header, else a non-empty real-ip header, else 'unknown' |
| Middleware.AuthorizedAsWritten | middleware.ts:30-41 | a path matching a listed public path by equality or raw prefix passes; any other passes iff there is a token |
| Middleware.IsPublicAsWritten | middleware.ts:32-36 | the path equals or starts with one of the listed public paths |
| Middleware.EveryPathPublic | middleware.ts:32-36 | because '/' is listed and matching is by prefix, every pathname passes without a token |
| Middleware.RawPrefixMatch | middleware.ts:35 | '/api/authz' and '/api/healthcheck' count as public through a raw prefix |
| Middleware.Authorized | middleware.ts:30-41 | the intended callback: passes iff the path is public ('/' only as itself, other public paths with their sub-paths) or there is a token |
| Middleware.IsPublic | middleware.ts:32-36 | the intended reading: '/' only as itself, every other listed path with its sub-paths |
| Middleware.AuthorizedProtects | middleware.ts:30-41 | with the intended check a protected page needs a token while public paths and sub-paths do not |
| Middleware.IntendedIsStricter | middleware.ts:35 | whatever the intended check lets through, the written one does too |
| Middleware.AllowedOrigins | middleware.ts:17 | the comma-separated entries of the variable, untrimmed, or the local origin when it is unset |
| Middleware.Cors | middleware.ts:16-24 | the CORS headers are set iff the request carries a non-empty origin listed exactly, and then echo that origin |
| Middleware.ListedOriginAllowed | middleware.ts:17-19 | an origin listed in the variable gets the headers |
| Register.ExamByCode | app/api/auth/register/route.ts:39-44 | the first non-deleted exam with the code in table order; none exactly when no non-deleted exam has it |
| Register.TargetExam | app/api/auth/register/route.ts:37-52 | an exam is looked up only for a non-empty exam code, and then by the code under JavaScript's upper-casing |
| Register.NewUserRow | app/api/auth/register/route.ts:55-65 | the stored row: the e-mail under JavaScript's lower-casing, the hashed password, role INDIVIDUAL, the optional fields as given, not deleted, never logged in |
| Register.Public | app/api/auth/register/route.ts:66-75 | the answer carries the selected columns of the stored row and no password hash |
| Register.Register | app/api/auth/register/route.ts:16-100 | the schema's issues, then Conflict when a non-deleted user has the lower-cased e-mail, with the store unchanged; otherwise the user is appended and, when the upper-cased exam code names an exam, an assignment of it to the user; nothing else changes |
| Register.RegisterKeepsEmailsDistinct | app/api/auth/register/route.ts:21-31 | registration keeps the e-mails of non-deleted users pairwise distinct |
| Register.AppendFreshEmail | app/api/auth/register/route.ts:21-31 | appending a user whose e-mail no non-deleted user has keeps e-mails distinct |
| Register.SecondRegistrationConflicts | app/api/auth/register/route.ts:21-31 | after a registration, registering again with an e-mail of the same lower-casing is a conflict |
| Register.AnswerIndependentOfHash | app/api/auth/register/route.ts:55-76 | the answer is the same whatever the hash function, and under a case mapping that behaves as JavaScript's its e-mail holds no letter A-Z |
| AuthConfig.UserByEmail | lib/auth/config.ts:28-33 | the first non-deleted user with the e-mail; none exactly when there is no such user |
| AuthConfig.StampLogin | lib/auth/config.ts:54-57 | lastLoginAt is set on the signed-in user's row and every other row is untouched |
| AuthConfig.FullName | lib/auth/config.ts:64 | the first name, one space, the last name |
| AuthConfig.Authorize | lib/auth/config.ts:21-72 | a missing or empty e-mail or password is refused first; sign-in succeeds iff the e-mail under JavaScript's lower-casing finds an active user whose hash matches; a refusal leaves the store unchanged and says invalid credentials or inactive account; a success stamps the last login and answers the user's id, e-mail, full name, role and institution |
| AuthConfig.NoAccountEnumeration | lib/auth/config.ts:35-51 | an unknown e-mail and a wrong password give the same answer |
| AuthConfig.KelvinSignFindsAccount | lib/auth/config.ts:28-33 | a Kelvin sign in place of K signs in to the account stored with k, because the lookup uses the full lower-casing |
| AuthConfig.SignInStampsOnlyLastLogin | lib/auth/config.ts:54-57 | a successful sign-in changes only lastLoginAt of the matching rows |
| AuthConfig.Jwt | lib/auth/config.ts:83-91 | at sign-in the token takes the user's id, role and institution; later calls keep the token |
| AuthConfig.Session | lib/auth/config.ts:92-101 | with a session user and a token id and role, the user gets them; the institution is copied only when the token defines it, with an empty or null one read as null |
| AuthConfig.SessionUserOf | lib/auth/config.ts:92-101 | the handlers' session user exists iff the session has an id and a role, and carries them |
| AuthConfig.SignInSessionRoundTrip | lib/auth/config.ts:61-67 | after a sign-in, the session the handlers see carries the stored user's id, role and institution |
| AuthConfig.RefreshKeepsSession | lib/auth/config.ts:83-101 | later requests, whose jwt call has no user, keep the session the sign-in produced |
| AuthConfig.Secret | lib/auth/config.ts:107 | a non-empty secret is used; otherwise a fixed key exists exactly in development |
| AuthConfig.StartupError | lib/auth/config.ts:112-118 | the module refuses to load exactly in production without a non-empty secret and URL |
| AuthConfig.StartedHasSecret | lib/auth/config.ts:107-118 | a configuration that loads in production or development has a signing secret |
| AvailableExams.RangeFor | app/api/exams/available/route.ts:48 | the configured range of a listed code, and 0 to 100 in whole points for any other code |
| AvailableExams.RangesWellFormed | app/api/exams/available/route.ts:13-25 | every range answered starts at 0, ends above its start on a whole step, and only ALES has half-point steps |
| AvailableExams.EntryOf | app/api/exams/available/route.ts:47-53 | an entry carries the exam's id, name, code and description and the range for its code |
| AvailableExams.Entries | app/api/exams/available/route.ts:47-53 | one entry per exam, in order |
| AvailableExams.GetAvailable | app/api/exams/available/route.ts:27-64 | no more entries than exams, each with a well-formed range |
| AvailableExams.ListsExactlyOffered | app/api/exams/available/route.ts:30-44 | every entry is the entry of an active, non-deleted exam, and every such exam is listed |
| AvailableExams.AvailableIsPublic | middleware.ts:32-35 | the listing is reachable without a token under both the written and the intended public-path check |
| Subjects.WithTopics | app/api/subjects/route.ts:54-59 | a listed subject carries its non-deleted topics in order |
| Subjects.AllWithTopics | app/api/subjects/route.ts:54-59 | one listed entry per subject, in order, each with its topics |
| Subjects.ByOrder | app/api/subjects/route.ts:53 | ascending by order and a permutation of the subjects it sorts |
| Subjects.GetSubjects | app/api/subjects/route.ts:19-71 | 401 without a session user; a plain Error without a non-empty examId; NotFound for a missing or deleted exam; otherwise the sorted live subjects of the exam with their topics |
| Subjects.MissingExamIdIs500 | app/api/subjects/route.ts:29-31 | a missing examId reaches the client as a 500 with the generic message, not as a validation error |
| Subjects.ByOrderKeeps | app/api/subjects/route.ts:53 | sorting keeps exactly the subjects it is given |
| Subjects.ByOrderMembers | app/api/subjects/route.ts:45-52 | the sorted subjects are exactly the non-deleted subjects under non-deleted sections of the exam |
| Subjects.ListingContents | app/api/subjects/route.ts:45-60 | a successful listing is ascending by order, holds only live subjects of live sections of the exam, and holds every one of them |
| Subjects.ListedInOrder | app/api/subjects/route.ts:53 | listing sorted subjects keeps them ascending by order |
| Subjects.ListedExactly | app/api/subjects/route.ts:54-59 | the listed subjects are exactly the given ones |
| Subjects.CreateSubject | app/api/subjects/route.ts:73-143 | 401; Forbidden for a role that may not create exams; the schema's issues; NotFound for a missing or deleted section; a plain Error when the section already has a live subject with the code; the unique index's plain Error when only a deleted subject of the section has it; the store unchanged in each case; otherwise the validated subject appended |
| Subjects.CreateKeepsCodesUnique | app/api/subjects/route.ts:108-119 | creation keeps the codes of live subjects distinct within each section |
| Subjects.AppendKeepsUnique | prisma/seed.ts:51 | appending a subject whose (section, code) pair no row has keeps the pairs distinct |
| Subjects.CreateKeepsUniqueIndex | prisma/seed.ts:51 | creation keeps the unique index on (section, code), which covers deleted rows too |
| Subjects.AppendFreshCode | app/api/subjects/route.ts:108-119 | appending a subject whose code its section does not use keeps codes distinct per section |
| Subjects.SameCodeOtherSection | app/api/subjects/route.ts:108-115 | the uniqueness check is per section: a code used in section A is accepted in section B |
| Pomodoro.DurationField | app/api/pomodoro/route.ts:18 | an absent duration is 25; null or another type fails its type check; a number is accepted iff it is a positive integer, and then kept; otherwise one message per failed check, in order, and only the type message for NaN |
| Pomodoro.NegativeFractionDuration | app/api/pomodoro/route.ts:18 | -1.5 fails both the integer check and the positive check, the positive message last |
| Pomodoro.IsBreakField | app/api/pomodoro/route.ts:19 | an absent flag is false; a given one is accepted iff it is a boolean, and is kept |
| Pomodoro.StartSchema | app/api/pomodoro/route.ts:17-20 | valid iff both fields are, with their parsed values and a positive duration; an empty body gives 25 minutes of work |
| Pomodoro.Start | app/api/pomodoro/route.ts:22-53 | 401 and schema issues leave the store unchanged; otherwise a not-completed session of the caller with the parsed duration and kind, started now, is appended |
| Pomodoro.QueryInt | app/api/pomodoro/route.ts:64-65 | an absent or empty parameter takes the default |
| Pomodoro.TotalPages | app/api/pomodoro/route.ts:155 | JavaScript's ceiling of total over limit: the least page count for a positive limit, Infinity or NaN for a zero limit, the ceiling of a negative quotient for a negative limit |
| Pomodoro.FiguresOf | app/api/pomodoro/route.ts:96-143 | the count of completed non-break sessions of the user in range, and their minutes in hours rounded half-up to a tenth |
| Pomodoro.NewestFirst | app/api/pomodoro/route.ts:70-80 | the caller's non-deleted sessions, a permutation of them sorted by start time descending |
| Pomodoro.GetHistory | app/api/pomodoro/route.ts:55-170 | 401 without a session user; a plain error (answered 500) when (page-1)*limit is negative; otherwise the page of newest-first sessions at that skip for a non-negative limit, the total of all of them, the page metadata with the raw page and limit, and the figures overall, since today and since the week start |
| Pomodoro.FiguresMonotone | app/api/pomodoro/route.ts:109-139 | a later lower bound never selects more sessions or more study time |
| Pomodoro.StatsOrdered | app/api/pomodoro/route.ts:90-143 | in a successful answer, with the week starting on or before today, today's figures are at most the week's and the week's at most the totals |
| Pomodoro.StartLeavesStats | app/api/pomodoro/route.ts:34-42 | a just-started session is not completed and changes none of the statistics |
| Pomodoro.StartCountsInHistory | app/api/pomodoro/route.ts:34-42 | a started session enters the caller's history: its total grows by one |
| Exams.PermissionsOf | app/api/exams/route.ts:27-31 | the permission record carries the session user's role, institution and id |
| Exams.ListedExams | app/api/exams/route.ts:43-58 | exactly the exams the listing filter selects: non-deleted, and reachable through an assignment for a role that may not create exams |
| Exams.NewestFirst | app/api/exams/route.ts:65 | sorted by creation time, newest first, and a permutation of its input |
| Exams.GetExams | app/api/exams/route.ts:20-89 | 401 without a session user; the pagination schema's issues; otherwise the selected exams newest first, sliced to the clamped page, with the count of all selected exams |
| Exams.ListingWithoutParamsRejected | app/api/exams/route.ts:33-37 | a listing request without page parameters reads both as null and answers 422 |
| Exams.PageOfListed | app/api/exams/route.ts:61-65 | a page of the listed exams holds at most `take` exams, newest first, each stored and visible to the caller |
| Exams.ListingProperties | app/api/exams/route.ts:43-79 | a page holds at most a page of non-deleted exams, newest first; for a restricted role each is reachable through an assignment; for an admin role the total counts every non-deleted exam |
| Pagination.PageOfSorted | app/api/exams/route.ts:61-65 | a page of a sorted sequence is sorted and holds only its elements |
| Exams.NullInstitutionSeesOthersExams | app/api/exams/route.ts:49-56 | a user without an institution sees an exam assigned only to another user, through the null-institution branch |
| Exams.IntendedReachability | app/api/exams/route.ts:49-56 | with the intended condition a user without an institution reaches an exam only through an assignment to that user, and with an institution both conditions agree |
| Exams.StoredCode | app/api/exams/route.ts:114 | the request code with a-z upper-cased, of the same length; the schema admits only ASCII codes, on which this is JavaScript's upper-casing |
| Exams.InsertExam | app/api/exams/route.ts:111-131 | Conflict when a non-deleted exam has the code; the unique index's plain Error when only a deleted exam has it; the store unchanged in both; it succeeds exactly when no row has the code, appending the exam |
| Exams.CreateExam | app/api/exams/route.ts:91-148 | 401; Forbidden for a role that may not create exams; the schema's issues; Conflict when a non-deleted exam has the upper-cased code; a plain Error (answered 500) from the unique index when only a deleted exam has it; the store unchanged in each case; otherwise the new exam appended with the trimmed name and description, the upper-cased code, the valid dates' times, the default status and the clock reading; live codes and all codes stay pairwise distinct |
| Exams.StoredCodeIsInput | app/api/exams/route.ts:114 | upper-casing a code the schema accepts changes nothing |
| Exams.AppendKeepsDistinct | app/api/exams/route.ts:111-121 | appending an exam whose code no non-deleted exam has keeps codes distinct |
| Exams.AppendKeepsUnique | prisma/seed.ts:16 | appending an exam whose code no row has, deleted or not, keeps all codes distinct |
| Exams.InsertKeepsCodesDistinct | prisma/seed.ts:16 | an insert keeps the codes of non-deleted exams distinct, and keeps the unique index on `code`, which covers deleted rows too |
| ProgressApi.CompletedAt | app/api/progress/route.ts:117 | completedAt is set, to now, exactly for the COMPLETED status |
| ProgressApi.UpsertRow | app/api/progress/route.ts:107-127 | an existing row keeps its key and soft-delete flag and takes the new status, completedAt, updatedAt and any given notes; a new row is not deleted and has null notes unless given |
| ProgressApi.Upsert | app/api/progress/route.ts:107-113 | the (user, topic) key is present afterwards, no other key appears, and every other key keeps its row |
| ProgressApi.UpdateProgress | app/api/progress/route.ts:84-141 | 401, the schema's issues, and NotFound for a missing or deleted topic leave the store unchanged; otherwise the upserted row |
| ProgressApi.UpdateEffect | app/api/progress/route.ts:106-127 | after an update the key's row has the requested status, completedAt exactly for COMPLETED, every other row and table unchanged |
| ProgressApi.UpsertIdempotent | app/api/progress/route.ts:107-127 | repeating the same upsert later leaves what the later one alone leaves |
| ProgressApi.ListingFilter | app/api/progress/route.ts:35-49 | always the caller's non-deleted rows; a topic condition iff a non-empty topicId is given; a status condition iff a non-empty status is given |
| ProgressApi.Selected | app/api/progress/route.ts:52-69 | exactly the keys whose rows match the filter |
| ProgressApi.NewestFirst | app/api/progress/route.ts:52-56 | the selected rows ordered by update time, newest first: as many rows as selected keys, each the row of a selected key |
| ProgressApi.ListProgress | app/api/progress/route.ts:19-82 | 401; the pagination schema's issues; a failing query for a status that is no enum name; it succeeds exactly otherwise, with the page of the selected rows, newest update first, from the skip of the clamped page, and the page metadata: the requested page and size, the count of all selected rows and the page count over it |
| ProgressApi.PageOfSelection | app/api/progress/route.ts:52-56 | a page holds at most `take` rows, each matching the filter, newest update first; the first page, when large enough, holds every selected row |
| ProgressApi.ListingScope | app/api/progress/route.ts:38-56 | at most a page of rows is listed, each the caller's and not deleted, newest update first |
| ProgressApi.ListingComplete | app/api/progress/route.ts:38-56 | without conditions, a first page large enough for the total lists every non-deleted row of the caller |
| Store.ExamSections | app/api/dashboard/detail/route.ts:62-66 | the exam's non-deleted sections, all of them, ascending by order |
| Store.SectionSubjects | app/api/dashboard/detail/route.ts:68-74 | the section's non-deleted subjects, all of them, ascending by order |
| Store.SubjectTopics | app/api/dashboard/detail/route.ts:76-82 | the subject's non-deleted topics, all of them, ascending by order |
| Store.ExamTopics | app/api/dashboard/stats/route.ts:98-109 | exactly the non-deleted topics under non-deleted subjects of non-deleted sections of the exam |
| Store.ExamSubjects | app/api/dashboard/stats/route.ts:113-121 | only non-deleted subjects under non-deleted sections of the exam |
| Store.ActiveAssignment | app/api/dashboard/stats/route.ts:59-80 | a non-deleted assignment of the user to an active, non-deleted exam with the latest assignedAt; none exactly when there is no such assignment |
| Store.ActiveExam | app/api/dashboard/detail/route.ts:26-47 | present iff there is an active assignment, and then that assignment's exam |
| Store.StudySessions | app/api/dashboard/stats/route.ts:165-176 | exactly the user's non-deleted, completed, non-break sessions |
| Store.InstitutionCondition | app/api/exams/route.ts:49-56 | the database's reading of `{ institutionId }`: undefined adds no condition, null matches a missing institution, a string matches that institution |
| Store.AssignedTo | app/api/exams/route.ts:43-58 | the exam has a non-deleted assignment to the user or one meeting the institution condition |
| DashboardStats.CountedExams | app/api/dashboard/stats/route.ts:36-49 | exactly the non-deleted exams, restricted for every role but ADMIN to those reachable through an assignment |
| DashboardStats.CountedActiveExams | app/api/dashboard/stats/route.ts:51-56 | exactly the counted exams that are also ACTIVE: each listed exam is one, and every such exam is listed |
| DashboardStats.ExamCounts | app/api/dashboard/stats/route.ts:36-56 | the active count never exceeds the total, and an ADMIN counts every non-deleted exam |
| DashboardStats.TopicIds | app/api/dashboard/stats/route.ts:141 | the ids of the topics, in order |
| DashboardStats.CountTopics | app/api/dashboard/stats/route.ts:93-162 | topic and subject totals of the exam; completed, in-progress and reviewed are the group sizes of exactly that status; the four buckets add up to the total |
| DashboardStats.GroupsWithinIds | app/api/dashboard/stats/route.ts:144-158 | one row per (user, topic) makes the three groups disjoint, so together they hold at most one row per topic id |
| DashboardStats.NotStartedNonNegative | app/api/dashboard/stats/route.ts:161 | the derived not-started count is never negative |
| DashboardStats.StudyTenths | app/api/dashboard/stats/route.ts:178-180 | an empty or zero sum gives 0, otherwise the minutes in hours rounded half-up to a tenth; never negative for non-negative minutes |
| DashboardStats.OrNull | app/api/dashboard/stats/route.ts:197-198 | an absent or zero value gives null, any other value is kept |
| DashboardStats.FindUser | app/api/dashboard/stats/route.ts:27-33 | a user row with the id, and none exactly when no row has it |
| DashboardStats.GetStats | app/api/dashboard/stats/route.ts:15-211 | 401 without a session user; otherwise the exam counts, the active exam with its topic counters (all 0 without one), the study totals, and the user row's target score and daily hours with zero or absent read as null |
| DashboardStats.StatsInvariants | app/api/dashboard/stats/route.ts:86-162 | every counter is non-negative, the active count is at most the total, and the four buckets add up to the topic total |
| DashboardDetail.ProgressMap | app/api/dashboard/detail/route.ts:99-123 | one entry per non-deleted progress row of the user, keyed by topic, holding its status |
| DashboardDetail.ResolveStatus | app/api/dashboard/detail/route.ts:144-153 | no row means NOT_STARTED, REVIEWED is reported as COMPLETED, other statuses unchanged; never REVIEWED |
| DashboardDetail.TopicTally | app/api/dashboard/detail/route.ts:155-169 | one topic's counters by its stored status: a missing row or NOT_STARTED counts as not started, IN_PROGRESS as in progress, COMPLETED as completed, REVIEWED as completed and reviewed |
| DashboardDetail.TopicTallyBuckets | app/api/dashboard/detail/route.ts:155-169 | a topic counts once, in exactly one of completed, in progress and not started (a stored REVIEWED as completed), and as reviewed exactly when stored REVIEWED |
| DashboardDetail.StoredStatuses | app/api/dashboard/detail/route.ts:144 | each topic's stored status looked up in order |
| DashboardDetail.StoredStatusesConcat | app/api/dashboard/detail/route.ts:141-144 | looking up a concatenation concatenates the lookups |
| DashboardDetail.TallyOf | app/api/dashboard/detail/route.ts:141-184 | the counters of a sequence of topics: the sum of their one-topic counters |
| DashboardDetail.TallyOfConsistent | app/api/dashboard/detail/route.ts:141-184 | every topic is counted once in the total and in exactly one main bucket |
| DashboardDetail.TallyOfConcat | app/api/dashboard/detail/route.ts:126-209 | counting distributes over concatenation, counter by counter |
| DashboardDetail.TallyOfCounts | app/api/dashboard/detail/route.ts:155-169 | completed counts COMPLETED and REVIEWED, in progress IN_PROGRESS, not started NOT_STARTED and missing rows, reviewed REVIEWED |
| DashboardDetail.TallyOverConcat | app/api/dashboard/detail/route.ts:133-209 | counting topics distributes over concatenation of topic sequences |
| DashboardDetail.ProgressPercentage | app/api/dashboard/detail/route.ts:187-188 | completed plus reviewed over the total, rounded half-up, 0 without topics |
| DashboardDetail.PercentageRange | app/api/dashboard/detail/route.ts:187-188 | for consistent counters the percentage lies in 0..200 and exceeds 100 only when a topic is REVIEWED |
| DashboardDetail.AllReviewedGives200 | app/api/dashboard/detail/route.ts:187-188 | when every topic is REVIEWED the percentage is 200 |
| DashboardDetail.CorrectedPercentage | app/api/dashboard/detail/route.ts:186-188 | each topic counted once: completed over total, rounded half-up, 0 without topics |
| DashboardDetail.CorrectedPercentageRange | app/api/dashboard/detail/route.ts:186-188 | the corrected percentage lies in 0..100, never exceeds the reported one, and equals it when nothing is reviewed |
| DashboardDetail.LoadSections | app/api/dashboard/detail/route.ts:62-96 | one loaded section per non-deleted section of the exam in order, each with its ordered live subjects and their ordered live topics |
| DashboardDetail.LoadSubject | app/api/dashboard/detail/route.ts:75-89 | a subject carries its non-deleted topics in order |
| DashboardDetail.TopicOut | app/api/dashboard/detail/route.ts:171-177 | a topic line keeps the topic's fields and reports its resolved status |
| DashboardDetail.SubjectOut | app/api/dashboard/detail/route.ts:133-202 | a subject report keeps the subject's fields and topics in order, with the counters over its topics and the percentage from them |
| DashboardDetail.SectionOut | app/api/dashboard/detail/route.ts:126-227 | a section report keeps the subject reports in order, with the counters over all its topics and the percentage from them |
| DashboardDetail.SubjectOuts | app/api/dashboard/detail/route.ts:133 | one report per loaded subject, in order |
| DashboardDetail.SectionTallyIsSum | app/api/dashboard/detail/route.ts:126-209 | each section counter is the sum of that counter over the section's subjects |
| DashboardDetail.SectionPercentageNotAveraged | app/api/dashboard/detail/route.ts:212-213 | the section percentage is taken over all its topics, not averaged over subjects |
| DashboardDetail.GetDetail | app/api/dashboard/detail/route.ts:16-242 | 401 without a session user; an empty answer without an active exam or when its id is empty; otherwise the active exam and one report per loaded section |
| DashboardDetail.SubjectInvariants | app/api/dashboard/detail/route.ts:133-202 | every subject report has consistent counters, a percentage in 0..200 and no REVIEWED topic line |
| DashboardDetail.SectionInvariants | app/api/dashboard/detail/route.ts:126-227 | every section report has consistent counters summing its subjects', a percentage in 0..200 and sound subject reports |
| DashboardDetail.ReportInvariants | app/api/dashboard/detail/route.ts:126-238 | every section of every answer is sound in that sense |
| Schemas.FieldIssues | lib/validation/schemas.ts:9-46 | one issue per failed check of a field, at path `[field]`, in declaration order |
| Schemas.CodeMessages | lib/validation/schemas.ts:29-34 | a code is accepted iff it has 2..50 characters, all upper-case letters, digits, `_` or `-` (such characters are one UTF-16 unit each, so the unit length is the character count) |
| Schemas.CodeCharsAreBmp | lib/validation/schemas.ts:31-33 | text of code characters has as many UTF-16 units as characters |
| Schemas.CodeTrimIdentity | lib/validation/schemas.ts:34 | the final trim leaves an accepted code unchanged |
| Schemas.CodeTrimIdentityOpt | lib/validation/schemas.ts:94 | the same for an optional code |
| Schemas.PasswordMessages | lib/validation/schemas.ts:15-21 | a password is accepted iff it has 8..128 UTF-16 units with an upper-case letter, a lower-case letter and a digit |
| Schemas.NameMessages | lib/validation/schemas.ts:23-27 | a name is accepted iff it has 2..100 UTF-16 units before trimming |
| Schemas.NameLengthInUnits | lib/validation/schemas.ts:25 | one character above U+FFFF is two units and a valid name; one ASCII letter is not |
| Schemas.NameBoundsBeforeTrim | lib/validation/schemas.ts:23-27 | the bounds apply before the trim, so ' a' is accepted and stored with one character |
| Schemas.DescriptionMessages | lib/validation/schemas.ts:36-40 | a description is accepted iff it is absent or at most 1000 UTF-16 units |
| Schemas.NotesMessages | lib/validation/schemas.ts:42-46 | notes are accepted iff absent or at most 5000 UTF-16 units |
| Schemas.EmailMessages | lib/validation/schemas.ts:10-13 | an e-mail is accepted iff the format check passes and it has at most 255 UTF-16 units |
| Schemas.StrongPasswordAccepted | lib/validation/schemas.ts:15-21 | 'Password123' is accepted |
| Schemas.StrongPasswordFacts | lib/validation/schemas.ts:15-21 | 'Password123' has 11 units and a character of each required class |
| Schemas.WeakPasswordRejected | lib/validation/schemas.ts:15-21 | 'weak' is rejected |
| Schemas.CodeExamples | lib/validation/schemas.ts:29-34 | 'TEST_EXAM' is accepted and 'test exam' rejected |
| Schemas.CodeExampleChars | lib/validation/schemas.ts:29-34 | every character of 'TEST_EXAM' is a code character and its length is in bounds; the first of 'test exam' is not |
| Schemas.LoginMessages | lib/validation/schemas.ts:49-52 | a login is accepted iff the e-mail is and the password is non-empty |
| Schemas.NumberMessagesDistinct | lib/validation/schemas.ts:61-62 | the integer, lower-bound and upper-bound messages are pairwise distinct |
| Schemas.NumberMessages | lib/validation/schemas.ts:61-62 | NaN gets only the type message; any other number gets exactly the integer, lower-bound and upper-bound messages of the checks it fails, and none iff it is an integer within the bounds |
| Schemas.IntValue | lib/validation/schemas.ts:61 | an integer number is the real of the integer returned |
| Schemas.IntOption | lib/validation/schemas.ts:61-62 | the parsed optional integer holds the same number as the request |
| Schemas.RangeMessages | lib/validation/schemas.ts:61-62 | an optional number is accepted iff absent or an integer within its bounds; a present one gets the number rule's messages |
| Schemas.OrderField | lib/validation/schemas.ts:114 | order defaults to 0; a given number is accepted iff it is a non-negative integer, and kept; otherwise its issues are the number rule's messages on `order` |
| Schemas.ParseProgressStatus | lib/validation/schemas.ts:159 | a status name parses iff it is the wire name of one of the four statuses |
| Schemas.StatusNameRoundTrip | lib/validation/schemas.ts:159 | every status's wire name parses back to that status |
| Schemas.DateOrderIssues | lib/validation/schemas.ts:82-90 | with both dates present the end must not precede the start, else one issue on endDate; with either absent it passes |
| Schemas.DateFieldIssues | lib/validation/schemas.ts:80-81 | an invalid date gets one 'Invalid date' issue on its field; an absent or valid date none |
| Schemas.TimeOf | lib/validation/schemas.ts:80-81 | the time of a present valid date, and none otherwise |
| Schemas.DatesIssues | lib/validation/schemas.ts:80-90 | none iff neither date is invalid and the date order holds; each invalid date is reported, and then the order check does not run |
| Schemas.AssignmentTargetIssues | lib/validation/schemas.ts:187-191 | accepted iff the institution id or the user id is a non-empty string |
| Schemas.EmptyConcat | lib/validation/schemas.ts:76-90 | a concatenation of issue lists is empty iff each part is |
| Schemas.SuffixIssues | lib/validation/schemas.ts:76-90 | the issues of the last part of a concatenation are among its issues |
| Schemas.CreateExamSchema | lib/validation/schemas.ts:76-90 | valid iff name, code, description, both dates and the date order are; the parsed name and description are trimmed, the code kept and the dates are their times; a rejection includes every date issue |
| Schemas.CreateFieldIssues | lib/validation/schemas.ts:77-79 | none iff the name, code and description are accepted |
| Schemas.OptionalFieldIssues | lib/validation/schemas.ts:92-97 | an optional field has issues only when present and failing its rule |
| Schemas.UpdateExamSchema | lib/validation/schemas.ts:92-106 | valid iff each present field, both dates and the date order are; the code is kept, the name and description trimmed, the dates are their times; a rejection includes every date issue |
| Schemas.UpdateFieldIssues | lib/validation/schemas.ts:93-95 | none iff each present name and code and the description are accepted |
| Schemas.CreateNodeSchema | lib/validation/schemas.ts:109-147 | valid iff the parent id, name, code, description and order are; the code and parent id are kept, the name and description trimmed, and order is the given non-negative integer or 0 |
| Schemas.NodeFieldIssues | lib/validation/schemas.ts:109-113 | none iff the parent id, name, code and description are accepted |
| Schemas.MathSubjectAccepted | lib/validation/schemas.ts:125-131 | a subject request named 'Math' with code 'MATH' and no order is accepted |
| Schemas.MathSubjectFields | lib/validation/schemas.ts:127-128 | 'Math' passes the name rule and 'MATH' the code rule |
| Schemas.RegisterIdentityIssues | lib/validation/schemas.ts:54-58 | none iff the e-mail, password and both names are accepted |
| Schemas.RegisterOptionalIssues | lib/validation/schemas.ts:59-64 | none iff the institution id is absent or well formed, the target score absent or an integer in 0..1000, and the daily hours absent or an integer in 1..24 |
| Schemas.RegisterSchema | lib/validation/schemas.ts:54-65 | valid iff both groups of fields are; the parsed names are trimmed, the onboarding numbers hold the same numbers as the request, every other field is kept |
| Schemas.UpdateProgressSchema | lib/validation/schemas.ts:157-161 | valid iff the topic id is well formed, the status is one of the four names and the notes are accepted; the notes are trimmed |
| Schemas.TopicIdIssues | lib/validation/schemas.ts:158 | an 'Invalid cuid' issue exactly when the id format fails |
| Schemas.UnknownStatusReported | lib/validation/schemas.ts:159 | a status outside the four names is rejected with the enum message listing the names and the received value |
| Schemas.OptionalIdIssues | lib/validation/schemas.ts:185-186 | an optional id gives no issue when absent; a present one gives none exactly when it is a cuid |
| Schemas.CreateAssignmentSchema | lib/validation/schemas.ts:183-191 | accepted iff the exam id is a cuid, a given institution or user id is a cuid, and a target is given; each malformed id gets its 'Invalid cuid' issue |
| Schemas.CoercedIntField | lib/validation/schemas.ts:165-166 | undefined takes the default; anything else is coerced (null to 0) and is accepted iff an integer within the bounds, then kept; otherwise its issues are the number rule's messages |
| Schemas.CoercedMessages | lib/validation/schemas.ts:165 | a page of 0.5 gets the integer and the minimum message, in that order; a page that is not a number gets only the type message |
| Schemas.PaginationSchema | lib/validation/schemas.ts:164-167 | valid iff both fields are; page at least 1, size in 1..100, each the coerced request number when given; both undefined give (1, 20); a null field is rejected |
| Schemas.AbsentAsOmitted | lib/validation/schemas.ts:165-166 | the intended reading treats a null parameter as omitted and keeps every other value |
| Schemas.PaginationSchemaIntended | lib/validation/schemas.ts:164-167 | missing parameters take the defaults, present ones are checked as written, and a valid answer is in range |
| Schemas.MissingParamsRejected | lib/validation/schemas.ts:164-167 | a request without page parameters is rejected with one issue per field as written, and gets page 1 of 20 rows as intended |
| DashboardUi.JsRate | components/dashboard/DashboardDetailContent.tsx:92-93 | the rate of a negative total is the rate of both operands negated, for a positive one the rounded percentage |
| DashboardUi.HomeTotalTopics | components/dashboard/DashboardContent.tsx:90 | the counters' total, or the sum of the completed, started and not-started buckets when the total is 0; 0 before the fetch answers |
| DashboardUi.HomeCompletionRate | components/dashboard/DashboardContent.tsx:91-93 | the rounded completed share of a positive total, 0 otherwise |
| DashboardUi.StudyTenthsShown | components/dashboard/DashboardContent.tsx:96 | the answered study time, 0 before the fetch answers |
| DashboardUi.Greeting | components/dashboard/DashboardContent.tsx:135 | the greeting is a space-free prefix of the display name, ending at its first space or at its end |
| DashboardUi.HomeRateBounded | components/dashboard/DashboardContent.tsx:90-93 | for counters the stats endpoint produced, the fallback total is never used and the rate is within 0..100 |
| DashboardUi.HomeRateOfConsistent | components/dashboard/DashboardContent.tsx:90-93 | the same for any counters whose buckets are non-negative and add up to the total |
| DashboardUi.GreetingIsFirstName | components/dashboard/DashboardContent.tsx:135 | a signed-in user whose first name has no space is greeted with that first name |
| DashboardUi.DetailTotalTopics | components/dashboard/DashboardDetailContent.tsx:89 | the counters' total, 0 before the fetch answers |
| DashboardUi.CompletionRate | components/dashboard/DashboardDetailContent.tsx:91-93 | the rounded completed share of a non-zero total, 0 for none |
| DashboardUi.ProgressRate | components/dashboard/DashboardDetailContent.tsx:95-99 | the rounded completed-or-started share of a non-zero total, 0 for none |
| DashboardUi.DetailRatesOrdered | components/dashboard/DashboardDetailContent.tsx:89-99 | for counters the stats endpoint produced, both pages use the same total and 0 <= completion <= progress <= 100 |
| DashboardUi.DetailRatesOfConsistent | components/dashboard/DashboardDetailContent.tsx:89-99 | the same ordering for any consistent counters |
| DashboardUi.StatusLabel | components/dashboard/DashboardDetailContent.tsx:471 | Aktif exactly for ACTIVE, Arşiv exactly for ARCHIVED, Pasif exactly for INACTIVE |
| DashboardUi.StatusLabelInjective | components/dashboard/DashboardDetailContent.tsx:471 | two exams get the same badge iff they have the same status |
| DashboardUi.ExamsShownAsWritten | components/dashboard/DashboardDetailContent.tsx:75-78 | as written the exam list is empty whatever the listing answers |
| DashboardUi.ExamListAlwaysEmpty | components/dashboard/DashboardDetailContent.tsx:75-78 | a listing answered with one exam still shows none |
| DashboardUi.ExamsShown | components/dashboard/DashboardDetailContent.tsx:428 | the intended list is the first min(5, n) exams of an answered listing and none for an error |
| DashboardUi.ExamListShowsExams | components/dashboard/DashboardDetailContent.tsx:428 | with the intended read a non-empty listing shows its first exam, more than as written |
| Rounding.RoundDiv | app/api/dashboard/detail/route.ts:188 | `Math.round(n / d)` is the integer r with r - 1/2 <= n/d < r + 1/2 |
| Rounding.RoundDivMonotone | app/api/dashboard/detail/route.ts:188 | rounding is monotone in the numerator |
| Rounding.RoundDivMultiple | app/api/dashboard/detail/route.ts:188 | rounding an exact multiple gives the factor back |
| Rounding.Percent | app/api/dashboard/detail/route.ts:187-188 | the rounded percentage of a positive total, 0 for an empty one |
| Rounding.PercentMonotone | app/api/dashboard/detail/route.ts:187-188 | a larger part never gives a smaller percentage |
| Rounding.PercentOfMultiple | app/api/dashboard/detail/route.ts:187-188 | k times the total is exactly 100k percent |
| Rounding.PercentBounds | app/api/dashboard/detail/route.ts:187-188 | a part between 0 and k times the total gives 0..100k percent |
| Rounding.PercentAboveNeedsPart | app/api/dashboard/detail/route.ts:187-188 | a percentage above 100k needs a part above k times the total |
| Rounding.RoundHalfEven | app/api/dashboard/detail/route.ts:188 | the integer nearest num/den, the even one on a tie: the rounding of IEEE 754 arithmetic |
| Rounding.NearestDouble | app/api/dashboard/detail/route.ts:188 | the double for a/b: zero for zero, otherwise a 53-bit significand in the binade of a/b, within half a unit in the last place, even on a tie |
| Rounding.MathRound | app/api/dashboard/detail/route.ts:188 | `Math.round` of a double: the integer r with r - 1/2 <= x < r + 1/2 |
| Rounding.DoublePercent | app/api/dashboard/detail/route.ts:188 | the percentage as the source computes it in doubles: 0 without a total or a part, 100 for the whole |
| Rounding.DoublePercentLosesHalf | app/api/dashboard/detail/route.ts:188 | 23 of 40 is 57 in doubles and 58 with exact half-up rounding |
| Rounding.HourTenths | app/api/dashboard/stats/route.ts:179 | the study hours rounded to one decimal, in tenths: the nearest tenth to minutes/60 |
| Rounding.HourTenthsMonotone | app/api/dashboard/stats/route.ts:179 | more minutes never give fewer tenths |
| Strings.IndexOf | components/dashboard/DashboardContent.tsx:135 | the position of the first separator, or the length when there is none |
| Strings.FirstPiece | components/dashboard/DashboardContent.tsx:135 | `split(sep)[0]` is the separator-free prefix before the first separator |
| Strings.Split | middleware.ts:17 | `split` gives at least one piece, none holding the separator, the first being the first piece |
| Strings.JoinSplit | middleware.ts:17 | joining the pieces of a split with the separator gives the original string |
| Strings.SplitJoin | middleware.ts:17 | splitting a join of separator-free pieces gives the pieces back |
| Strings.Trim | lib/validation/schemas.ts:27 | `trim` cuts only whitespace, from both ends, and leaves none at either end |
| Strings.TrimNoEdgeSpace | lib/validation/schemas.ts:34 | a string with no whitespace at either end is its own trim |
| Strings.TrimIdempotent | lib/validation/schemas.ts:27 | trimming twice is trimming once |
| Strings.AsciiUpper | app/api/exams/route.ts:114 | JavaScript's upper-casing on ASCII text: a-z become A-Z, every other character stays, the length is kept |
| Strings.AsciiLower | lib/auth/config.ts:30 | the ASCII lower-casing that every JavaScript `toLowerCase` agrees with on ASCII text (it pins the case-mapping parameter): A-Z become a-z, every other character stays, the length is kept |
| Strings.AsciiUpperEffect | app/api/exams/route.ts:114 | ASCII upper-casing leaves no a-z, fixes text without one, and is idempotent |
| Strings.AsciiLowerEffect | lib/auth/config.ts:30 | the ASCII lower-casing the case-mapping parameter is pinned to leaves no A-Z, fixes text without one, and is idempotent |
| Strings.Utf16Length | lib/validation/schemas.ts:17-18 | JavaScript's `length`: between the character count and twice it, 0 exactly for the empty string |
| Strings.Utf16LengthBmp | lib/validation/schemas.ts:17-18 | text without characters above U+FFFF has as many units as characters |
| Strings.NatToString | lib/validation/schemas.ts:61-62 | the decimal digits of a number, at least one, and more than one exactly from 10 up |
| Strings.NatToStringValue | lib/validation/schemas.ts:61-62 | reading the digits back gives the number |

## Left out

- Database access (Prisma) is replaced by the sequences and map of `Store.Db`. A `findFirst` takes the first match in table order, and an `orderBy` is a stable sort. The source leaves ties unordered.
- Password hashing and comparison (bcrypt) are function parameters. The e-mail format check and the cuid format check of ids are boolean inputs of the schema values, because the validation library's format rules are not part of this model.
- Token signing, cookies and the sign-in pages of the authentication library are left out. Only `authorize` and the `jwt` and `session` callbacks are modelled.
- The clock, the local midnight and the start of the week in the pomodoro statistics, and the rate limiter's interval timer are plain parameters. The sweep is a pure function.
- Floating point is modelled only for the percentage, in `Rounding.DoublePercent`, with an unbounded exponent (no overflow, no subnormals). The dashboard members compute exact percentages instead; see the next line.
- Percent, ProgressPercentage, SubjectOut, SectionOut, GetDetail, JsRate, HomeCompletionRate, CompletionRate, ProgressRate: the percentage is the exact half-up rounding of the rational share, not the source's double arithmetic. The two differ when the double quotient lands just below a half: 23 of 40 is 57 in the source and 58 here (`Rounding.DoublePercentLosesHalf`).
- HourTenths: the hours are rounded exactly to the nearest tenth of minutes/60; the double division and multiplication of `Math.round((minutes / 60) * 10) / 10` are not modelled.
- Logging, the React markup, styling, progress-bar widths, the seed script and the middleware's `matcher` configuration are left out.
- Exam and available-exam names are kept in table order. The source sorts some listings by name with the database's collation, which is not part of this model.
- The exam listing's included assignment rows and the progress listing's included topic, subject and exam rows are not modelled. The progress listing answers the progress rows of the page.
- The status code of a successful answer is not modelled, only its body. For example, the pomodoro start answers 200, not 201.
- The pomodoro route imports a `BadRequestError` that lib/errors/AppError.ts does not define. Only the branches that throw defined errors are modelled.
- The exam status default and the user's `isActive` default come from the database schema, which is not part of this model. They are parameters (`Exams.NewRow`, `Register.NewAccount`).
- `parseInt` of a malformed pomodoro `limit` or `page` gives NaN in the source. The model takes the parsed integer, or none, as its input, and `Pomodoro.TotalPages` keeps the NaN and Infinity cases as values.
- Pomodoro.GetHistory: the page of sessions for a negative limit with a non-negative skip is left undecided (`None`). What the database layer does with a negative take is not part of this model. A negative skip is modelled: the query throws and the answer is 500.
- Numbers in request bodies are exact reals (`Schemas.NumberValue`, with NaN and the infinities). The rounding of IEEE doubles, for example above 2^53, is not modelled.
- Authorize, TargetExam, NewUserRow and Register take JavaScript's Unicode case mapping as a parameter (`Strings.CaseMapping`). The Unicode tables are not part of this model. Only what holds of every such mapping is pinned (`Strings.JsCaseMapping`): it is the ASCII mapping on ASCII text, and lower-casing yields no A-Z.
- CreateExam, Register, CreateSubject and UpdateProgress take the request body as a typed record. A body that is not JSON makes `request.json()` throw, which is answered 500, and a field of the wrong JSON type gets the library's type issue (422); neither is modelled for these four.
- Start: a pomodoro start body that is not JSON (`req.json()` throws, answered 500) is not modelled; the body is a record of fields. A missing field, `null` and a field of the wrong JSON type are modelled (`Pomodoro.BodyField`).
- CreateExamSchema, UpdateExamSchema, CreateNodeSchema, RegisterSchema, UpdateProgressSchema and LoginMessages check fields that are already of their JSON type; the type issues of wrong-typed fields are not modelled, for the reason above.
- `DashboardDetail` builds the progress map from all of the user's non-deleted rows, not only those of the exam's topics. Only the exam's topics are looked up, so the report is the same.
- The remaining endpoints (sections, topics, single-exam update and delete, user management, assignments) and the UI pages other than the two dashboards are outside this core.

## Findings

| source | as written | input that shows it | evidently intended | confidence | as-written member | corrected member |
|---|---|---|---|---|---|---|
| app/api/dashboard/detail/route.ts:188 | the percentage is computed in doubles: `x / t` is rounded to a double before the multiplication by 100, so an exact share ending in .5 can land just below it and round down | 23 of 40 topics: `(23 / 40) * 100` is 57.49999999999999, which `Math.round` takes to 57 | the share rounded half-up, 57.5 to 58 | medium; not executed | Rounding.DoublePercentLosesHalf | Rounding.Percent |
| middleware.ts:32-37 | `'/'` is a public path and matching is `startsWith`, so every path counts as public and the token check is never reached | path `/api/exams` with no token is authorized | a public path covers itself and its sub-paths only, so `'/'` no longer covers every page; anything else needs a token | high; not executed | Middleware.EveryPathPublic | Middleware.AuthorizedProtects |
| app/api/dashboard/detail/route.ts:187-188 | the percentage adds completed and reviewed counts, and a REVIEWED topic is in both | a subject whose one topic is REVIEWED reports 200% | completed topics (REVIEWED included) over the total, at most 100% | high; not executed | DashboardDetail.AllReviewedGives200 | DashboardDetail.CorrectedPercentageRange |
| lib/validation/schemas.ts:164-167 | `z.coerce.number()` turns the `null` of a missing query parameter into 0, and `.default` applies only to `undefined`, so a listing without `page` and `pageSize` is rejected with 422 | `GET /api/exams` without query parameters | a missing parameter takes its default: page 1, 20 rows | high; not executed | Schemas.MissingParamsRejected | Schemas.PaginationSchemaIntended |
| components/dashboard/DashboardDetailContent.tsx:75-78 | the page reads `data.exams`, but the listing's `data` is the array of exams itself, so the list is always empty | a listing answered with one exam shows none | the first five exams of the answered listing | high; not executed | DashboardUi.ExamListAlwaysEmpty | DashboardUi.ExamListShowsExams |
| app/api/exams/route.ts:49-56 | the `OR` matches an assignment whose `institutionId` equals the caller's; for a caller with no institution that is `null`, which every user-only assignment has | a user with no institution sees an exam assigned only to another user | institution assignments match only a caller's non-null institution | medium; not executed | Exams.NullInstitutionSeesOthersExams | Exams.IntendedReachability |

=== FILE: app_error.dfy ===
/** The application's error classes and their fixed status codes (lib/errors/AppError.ts). */
module AppErrors {
  import opened Wrappers
  import opened Constants

  /** Which of the error classes constructed the value. */
  datatype ErrorClass = BaseClass | ValidationClass | UnauthorizedClass | ForbiddenClass | NotFoundClass | ConflictClass

  /** An `AppError` instance: message, HTTP status, operational flag, optional code. */
  datatype AppError = AppError(
    errorClass: ErrorClass,
    message: string,
    statusCode: int,
    isOperational: bool,
    code: Option<string>)

  /**
   * `new AppError(message, statusCode?, isOperational?, code?)`: an omitted status
   * is 500, an omitted operational flag is true, an omitted code stays absent.
   */
  function NewAppError(message: string, statusCode: Option<int>, isOperational: Option<bool>, code: Option<string>): (e: AppError)
    ensures e.errorClass == BaseClass && e.message == message && e.code == code
    ensures statusCode.None? ==> e.statusCode == HTTP_INTERNAL_SERVER_ERROR
    ensures statusCode.Some? ==> e.statusCode == statusCode.value
    ensures e.isOperational == (isOperational.None? || isOperational.value)
  {
    AppError(BaseClass, message, statusCode.GetOr(HTTP_INTERNAL_SERVER_ERROR), isOperational.GetOr(true), code)
  }

  /** `new ValidationError(message?)`: 422 with code VALIDATION_ERROR. */
  function NewValidationError(message: Option<string>): (e: AppError)
    ensures e.statusCode == 422 && e.code == Some("VALIDATION_ERROR") && e.isOperational
    ensures e.message == (if message.Some? then message.value else MSG_VALIDATION_ERROR)
  {
    AppError(ValidationClass, message.GetOr(MSG_VALIDATION_ERROR), HTTP_UNPROCESSABLE_ENTITY, true, Some("VALIDATION_ERROR"))
  }

  /** `new UnauthorizedError(message?)`: 401 with code UNAUTHORIZED. */
  function NewUnauthorizedError(message: Option<string>): (e: AppError)
    ensures e.statusCode == 401 && e.code == Some("UNAUTHORIZED") && e.isOperational
    ensures e.message == (if message.Some? then message.value else MSG_UNAUTHORIZED)
  {
    AppError(UnauthorizedClass, message.GetOr(MSG_UNAUTHORIZED), HTTP_UNAUTHORIZED, true, Some("UNAUTHORIZED"))
  }

  /** `new ForbiddenError(message?)`: 403 with code FORBIDDEN. */
  function NewForbiddenError(message: Option<string>): (e: AppError)
    ensures e.statusCode == 403 && e.code == Some("FORBIDDEN") && e.isOperational
    ensures e.message == (if message.Some? then message.value else MSG_FORBIDDEN)
  {
    AppError(ForbiddenClass, message.GetOr(MSG_FORBIDDEN), HTTP_FORBIDDEN, true, Some("FORBIDDEN"))
  }

  /** `new NotFoundError(message?)`: 404 with code NOT_FOUND. */
  function NewNotFoundError(message: Option<string>): (e: AppError)
    ensures e.statusCode == 404 && e.code == Some("NOT_FOUND") && e.isOperational
    ensures e.message == (if message.Some? then message.value else MSG_NOT_FOUND)
  {
    AppError(NotFoundClass, message.GetOr(MSG_NOT_FOUND), HTTP_NOT_FOUND, true, Some("NOT_FOUND"))
  }

  /** `new ConflictError(message)`: 409 with code CONFLICT; the message is always the caller's. */
  function NewConflictError(message: string): (e: AppError)
    ensures e.statusCode == 409 && e.code == Some("CONFLICT") && e.isOperational
    ensures e.message == message
  {
    AppError(ConflictClass, message, HTTP_CONFLICT, true, Some("CONFLICT"))
  }
}

=== FILE: auth_config.dfy ===
/**
 * The credentials sign-in and the session callbacks (lib/auth/config.ts).
 * Password comparison is a function parameter and the clock reading `now` a
 * plain one; token signing and cookie handling stay with the library.
 */
module AuthConfig {
  import opened Wrappers
  import opened Constants
  import opened Store
  import Strings
  import Seqs

  /** `maxAge` of the session and of the token: 30 days, in seconds. */
  const SESSION_MAX_AGE: int := 30 * 24 * 60 * 60

  const MSG_CREDENTIALS_REQUIRED: string := "Email and password are required"
  const MSG_ACCOUNT_INACTIVE: string := "Account is inactive"

  /** The user object `authorize` hands to the library. */
  datatype AuthUser = AuthUser(id: string, email: string, name: string, role: Role, institutionId: Option<string>)

  /** The answer of `authorize`: the signed-in user, or the message of the error it throws. */
  datatype SignIn = SignedIn(user: AuthUser) | Refused(message: string)

  /** The store after a sign-in attempt, and its answer. */
  datatype Attempt = Attempt(db: Db, answer: SignIn)

  /** The first non-deleted user with this e-mail in table order, if any. */
  function UserByEmail(db: Db, email: string): (r: Option<User>)
    ensures r.Some? ==> r.value in db.users && r.value.email == email && !r.value.deleted
    ensures r.None? <==> forall i :: 0 <= i < |db.users| ==> db.users[i].email != email || db.users[i].deleted
  {
    var hits := Seqs.Filter(db.users, (u: User) => u.email == email && !u.deleted);
    if |hits| == 0 then None else Some(hits[0])
  }

  /** `lastLoginAt := now` on the rows with this id, every other row untouched. */
  function StampLogin(users: seq<User>, id: string, now: int): (r: seq<User>)
    ensures |r| == |users|
    ensures forall i :: 0 <= i < |users| && users[i].id == id ==> r[i] == users[i].(lastLoginAt := Some(now))
    ensures forall i :: 0 <= i < |users| && users[i].id != id ==> r[i] == users[i]
    decreases |users|
  {
    if |users| == 0 then []
    else [if users[0].id == id then users[0].(lastLoginAt := Some(now)) else users[0]] + StampLogin(users[1..], id, now)
  }

  /** `${firstName} ${lastName}`. */
  function FullName(u: User): (n: string)
    ensures |n| == |u.firstName| + 1 + |u.lastName|
    ensures n[..|u.firstName|] == u.firstName && n[|u.firstName|] == ' ' && n[|u.firstName| + 1..] == u.lastName
  {
    u.firstName + " " + u.lastName
  }

  /**
   * `authorize(credentials)`: a missing or empty e-mail or password is
   * refused outright; the e-mail is looked up lower-cased (JavaScript's
   * case mapping `cm`, as the raw credential is not validated) among non-deleted
   * users; an unknown user and a wrong password get the same
   * invalid-credentials message, an inactive account its own; a success
   * stamps `lastLoginAt` and answers the user's id, e-mail, full name, role
   * and institution.
   */
  function Authorize(db: Db, email: Option<string>, password: Option<string>,
                     compare: (string, string) -> bool, cm: Strings.CaseMapping, now: int): (r: Attempt)
    ensures r.answer.Refused? ==> r.db == db
    ensures (email.None? || email.value == "" || password.None? || password.value == "") ==>
      r.answer == Refused(MSG_CREDENTIALS_REQUIRED)
    ensures r.answer.SignedIn? <==>
      (email.Some? && email.value != "" && password.Some? && password.value != ""
       && UserByEmail(db, cm.lower(email.value)).Some?
       && UserByEmail(db, cm.lower(email.value)).value.isActive
       && compare(password.value, UserByEmail(db, cm.lower(email.value)).value.passwordHash))
    ensures r.answer.Refused? && r.answer.message != MSG_CREDENTIALS_REQUIRED ==>
      (r.answer.message == MSG_INVALID_CREDENTIALS || r.answer.message == MSG_ACCOUNT_INACTIVE)
    ensures r.answer.SignedIn? ==>
      var u := UserByEmail(db, cm.lower(email.value)).value;
      r.answer.user == AuthUser(u.id, u.email, FullName(u), u.role, u.institutionId)
      && r.db == db.(users := StampLogin(db.users, u.id, now))
  {
    if email.None? || email.value == "" || password.None? || password.value == "" then
      Attempt(db, Refused(MSG_CREDENTIALS_REQUIRED))
    else
      match UserByEmail(db, cm.lower(email.value))
      case None => Attempt(db, Refused(MSG_INVALID_CREDENTIALS))
      case Some(u) =>
        if !u.isActive then Attempt(db, Refused(MSG_ACCOUNT_INACTIVE))
        else if !compare(password.value, u.passwordHash) then Attempt(db, Refused(MSG_INVALID_CREDENTIALS))
        else Attempt(db.(users := StampLogin(db.users, u.id, now)), SignedIn(AuthUser(u.id, u.email, FullName(u), u.role, u.institutionId)))
  }

  /**
   * An unknown e-mail and a wrong password are indistinguishable to the
   * caller: both answer the invalid-credentials message.
   */
  lemma NoAccountEnumeration(db: Db, email: string, password: string, compare: (string, string) -> bool,
                              cm: Strings.CaseMapping, now: int)
    requires email != "" && password != ""
    requires UserByEmail(db, cm.lower(email)).None?
             || (UserByEmail(db, cm.lower(email)).value.isActive
                 && !compare(password, UserByEmail(db, cm.lower(email)).value.passwordHash))
    ensures Authorize(db, Some(email), Some(password), compare, cm, now) == Attempt(db, Refused(MSG_INVALID_CREDENTIALS))
  {
  }

  /**
   * The e-mail is looked up after JavaScript's full lower-casing, which maps
   * the Kelvin sign (U+212A) to `k`: that spelling finds the account stored
   * as "kate@x.com".
   */
  lemma KelvinSignFindsAccount(db: Db, password: string, compare: (string, string) -> bool,
                               cm: Strings.CaseMapping, now: int)
    requires cm.lower("\U{212A}ate@x.com") == "kate@x.com"
    requires password != ""
    requires UserByEmail(db, "kate@x.com").Some? && UserByEmail(db, "kate@x.com").value.isActive
    requires compare(password, UserByEmail(db, "kate@x.com").value.passwordHash)
    ensures Authorize(db, Some("\U{212A}ate@x.com"), Some(password), compare, cm, now).answer.SignedIn?
  {
  }

  /** A successful sign-in touches only the signed-in user's `lastLoginAt`. */
  lemma SignInStampsOnlyLastLogin(db: Db, email: Option<string>, password: Option<string>,
                                  compare: (string, string) -> bool, cm: Strings.CaseMapping, now: int)
    requires Authorize(db, email, password, compare, cm, now).answer.SignedIn?
    ensures var r := Authorize(db, email, password, compare, cm, now);
      |r.db.users| == |db.users|
      && (forall i :: 0 <= i < |db.users| ==>
            r.db.users[i] == (if db.users[i].id == r.answer.user.id then db.users[i].(lastLoginAt := Some(now)) else db.users[i]))
      && r.db.exams == db.exams && r.db.assignments == db.assignments && r.db.progress == db.progress
  {
  }

  // ---- the token and session callbacks ----------------------------------

  /** The token fields the callbacks manage. `institutionId` is undefined until set. */
  datatype Token = Token(id: Option<string>, role: Option<Role>, institutionId: JsId)

  /** The session's user fields the callback fills in; absent until set. */
  datatype SessionFields = SessionFields(id: Option<string>, role: Option<Role>, institutionId: JsId)

  /** `jwt({ token, user })`: at sign-in the user's id, role and institution go into the token. */
  function Jwt(token: Token, user: Option<AuthUser>): (t: Token)
    ensures user.None? ==> t == token
    ensures user.Some? ==> t.id == Some(user.value.id) && t.role == Some(user.value.role)
    ensures user.Some? ==> t.institutionId == FromColumn(user.value.institutionId)
  {
    match user
    case None => token
    case Some(u) => Token(Some(u.id), Some(u.role), FromColumn(u.institutionId))
  }

  /**
   * `session({ session, token })`: when the session has a user and the token
   * a non-empty id and a role, the user gets the token's id and role; the
   * institution is copied when the token has one defined, with an empty
   * string read as null (`token.institutionId ? String(…) : null`).
   */
  function Session(fields: Option<SessionFields>, token: Token): (r: Option<SessionFields>)
    ensures fields.None? ==> r.None?
    ensures fields.Some? && (token.id.None? || token.id.value == "" || token.role.None?) ==> r == fields
    ensures fields.Some? && token.id.Some? && token.id.value != "" && token.role.Some? ==>
      r.Some? && r.value.id == token.id && r.value.role == token.role
      && (token.institutionId.Undefined? ==> r.value.institutionId == fields.value.institutionId)
      && (token.institutionId.Null? || token.institutionId == Val("") ==> r.value.institutionId == Null)
      && (token.institutionId.Val? && token.institutionId.s != "" ==> r.value.institutionId == token.institutionId)
  {
    match fields
    case None => None
    case Some(f) =>
      if token.id.Some? && token.id.value != "" && token.role.Some? then
        var inst := match token.institutionId
          case Undefined => f.institutionId
          case Null => Null
          case Val(s) => if s != "" then Val(s) else Null;
        Some(SessionFields(token.id, token.role, inst))
      else fields
  }

  /** The request's session user, as the handlers read it: present when id and role are set. */
  function SessionUserOf(fields: Option<SessionFields>): (r: Option<SessionUser>)
    ensures r.Some? <==> fields.Some? && fields.value.id.Some? && fields.value.role.Some?
    ensures r.Some? ==>
      r.value.id == fields.value.id.value && r.value.role == fields.value.role.value
      && r.value.institutionId == fields.value.institutionId
  {
    if fields.Some? && fields.value.id.Some? && fields.value.role.Some? then
      Some(SessionUser(fields.value.id.value, fields.value.role.value, fields.value.institutionId))
    else None
  }

  /**
   * After a successful sign-in, the session the handlers see carries the
   * stored user's id, role and institution (null for none, and for an empty
   * institution id), provided the stored id is not empty.
   */
  lemma SignInSessionRoundTrip(db: Db, email: Option<string>, password: Option<string>,
                               compare: (string, string) -> bool, cm: Strings.CaseMapping, now: int,
                               token: Token, fields: SessionFields)
    requires Authorize(db, email, password, compare, cm, now).answer.SignedIn?
    ensures var u := UserByEmail(db, cm.lower(email.value)).value;
      var t := Jwt(token, Some(Authorize(db, email, password, compare, cm, now).answer.user));
      u.id != "" ==>
        SessionUserOf(Session(Some(fields), t))
          == Some(SessionUser(u.id, u.role, if u.institutionId == Some("") then Null else FromColumn(u.institutionId)))
  {
  }

  /** Later requests, which call `jwt` without a user, keep the session the sign-in produced. */
  lemma RefreshKeepsSession(token: Token, user: AuthUser, fields: SessionFields)
    ensures var t := Jwt(token, Some(user));
      Session(Some(fields), Jwt(t, None)) == Session(Some(fields), t)
  {
  }

  // ---- the secret and the start-up checks -------------------------------

  /** The signing secret: NEXTAUTH_SECRET when non-empty, a fixed key in development, else none. */
  function Secret(secret: Option<string>, nodeEnv: string): (r: Option<string>)
    ensures secret.Some? && secret.value != "" ==> r == secret
    ensures (secret.None? || secret.value == "") ==>
      (r.Some? <==> nodeEnv == "development")
  {
    if secret.Some? && secret.value != "" then secret
    else if nodeEnv == "development" then Some("development-secret-key-change-in-production")
    else None
  }

  /** The module's start-up check: production needs a non-empty secret and URL. */
  function StartupError(secret: Option<string>, url: Option<string>, nodeEnv: string): (r: Option<string>)
    ensures r.None? <==> nodeEnv != "production" || (secret.Some? && secret.value != "" && url.Some? && url.value != "")
  {
    if (secret.None? || secret.value == "") && nodeEnv == "production" then
      Some("NEXTAUTH_SECRET environment variable is required in production")
    else if (url.None? || url.value == "") && nodeEnv == "production" then
      Some("NEXTAUTH_URL environment variable is required in production")
    else None
  }

  /** A configuration that starts has a secret, except outside production and development. */
  lemma StartedHasSecret(secret: Option<string>, url: Option<string>, nodeEnv: string)
    requires StartupError(secret, url, nodeEnv).None?
    ensures nodeEnv == "production" || nodeEnv == "development" ==> Secret(secret, nodeEnv).Some?
  {
  }
}

=== FILE: available_exams.dfy ===
/**
 * The public list of exams offered at onboarding
 * (app/api/exams/available/route.ts): every active exam with its score range.
 * Score steps are counted in halves, so ALES's step of 0.5 is exact.
 */
module AvailableExams {
  import opened Wrappers
  import opened Constants
  import opened Store
  import Seqs
  import Middleware

  /** A score range: lowest and highest score, and the step in halves of a point. */
  datatype ScoreRange = ScoreRange(minScore: int, maxScore: int, stepHalves: int)

  /** The per-code score ranges. */
  const ScoreRanges: map<string, ScoreRange> := map[
    "KPSS" := ScoreRange(0, 100, 2),
    "KPSS_ORTAOGRETIM" := ScoreRange(0, 100, 2),
    "KPSS_ONLISANS" := ScoreRange(0, 100, 2),
    "KPSS_LISANS" := ScoreRange(0, 100, 2),
    "ALES" := ScoreRange(0, 100, 1),
    "DGS" := ScoreRange(0, 500, 2),
    "YKS_TYT" := ScoreRange(0, 500, 2),
    "YKS_AYT" := ScoreRange(0, 500, 2),
    "YKS_YDT" := ScoreRange(0, 500, 2),
    "E_YDS" := ScoreRange(0, 100, 2),
    "YOKDIL" := ScoreRange(0, 100, 2)
  ]

  /** The range of a code without an entry: 0 to 100 in whole points. */
  const DefaultRange: ScoreRange := ScoreRange(0, 100, 2)

  /** A usable range: it starts at 0, ends above its start, and its end is a whole number of steps. */
  predicate WellFormed(r: ScoreRange) {
    r.minScore == 0 && r.minScore < r.maxScore && r.stepHalves > 0 && (2 * r.maxScore) % r.stepHalves == 0
  }

  /** `examScoreRanges[code] || default`. */
  function RangeFor(code: string): (r: ScoreRange)
    ensures code in ScoreRanges ==> r == ScoreRanges[code]
    ensures code !in ScoreRanges ==> r == DefaultRange
  {
    if code in ScoreRanges then ScoreRanges[code] else DefaultRange
  }

  /** Every range the endpoint can answer is well formed; only ALES has half-point steps. */
  lemma RangesWellFormed(code: string)
    ensures WellFormed(RangeFor(code))
    ensures RangeFor(code).stepHalves == 1 <==> code == "ALES"
  {
  }

  /** One listed exam: the selected columns and the score range spread over them. */
  datatype AvailableExam = AvailableExam(
    id: string, name: string, code: string, description: Option<string>, range: ScoreRange)

  /** An exam the endpoint offers: ACTIVE and not deleted. */
  predicate Offered(e: Exam) {
    e.status == Active && !e.deleted
  }

  /** The listed entry of an exam. */
  function EntryOf(e: Exam): (a: AvailableExam)
    ensures a.id == e.id && a.name == e.name && a.code == e.code && a.description == e.description
    ensures a.range == RangeFor(e.code)
  {
    AvailableExam(e.id, e.name, e.code, e.description, RangeFor(e.code))
  }

  /** Each exam's entry, in order. */
  function Entries(exams: seq<Exam>): (r: seq<AvailableExam>)
    ensures |r| == |exams|
    ensures forall i :: 0 <= i < |r| ==> r[i] == EntryOf(exams[i])
  {
    if |exams| == 0 then [] else [EntryOf(exams[0])] + Entries(exams[1..])
  }

  /** `getAvailableExamsHandler`: the entries of the offered exams, in table order. */
  function GetAvailable(db: Db): (r: seq<AvailableExam>)
    ensures |r| <= |db.exams|
    ensures forall i :: 0 <= i < |r| ==> WellFormed(r[i].range)
  {
    var offered := Seqs.Filter(db.exams, Offered);
    forall i | 0 <= i < |offered| ensures WellFormed(RangeFor(offered[i].code)) {
      RangesWellFormed(offered[i].code);
    }
    Entries(offered)
  }

  /**
   * The list holds exactly the offered exams: every entry is the entry of an
   * active, non-deleted exam, and every such exam has its entry listed.
   */
  lemma ListsExactlyOffered(db: Db)
    ensures forall a :: a in GetAvailable(db) ==> exists e :: e in db.exams && Offered(e) && a == EntryOf(e)
    ensures forall e :: e in db.exams && Offered(e) ==> EntryOf(e) in GetAvailable(db)
  {
    var offered := Seqs.Filter(db.exams, Offered);
    var r := GetAvailable(db);
    forall a | a in r
      ensures exists e :: e in db.exams && Offered(e) && a == EntryOf(e)
    {
      var i :| 0 <= i < |r| && r[i] == a;
      assert offered[i] in db.exams && Offered(offered[i]);
    }
    forall e | e in db.exams && Offered(e)
      ensures EntryOf(e) in r
    {
      var k :| 0 <= k < |db.exams| && db.exams[k] == e;
      assert e in offered;
      var i :| 0 <= i < |offered| && offered[i] == e;
      assert r[i] == EntryOf(e);
    }
  }

  /** The endpoint is reachable without signing in. */
  lemma AvailableIsPublic()
    ensures Middleware.Authorized("/api/exams/available", false)
    ensures Middleware.AuthorizedAsWritten("/api/exams/available", false)
  {
    assert Middleware.CoversPath(Middleware.PublicPaths[6], "/api/exams/available");
    Middleware.IntendedIsStricter("/api/exams/available", false);
  }
}

=== FILE: constants.dfy ===
/** The fixed values of the application configuration (config/constants.ts). */
module Constants {

  /** The four user roles. */
  datatype Role = Admin | InstitutionAdmin | Individual | Viewer

  /** The three exam statuses. */
  datatype ExamStatus = Active | Inactive | Archived

  /** The four per-topic progress statuses. */
  datatype ProgressStatus = NotStarted | InProgress | Completed | Reviewed

  const DEFAULT_PAGE_SIZE: int := 20
  const MAX_PAGE_SIZE: int := 100
  const MIN_PAGE_SIZE: int := 1

  const EMAIL_MAX_LENGTH: int := 255
  const PASSWORD_MIN_LENGTH: int := 8
  const PASSWORD_MAX_LENGTH: int := 128
  const NAME_MIN_LENGTH: int := 2
  const NAME_MAX_LENGTH: int := 100
  const CODE_MIN_LENGTH: int := 2
  const CODE_MAX_LENGTH: int := 50
  const DESCRIPTION_MAX_LENGTH: int := 1000
  const NOTES_MAX_LENGTH: int := 5000

  /** Rate-limit defaults, used when the environment does not override them. */
  const RATE_LIMIT_WINDOW_MS: int := 900000
  const RATE_LIMIT_MAX_REQUESTS: int := 100

  const HTTP_OK: int := 200
  const HTTP_CREATED: int := 201
  const HTTP_BAD_REQUEST: int := 400
  const HTTP_UNAUTHORIZED: int := 401
  const HTTP_FORBIDDEN: int := 403
  const HTTP_NOT_FOUND: int := 404
  const HTTP_CONFLICT: int := 409
  const HTTP_UNPROCESSABLE_ENTITY: int := 422
  const HTTP_INTERNAL_SERVER_ERROR: int := 500

  const MSG_UNAUTHORIZED: string := "Unauthorized access"
  const MSG_FORBIDDEN: string := "You do not have permission to perform this action"
  const MSG_NOT_FOUND: string := "Resource not found"
  const MSG_VALIDATION_ERROR: string := "Validation failed"
  const MSG_INTERNAL_ERROR: string := "An internal error occurred"
  const MSG_INVALID_CREDENTIALS: string := "Invalid email or password"
  const MSG_EMAIL_EXISTS: string := "Email already exists"
  const MSG_RATE_LIMIT_EXCEEDED: string := "Too many requests, please try again later"
}

=== FILE: dashboard_detail.dfy ===
/**
 * The dashboard detail report (app/api/dashboard/detail/route.ts): the
 * active exam's sections, subjects and topics with each topic's status and
 * the bucket counts and percentage at subject and section level.
 */
module DashboardDetail {
  import opened Wrappers
  import opened Constants
  import opened Store
  import opened AppErrors
  import opened ErrorHandler
  import Rounding

  // ---- per-topic status -------------------------------------------------

  /**
   * The user's progress statuses for the active exam, keyed by topic id: one
   * entry per non-deleted progress row of the user.
   */
  function ProgressMap(db: Db, userId: string): (m: map<string, ProgressStatus>)
    ensures forall t :: t in m <==> (userId, t) in db.progress && !db.progress[(userId, t)].deleted
    ensures forall t :: t in m ==> m[t] == db.progress[(userId, t)].status
  {
    var ids := set k | k in db.progress.Keys && k.0 == userId && !db.progress[k].deleted :: k.1;
    assert forall t :: (userId, t) in db.progress && !db.progress[(userId, t)].deleted ==> t in ids by {
      forall t | (userId, t) in db.progress && !db.progress[(userId, t)].deleted
        ensures t in ids
      {
        var k := (userId, t);
        assert k in db.progress.Keys && k.0 == userId && k.1 == t;
      }
    }
    map t | t in ids :: db.progress[(userId, t)].status
  }

  /** `progressMap.get(id)`: the stored status of a topic, if any. */
  function Lookup(m: map<string, ProgressStatus>, topicId: string): Option<ProgressStatus> {
    if topicId in m then Some(m[topicId]) else None
  }

  /**
   * The status reported for a topic: no row means NOT_STARTED and REVIEWED is
   * reported as COMPLETED; the reported status is never REVIEWED.
   */
  function ResolveStatus(stored: Option<ProgressStatus>): (r: ProgressStatus)
    ensures r != Reviewed
    ensures stored.None? ==> r == NotStarted
    ensures stored == Some(Reviewed) ==> r == Completed
    ensures stored.Some? && stored.value != Reviewed ==> r == stored.value
  {
    var status := if stored.Some? then stored.value else NotStarted;
    var normalized := if status.Reviewed? then Completed else status;
    if normalized.Completed? then Completed
    else if normalized.InProgress? then InProgress
    else NotStarted
  }

  // ---- bucket counts ----------------------------------------------------

  /** The five counters of a subject or section. */
  datatype Tally = Tally(total: nat, completed: nat, inProgress: nat, notStarted: nat, reviewed: nat)

  /**
   * The counters are consistent: each topic sits in exactly one of the
   * completed, in-progress and not-started buckets, and the reviewed ones
   * are among the completed.
   */
  predicate Consistent(t: Tally) {
    t.completed + t.inProgress + t.notStarted == t.total && t.reviewed <= t.completed
  }

  /** The empty tally. */
  const NoTopics := Tally(0, 0, 0, 0, 0)

  /**
   * The buckets one topic is pushed into: completed when its resolved status
   * is COMPLETED or its stored status is REVIEWED, otherwise in-progress or
   * not-started as resolved; a stored REVIEWED is also pushed into reviewed.
   */
  function TopicTally(stored: Option<ProgressStatus>): Tally
  {
    match stored
    case None => Tally(1, 0, 0, 1, 0)
    case Some(NotStarted) => Tally(1, 0, 0, 1, 0)
    case Some(InProgress) => Tally(1, 0, 1, 0, 0)
    case Some(Completed) => Tally(1, 1, 0, 0, 0)
    case Some(Reviewed) => Tally(1, 1, 0, 0, 1)
  }

  /**
   * One topic counts once, in exactly one of the completed, in-progress and
   * not-started buckets: completed when it resolves to COMPLETED (a stored
   * REVIEWED included), otherwise the bucket of its resolved status; it is
   * also counted as reviewed exactly when its stored status is REVIEWED.
   */
  lemma TopicTallyBuckets(stored: Option<ProgressStatus>)
    ensures TopicTally(stored).total == 1 && Consistent(TopicTally(stored))
    ensures TopicTally(stored).completed == 1 <==> ResolveStatus(stored) == Completed || stored == Some(Reviewed)
    ensures TopicTally(stored).inProgress == 1 <==> ResolveStatus(stored) == InProgress
    ensures TopicTally(stored).notStarted == 1 <==> ResolveStatus(stored) == NotStarted
    ensures TopicTally(stored).reviewed == 1 <==> stored == Some(Reviewed)
  {
  }

  /** The stored status of each topic, in order: `progressMap.get(topic.id)`. */
  function StoredStatuses(topics: seq<Topic>, m: map<string, ProgressStatus>): (r: seq<Option<ProgressStatus>>)
    ensures |r| == |topics|
    ensures forall i :: 0 <= i < |r| ==> r[i] == Lookup(m, topics[i].id)
  {
    seq(|topics|, i requires 0 <= i < |topics| => Lookup(m, topics[i].id))
  }

  /** Looking up a concatenation is concatenating the lookups. */
  lemma StoredStatusesConcat(a: seq<Topic>, b: seq<Topic>, m: map<string, ProgressStatus>)
    ensures StoredStatuses(a + b, m) == StoredStatuses(a, m) + StoredStatuses(b, m)
  {
    var l := StoredStatuses(a + b, m);
    var r := StoredStatuses(a, m) + StoredStatuses(b, m);
    assert |l| == |r|;
    forall i | 0 <= i < |l|
      ensures l[i] == r[i]
    {
      if i < |a| {
        assert (a + b)[i] == a[i];
      } else {
        assert (a + b)[i] == b[i - |a|];
      }
    }
  }

  /**
   * The counters after visiting topics with these stored statuses in turn,
   * each topic adding its buckets.
   */
  function TallyOf(stored: seq<Option<ProgressStatus>>): Tally
  {
    if |stored| == 0 then NoTopics
    else
      var h := TopicTally(stored[0]);
      var t := TallyOf(stored[1..]);
      Tally(h.total + t.total, h.completed + t.completed, h.inProgress + t.inProgress,
        h.notStarted + t.notStarted, h.reviewed + t.reviewed)
  }

  /** Every topic is counted once in total and in exactly one of the three main buckets. */
  lemma {:induction false} TallyOfConsistent(stored: seq<Option<ProgressStatus>>)
    ensures TallyOf(stored).total == |stored|
    ensures Consistent(TallyOf(stored))
  {
    if |stored| > 0 {
      TopicTallyBuckets(stored[0]);
      TallyOfConsistent(stored[1..]);
    }
  }

  /** Counting distributes over concatenation, counter by counter. */
  lemma {:induction false} TallyOfConcat(a: seq<Option<ProgressStatus>>, b: seq<Option<ProgressStatus>>)
    ensures var x := TallyOf(a); var y := TallyOf(b);
      TallyOf(a + b) == Tally(x.total + y.total, x.completed + y.completed, x.inProgress + y.inProgress,
        x.notStarted + y.notStarted, x.reviewed + y.reviewed)
  {
    if |a| == 0 {
      assert a + b == b;
    } else {
      assert (a + b)[1..] == a[1..] + b;
      TallyOfConcat(a[1..], b);
    }
  }

  /** The number of entries equal to `s`. */
  function CountOf(stored: seq<Option<ProgressStatus>>, s: Option<ProgressStatus>): nat
  {
    if |stored| == 0 then 0
    else (if stored[0] == s then 1 else 0) + CountOf(stored[1..], s)
  }

  /**
   * Each counter counts the topics whose stored status puts them there:
   * completed = COMPLETED + REVIEWED, in-progress = IN_PROGRESS, not-started =
   * no row or NOT_STARTED, reviewed = REVIEWED.
   */
  lemma {:induction false} TallyOfCounts(stored: seq<Option<ProgressStatus>>)
    ensures TallyOf(stored).completed == CountOf(stored, Some(Completed)) + CountOf(stored, Some(Reviewed))
    ensures TallyOf(stored).inProgress == CountOf(stored, Some(InProgress))
    ensures TallyOf(stored).notStarted == CountOf(stored, None) + CountOf(stored, Some(NotStarted))
    ensures TallyOf(stored).reviewed == CountOf(stored, Some(Reviewed))
  {
    if |stored| > 0 {
      TallyOfCounts(stored[1..]);
    }
  }

  /** The counters of a sequence of topics looked up in the progress map. */
  function TallyOver(topics: seq<Topic>, m: map<string, ProgressStatus>): Tally
  {
    TallyOf(StoredStatuses(topics, m))
  }

  /** Counting topics distributes over concatenation of topic sequences. */
  lemma TallyOverConcat(a: seq<Topic>, b: seq<Topic>, m: map<string, ProgressStatus>)
    ensures var x := TallyOver(a, m); var y := TallyOver(b, m);
      TallyOver(a + b, m) == Tally(x.total + y.total, x.completed + y.completed, x.inProgress + y.inProgress,
        x.notStarted + y.notStarted, x.reviewed + y.reviewed)
  {
    StoredStatusesConcat(a, b, m);
    TallyOfConcat(StoredStatuses(a, m), StoredStatuses(b, m));
  }

  /**
   * The reported percentage: the completed and reviewed counts added
   * together over the total, rounded; 0 without topics. Reviewed topics are
   * already in the completed count, so they are counted twice.
   */
  function ProgressPercentage(t: Tally): (p: int)
    ensures t.total == 0 ==> p == 0
    ensures t.total > 0 ==> 2 * t.total * p <= 200 * (t.completed + t.reviewed) + t.total < 2 * t.total * (p + 1)
  {
    Rounding.Percent(t.completed + t.reviewed, t.total)
  }

  /**
   * For consistent counters the percentage lies in 0..200, and it exceeds
   * 100 only when some topic is REVIEWED.
   */
  lemma PercentageRange(t: Tally)
    requires Consistent(t)
    ensures 0 <= ProgressPercentage(t) <= 200
    ensures ProgressPercentage(t) > 100 ==> t.reviewed > 0
  {
    Rounding.PercentBounds(t.completed + t.reviewed, t.total, 2);
    if ProgressPercentage(t) > 100 {
      Rounding.PercentAboveNeedsPart(t.completed + t.reviewed, t.total, 1);
    }
  }

  /** The percentage reaches 200 when every topic is REVIEWED. */
  lemma AllReviewedGives200(t: Tally)
    requires t.total > 0 && t.completed == t.total && t.reviewed == t.total
    ensures ProgressPercentage(t) == 200
  {
    Rounding.PercentOfMultiple(2, t.total);
  }

  /**
   * The percentage with each topic counted once: completed (which includes
   * reviewed) over total, rounded; 0 without topics.
   */
  function CorrectedPercentage(t: Tally): (p: int)
    ensures t.total == 0 ==> p == 0
    ensures t.total > 0 ==> 2 * t.total * p <= 200 * t.completed + t.total < 2 * t.total * (p + 1)
  {
    Rounding.Percent(t.completed, t.total)
  }

  /**
   * The corrected percentage lies in 0..100, and agrees with the reported one
   * exactly when nothing is reviewed or there are no topics.
   */
  lemma CorrectedPercentageRange(t: Tally)
    requires Consistent(t)
    ensures 0 <= CorrectedPercentage(t) <= 100
    ensures t.reviewed == 0 || t.total == 0 ==> CorrectedPercentage(t) == ProgressPercentage(t)
    ensures CorrectedPercentage(t) <= ProgressPercentage(t)
  {
    Rounding.PercentBounds(t.completed, t.total, 1);
    Rounding.PercentMonotone(t.completed, t.completed + t.reviewed, t.total);
  }

  // ---- report structure -------------------------------------------------

  /** A topic as reported: its identifying fields and its resolved status. */
  datatype TopicReport = TopicReport(id: string, code: string, name: string, order: int, status: ProgressStatus)

  /** A subject as reported. */
  datatype SubjectReport = SubjectReport(
    id: string, code: string, name: string, order: int, tally: Tally, progressPercentage: int, topics: seq<TopicReport>)

  /** A section as reported. */
  datatype SectionReport = SectionReport(
    id: string, code: string, name: string, order: int, tally: Tally, progressPercentage: int, subjects: seq<SubjectReport>)

  /** The response data: the active exam (or null) and its sections. */
  datatype DetailData = DetailData(exam: Option<ExamRef>, sections: seq<SectionReport>)

  /** A subject with its loaded topics. */
  datatype LoadedSubject = LoadedSubject(subject: Subject, topics: seq<Topic>)

  /** A section with its loaded subjects. */
  datatype LoadedSection = LoadedSection(section: Section, subjects: seq<LoadedSubject>)

  /**
   * The hierarchy query: the exam's non-deleted sections ascending by order,
   * each with its non-deleted subjects and their non-deleted topics, both
   * ascending by order.
   */
  function LoadSections(db: Db, examId: string): (r: seq<LoadedSection>)
    ensures |r| == |ExamSections(db, examId)|
    ensures forall i :: 0 <= i < |r| ==> (r[i].section == ExamSections(db, examId)[i]
      && |r[i].subjects| == |SectionSubjects(db, r[i].section.id)|
      && forall j :: 0 <= j < |r[i].subjects| ==> r[i].subjects[j] == LoadSubject(db, SectionSubjects(db, r[i].section.id)[j]))
  {
    var secs := ExamSections(db, examId);
    seq(|secs|, i requires 0 <= i < |secs| =>
      var subs := SectionSubjects(db, secs[i].id);
      LoadedSection(secs[i], seq(|subs|, j requires 0 <= j < |subs| => LoadSubject(db, subs[j]))))
  }

  /** A subject with its non-deleted topics ascending by order. */
  function LoadSubject(db: Db, s: Subject): (r: LoadedSubject)
    ensures r.subject == s && r.topics == SubjectTopics(db, s.id)
  {
    LoadedSubject(s, SubjectTopics(db, s.id))
  }

  /** A topic's report line. */
  function TopicOut(t: Topic, m: map<string, ProgressStatus>): (r: TopicReport)
    ensures r.id == t.id && r.code == t.code && r.name == t.name && r.order == t.order
    ensures r.status == ResolveStatus(Lookup(m, t.id))
  {
    TopicReport(t.id, t.code, t.name, t.order, ResolveStatus(Lookup(m, t.id)))
  }

  /** A subject's report: its topics in loaded order, its counters and percentage. */
  function SubjectOut(ls: LoadedSubject, m: map<string, ProgressStatus>): (r: SubjectReport)
    ensures r.id == ls.subject.id && r.code == ls.subject.code && r.name == ls.subject.name && r.order == ls.subject.order
    ensures |r.topics| == |ls.topics|
    ensures forall k :: 0 <= k < |r.topics| ==> r.topics[k] == TopicOut(ls.topics[k], m)
    ensures r.tally == TallyOver(ls.topics, m)
    ensures r.progressPercentage == ProgressPercentage(r.tally)
  {
    var tally := TallyOver(ls.topics, m);
    SubjectReport(ls.subject.id, ls.subject.code, ls.subject.name, ls.subject.order,
      tally, ProgressPercentage(tally), seq(|ls.topics|, k requires 0 <= k < |ls.topics| => TopicOut(ls.topics[k], m)))
  }

  /** The topics of a section, subject by subject, in the order they are visited. */
  function FlatTopics(subjects: seq<LoadedSubject>): (r: seq<Topic>)
  {
    if |subjects| == 0 then [] else subjects[0].topics + FlatTopics(subjects[1..])
  }

  /** Counter-wise sum of the subject counters. */
  function SumTallies(subjects: seq<SubjectReport>): Tally {
    if |subjects| == 0 then NoTopics
    else
      var h := subjects[0].tally;
      var t := SumTallies(subjects[1..]);
      Tally(h.total + t.total, h.completed + t.completed, h.inProgress + t.inProgress,
        h.notStarted + t.notStarted, h.reviewed + t.reviewed)
  }

  /**
   * A section's report: the subject reports in loaded order; the counters
   * are taken over all topics of the section and the percentage from those
   * counters.
   */
  function SectionOut(lsec: LoadedSection, m: map<string, ProgressStatus>): (r: SectionReport)
    ensures r.id == lsec.section.id && r.code == lsec.section.code && r.name == lsec.section.name && r.order == lsec.section.order
    ensures |r.subjects| == |lsec.subjects|
    ensures forall k :: 0 <= k < |r.subjects| ==> r.subjects[k] == SubjectOut(lsec.subjects[k], m)
    ensures r.tally == TallyOver(FlatTopics(lsec.subjects), m)
    ensures r.progressPercentage == ProgressPercentage(r.tally)
  {
    var tally := TallyOver(FlatTopics(lsec.subjects), m);
    SectionReport(lsec.section.id, lsec.section.code, lsec.section.name, lsec.section.order,
      tally, ProgressPercentage(tally), SubjectOuts(lsec.subjects, m))
  }

  /** The subject reports of a section, in loaded order. */
  function SubjectOuts(subjects: seq<LoadedSubject>, m: map<string, ProgressStatus>): (r: seq<SubjectReport>)
    ensures |r| == |subjects|
    ensures forall k :: 0 <= k < |r| ==> r[k] == SubjectOut(subjects[k], m)
    decreases |subjects|
  {
    if |subjects| == 0 then [] else [SubjectOut(subjects[0], m)] + SubjectOuts(subjects[1..], m)
  }

  /** Each section counter is the sum of that counter over the section's subjects. */
  lemma {:induction false} SectionTallyIsSum(subjects: seq<LoadedSubject>, m: map<string, ProgressStatus>)
    ensures TallyOver(FlatTopics(subjects), m) == SumTallies(SubjectOuts(subjects, m))
    decreases |subjects|
  {
    if |subjects| > 0 {
      var outs := SubjectOuts(subjects, m);
      assert outs[1..] == SubjectOuts(subjects[1..], m);
      assert outs[0].tally == TallyOver(subjects[0].topics, m);
      assert FlatTopics(subjects) == subjects[0].topics + FlatTopics(subjects[1..]);
      SectionTallyIsSum(subjects[1..], m);
      TallyOverConcat(subjects[0].topics, FlatTopics(subjects[1..]), m);
    }
  }

  /** The section percentage is not the average of the subject percentages. */
  lemma SectionPercentageNotAveraged()
    ensures ProgressPercentage(Tally(1, 1, 0, 0, 0)) == 100
    ensures ProgressPercentage(Tally(3, 0, 0, 3, 0)) == 0
    ensures ProgressPercentage(Tally(4, 1, 0, 3, 0)) == 25
  {
    assert Rounding.RoundDiv(100, 1) == 100;
    assert Rounding.RoundDiv(0, 3) == 0;
    assert Rounding.RoundDiv(100, 4) == 25;
  }

  /**
   * `getDetailHandler`: 401 without a session user; `{exam: null, sections: []}`
   * when there is no qualifying assignment (or its exam has no id); otherwise
   * the exam and one report per loaded section.
   */
  function GetDetail(db: Db, session: Option<SessionUser>): (r: Outcome<DetailData>)
    ensures session.None? ==> r == Threw(ThrowApp(NewUnauthorizedError(None)))
    ensures session.Some? ==> r.Done?
    ensures session.Some? && (ActiveExam(db, session.value.id).None? || ActiveExam(db, session.value.id).value.id == "") ==>
      r == Done(DetailData(None, []))
    ensures session.Some? && ActiveExam(db, session.value.id).Some? && ActiveExam(db, session.value.id).value.id != "" ==>
      r.value.exam.Some?
    ensures session.Some? && r.value.exam.Some? ==> r.value.exam == ActiveExam(db, session.value.id)
    ensures session.Some? && r.value.exam.Some? ==>
      var loaded := LoadSections(db, r.value.exam.value.id);
      |r.value.sections| == |loaded|
      && forall i :: 0 <= i < |loaded| ==> r.value.sections[i] == SectionOut(loaded[i], ProgressMap(db, session.value.id))
  {
    if session.None? then Threw(ThrowApp(NewUnauthorizedError(None)))
    else
      var userId := session.value.id;
      var exam := ActiveExam(db, userId);
      if exam.None? || exam.value.id == "" then Done(DetailData(None, []))
      else
        var loaded := LoadSections(db, exam.value.id);
        var m := ProgressMap(db, userId);
        Done(DetailData(exam, seq(|loaded|, i requires 0 <= i < |loaded| => SectionOut(loaded[i], m))))
  }

  /** A subject report with consistent counters, a percentage in 0..200 and no REVIEWED topic. */
  predicate SoundSubject(r: SubjectReport) {
    Consistent(r.tally)
    && 0 <= r.progressPercentage <= 200
    && forall k :: 0 <= k < |r.topics| ==> r.topics[k].status != Reviewed
  }

  /**
   * A section report with consistent counters that are the sums over its
   * subjects, a percentage in 0..200, and sound subject reports.
   */
  predicate SoundSection(r: SectionReport) {
    Consistent(r.tally)
    && r.tally == SumTallies(r.subjects)
    && 0 <= r.progressPercentage <= 200
    && forall j :: 0 <= j < |r.subjects| ==> SoundSubject(r.subjects[j])
  }

  /** Every subject report is sound. */
  lemma SubjectInvariants(ls: LoadedSubject, m: map<string, ProgressStatus>)
    ensures SoundSubject(SubjectOut(ls, m))
  {
    var r := SubjectOut(ls, m);
    TallyOfConsistent(StoredStatuses(ls.topics, m));
    PercentageRange(r.tally);
  }

  /** Every section report is sound. */
  lemma SectionInvariants(lsec: LoadedSection, m: map<string, ProgressStatus>)
    ensures SoundSection(SectionOut(lsec, m))
  {
    var r := SectionOut(lsec, m);
    TallyOfConsistent(StoredStatuses(FlatTopics(lsec.subjects), m));
    PercentageRange(r.tally);
    SectionTallyIsSum(lsec.subjects, m);
    forall j | 0 <= j < |r.subjects|
      ensures SoundSubject(r.subjects[j])
    {
      SubjectInvariants(lsec.subjects[j], m);
    }
  }

  /**
   * In every report: topic statuses are never REVIEWED, the counters are
   * consistent at subject and section level, each section counter is the sum
   * over its subjects, and every percentage lies in 0..200.
   */
  lemma ReportInvariants(db: Db, session: SessionUser)
    ensures var d := GetDetail(db, Some(session)).value;
      forall i :: 0 <= i < |d.sections| ==> SoundSection(d.sections[i])
  {
    var d := GetDetail(db, Some(session)).value;
    if d.exam.Some? {
      var loaded := LoadSections(db, d.exam.value.id);
      var m := ProgressMap(db, session.id);
      forall i | 0 <= i < |d.sections|
        ensures SoundSection(d.sections[i])
      {
        assert d.sections[i] == SectionOut(loaded[i], m);
        SectionInvariants(loaded[i], m);
      }
    }
  }
}

=== FILE: dashboard_stats.dfy ===
/**
 * The dashboard summary counters (app/api/dashboard/stats/route.ts): exam
 * counts through the assignment filter, the active exam's topic and subject
 * counts, the user's progress rows grouped by exact status, and the study
 * time of completed work sessions.
 */
module DashboardStats {
  import opened Wrappers
  import opened Constants
  import opened Store
  import opened AppErrors
  import opened ErrorHandler
  import Seqs
  import Rounding

  /** The summary the handler answers with; study time is in tenths of an hour. */
  datatype Stats = Stats(
    totalExams: nat, activeExams: nat,
    completedTopics: int, inProgressTopics: int, notStartedTopics: int, reviewedTopics: int,
    totalTopics: int, totalSubjects: int,
    totalStudyTenths: int, totalPomodoroSessions: nat,
    activeExam: Option<ExamRef>,
    targetScore: Option<int>, dailyStudyHours: Option<int>)

  // ---- exam counts ------------------------------------------------------

  /** Every role except ADMIN counts only exams reachable through an assignment. */
  predicate CountsRestricted(role: Role) {
    role != Admin
  }

  /** The exams the counters see. */
  function CountedExams(db: Db, session: SessionUser): (r: seq<Exam>)
    ensures forall i :: 0 <= i < |r| ==> r[i] in db.exams && VisibleExam(db, CountsRestricted(session.role), session, r[i])
    ensures forall i :: 0 <= i < |db.exams| && VisibleExam(db, CountsRestricted(session.role), session, db.exams[i]) ==> db.exams[i] in r
  {
    Seqs.Filter(db.exams, (e: Exam) => VisibleExam(db, CountsRestricted(session.role), session, e))
  }

  /** The counted exams that are also ACTIVE. */
  function CountedActiveExams(db: Db, session: SessionUser): (r: seq<Exam>)
    ensures forall i :: 0 <= i < |r| ==>
      r[i] in db.exams && r[i].status == Active && VisibleExam(db, CountsRestricted(session.role), session, r[i])
    ensures forall i ::
      0 <= i < |db.exams| && db.exams[i].status == Active && VisibleExam(db, CountsRestricted(session.role), session, db.exams[i])
      ==> db.exams[i] in r
  {
    Seqs.Filter(db.exams, (e: Exam) => VisibleExam(db, CountsRestricted(session.role), session, e) && e.status == Active)
  }

  /**
   * An ADMIN counts every non-deleted exam; the active count adds a status
   * condition to the same filter, so it never exceeds the total.
   */
  lemma ExamCounts(db: Db, session: SessionUser)
    ensures |CountedActiveExams(db, session)| <= |CountedExams(db, session)|
    ensures session.role == Admin ==> CountedExams(db, session) == Seqs.Filter(db.exams, (e: Exam) => !e.deleted)
  {
    Seqs.FilterMonotone(db.exams,
      (e: Exam) => VisibleExam(db, CountsRestricted(session.role), session, e),
      (e: Exam) => VisibleExam(db, CountsRestricted(session.role), session, e) && e.status == Active);
    if session.role == Admin {
      Seqs.FilterSameCondition(db.exams,
        (e: Exam) => VisibleExam(db, CountsRestricted(session.role), session, e),
        (e: Exam) => !e.deleted);
    }
  }

  // ---- topic and progress counts ----------------------------------------

  /** The ids of a sequence of topics, in order. */
  function TopicIds(topics: seq<Topic>): (r: seq<string>)
    ensures |r| == |topics|
    ensures forall i :: 0 <= i < |r| ==> r[i] == topics[i].id
  {
    if |topics| == 0 then [] else [topics[0].id] + TopicIds(topics[1..])
  }

  /** The user has a non-deleted progress row for this topic with this status. */
  predicate HasRow(db: Db, userId: string, topicId: string, status: ProgressStatus) {
    (userId, topicId) in db.progress && !db.progress[(userId, topicId)].deleted
    && db.progress[(userId, topicId)].status == status
  }

  /**
   * The group size of `status` in the grouped count: the user's non-deleted
   * rows with exactly that status whose topic is one of `ids` (0 when the
   * group is absent). Rows are keyed by (user, topic), so counting topic ids
   * counts rows.
   */
  function GroupCount(db: Db, userId: string, ids: seq<string>, status: ProgressStatus): (n: nat)
  {
    |set t | t in ids && HasRow(db, userId, t, status)|
  }

  /** The counters of the active exam, when there is one. */
  datatype TopicCounts = TopicCounts(
    total: int, subjects: int, completed: int, inProgress: int, reviewed: int, notStarted: int)

  /**
   * `completed`, `inProgress` and `reviewed` are group sizes of exactly that
   * status (a REVIEWED row is not counted as completed here); `notStarted` is
   * what remains of the topic total.
   */
  function CountTopics(db: Db, userId: string, examId: string): (c: TopicCounts)
    ensures c.total == |ExamTopics(db, examId)| && c.subjects == |ExamSubjects(db, examId)|
    ensures c.completed == GroupCount(db, userId, TopicIds(ExamTopics(db, examId)), Completed)
    ensures c.inProgress == GroupCount(db, userId, TopicIds(ExamTopics(db, examId)), InProgress)
    ensures c.reviewed == GroupCount(db, userId, TopicIds(ExamTopics(db, examId)), Reviewed)
    ensures c.completed + c.inProgress + c.reviewed + c.notStarted == c.total
  {
    var topics := ExamTopics(db, examId);
    var ids := TopicIds(topics);
    var completed := GroupCount(db, userId, ids, Completed);
    var inProgress := GroupCount(db, userId, ids, InProgress);
    var reviewed := GroupCount(db, userId, ids, Reviewed);
    TopicCounts(|topics|, |ExamSubjects(db, examId)|, completed, inProgress, reviewed,
      |topics| - (completed + inProgress + reviewed))
  }

  /**
   * Since a (user, topic) pair has at most one row, the three groups are
   * disjoint sets of topic ids, so together they hold at most `|ids|` rows.
   */
  lemma GroupsWithinIds(db: Db, userId: string, ids: seq<string>)
    ensures GroupCount(db, userId, ids, Completed) + GroupCount(db, userId, ids, InProgress)
      + GroupCount(db, userId, ids, Reviewed) <= |ids|
  {
    var all := set t | t in ids;
    var c := set t | t in ids && HasRow(db, userId, t, Completed);
    var p := set t | t in ids && HasRow(db, userId, t, InProgress);
    var r := set t | t in ids && HasRow(db, userId, t, Reviewed);
    assert c * p == {} && (c + p) * r == {};
    assert |c + p| == |c| + |p|;
    assert |c + p + r| == |c + p| + |r|;
    Seqs.SubsetSize(c + p + r, all);
    Seqs.ElementSetSize(ids);
  }

  /** The derived not-started count is never negative. */
  lemma NotStartedNonNegative(db: Db, userId: string, examId: string)
    ensures CountTopics(db, userId, examId).notStarted >= 0
  {
    GroupsWithinIds(db, userId, TopicIds(ExamTopics(db, examId)));
  }

  // ---- study time -------------------------------------------------------

  /**
   * `_sum.duration ? round(minutes / 60, 1 decimal) : 0`, in tenths of an
   * hour: an empty or zero sum gives 0.
   */
  function StudyTenths(minutes: int): (r: int)
    ensures minutes == 0 ==> r == 0
    ensures minutes != 0 ==> r == Rounding.HourTenths(minutes)
    ensures minutes >= 0 ==> r >= 0
  {
    if minutes != 0 then Rounding.HourTenths(minutes) else 0
  }

  // ---- the handler --------------------------------------------------------

  /** `value || null` for an optional number: an absent or zero value gives null. */
  function OrNull(v: Option<int>): (r: Option<int>)
    ensures r.Some? <==> v.Some? && v.value != 0
    ensures r.Some? ==> r == v
  {
    if v.Some? && v.value != 0 then v else None
  }

  /** The user row the handler reads its onboarding values from (any row with the id). */
  function FindUser(db: Db, userId: string): (r: Option<User>)
    ensures r.Some? ==> r.value in db.users && r.value.id == userId
    ensures r.None? ==> forall i :: 0 <= i < |db.users| ==> db.users[i].id != userId
  {
    var hits := Seqs.Filter(db.users, (u: User) => u.id == userId);
    if |hits| == 0 then None else Some(hits[0])
  }

  /**
   * `getStatsHandler`: 401 without a session user; otherwise the exam counts,
   * the active exam (the latest qualifying assignment's) with its topic
   * counters, or all topic counters 0 when there is none, and the study
   * totals.
   */
  function GetStats(db: Db, session: Option<SessionUser>): (r: Outcome<Stats>)
    ensures session.None? <==> r.Threw?
    ensures session.None? ==> r == Threw(ThrowApp(NewUnauthorizedError(None)))
    ensures session.Some? ==>
      r.value.totalExams == |CountedExams(db, session.value)|
      && r.value.activeExams == |CountedActiveExams(db, session.value)|
      && r.value.activeExam == ActiveExam(db, session.value.id)
      && r.value.totalPomodoroSessions == |StudySessions(db, session.value.id)|
      && r.value.totalStudyTenths == StudyTenths(Minutes(StudySessions(db, session.value.id)))
    ensures session.Some? ==>
      var user := FindUser(db, session.value.id);
      r.value.targetScore == (if user.Some? then OrNull(user.value.targetScore) else None)
      && r.value.dailyStudyHours == (if user.Some? then OrNull(user.value.dailyStudyHours) else None)
    ensures session.Some? && (ActiveExam(db, session.value.id).None? || ActiveExam(db, session.value.id).value.id == "") ==>
      r.value.totalTopics == 0 && r.value.totalSubjects == 0 && r.value.completedTopics == 0
      && r.value.inProgressTopics == 0 && r.value.notStartedTopics == 0 && r.value.reviewedTopics == 0
    ensures session.Some? && ActiveExam(db, session.value.id).Some? && ActiveExam(db, session.value.id).value.id != "" ==>
      var c := CountTopics(db, session.value.id, ActiveExam(db, session.value.id).value.id);
      r.value.totalTopics == c.total && r.value.totalSubjects == c.subjects
      && r.value.completedTopics == c.completed && r.value.inProgressTopics == c.inProgress
      && r.value.reviewedTopics == c.reviewed && r.value.notStartedTopics == c.notStarted
  {
    if session.None? then Threw(ThrowApp(NewUnauthorizedError(None)))
    else
      var u := session.value;
      var user := FindUser(db, u.id);
      var exam := ActiveExam(db, u.id);
      var c := if exam.Some? && exam.value.id != "" then CountTopics(db, u.id, exam.value.id) else TopicCounts(0, 0, 0, 0, 0, 0);
      var study := StudySessions(db, u.id);
      Done(Stats(
        |CountedExams(db, u)|, |CountedActiveExams(db, u)|,
        c.completed, c.inProgress, c.notStarted, c.reviewed, c.total, c.subjects,
        StudyTenths(Minutes(study)), |study|,
        exam,
        if user.Some? then OrNull(user.value.targetScore) else None,
        if user.Some? then OrNull(user.value.dailyStudyHours) else None))
  }

  /**
   * Every counter of a successful answer is non-negative and the four topic
   * buckets add up to the topic total.
   */
  lemma StatsInvariants(db: Db, session: SessionUser)
    ensures var s := GetStats(db, Some(session)).value;
      s.activeExams <= s.totalExams
      && 0 <= s.completedTopics && 0 <= s.inProgressTopics && 0 <= s.reviewedTopics && 0 <= s.notStartedTopics
      && s.completedTopics + s.inProgressTopics + s.reviewedTopics + s.notStartedTopics == s.totalTopics
  {
    ExamCounts(db, session);
    var exam := ActiveExam(db, session.id);
    if exam.Some? && exam.value.id != "" {
      NotStartedNonNegative(db, session.id, exam.value.id);
    }
  }
}

=== FILE: dashboard_ui.dfy ===
/**
 * The figures the two dashboard pages derive from the summary counters
 * (components/dashboard/DashboardContent.tsx and
 * components/dashboard/DashboardDetailContent.tsx). The counters arrive as
 * `Option<Stats>`: `None` until the fetch answers or when it fails. Markup,
 * styling and the progress-bar widths are not modelled.
 */
module DashboardUi {
  import opened Wrappers
  import opened Constants
  import opened Store
  import opened ErrorHandler
  import opened DashboardStats
  import Rounding
  import Strings
  import Pagination
  import AuthConfig

  /** `Math.round((part / total) * 100)` for a non-zero total of either sign. */
  function JsRate(part: int, total: int): (r: int)
    requires total != 0
    ensures total > 0 ==> r == Rounding.Percent(part, total)
    ensures total < 0 ==> r == Rounding.Percent(-part, -total)
  {
    if total > 0 then Rounding.Percent(part, total) else Rounding.Percent(-part, -total)
  }

  // ---- the home page --------------------------------------------------------

  /**
   * `stats?.totalTopics || completed + inProgress + notStarted`: the counters'
   * total, or the sum of three buckets when the total is 0 or missing.
   */
  function HomeTotalTopics(stats: Option<Stats>): (t: int)
    ensures stats.None? ==> t == 0
    ensures stats.Some? && stats.value.totalTopics != 0 ==> t == stats.value.totalTopics
    ensures stats.Some? && stats.value.totalTopics == 0 ==>
      t == stats.value.completedTopics + stats.value.inProgressTopics + stats.value.notStartedTopics
  {
    match stats
    case None => 0
    case Some(s) =>
      if s.totalTopics != 0 then s.totalTopics
      else s.completedTopics + s.inProgressTopics + s.notStartedTopics
  }

  /** The home page's completion rate: the completed share of the total, 0 for no positive total. */
  function HomeCompletionRate(stats: Option<Stats>): (r: int)
    ensures HomeTotalTopics(stats) <= 0 ==> r == 0
    ensures HomeTotalTopics(stats) > 0 ==> r == Rounding.Percent(stats.value.completedTopics, HomeTotalTopics(stats))
  {
    var t := HomeTotalTopics(stats);
    if t > 0 then Rounding.Percent(stats.value.completedTopics, t) else 0
  }

  /** `stats?.totalStudyHours || 0`, in tenths of an hour. */
  function StudyTenthsShown(stats: Option<Stats>): (r: int)
    ensures stats.None? ==> r == 0
    ensures stats.Some? ==> r == stats.value.totalStudyTenths
  {
    if stats.Some? then stats.value.totalStudyTenths else 0
  }

  /** The greeting's name: `user.name.split(' ')[0]`. */
  function Greeting(name: string): (g: string)
    ensures Strings.StartsWith(name, g) && ' ' !in g
    ensures g == name || name[|g|] == ' '
  {
    Strings.Split(name, ' ')[0]
  }

  /**
   * For counters the stats endpoint produced, the fallback never changes the
   * total and the completion rate is a percentage between 0 and 100.
   */
  lemma HomeRateBounded(db: Db, u: SessionUser)
    ensures var s := GetStats(db, Some(u)).value;
      HomeTotalTopics(Some(s)) == s.totalTopics
      && 0 <= HomeCompletionRate(Some(s)) <= 100
  {
    StatsInvariants(db, u);
    HomeRateOfConsistent(GetStats(db, Some(u)).value);
  }

  /** Counters whose four buckets are non-negative and add up to the total. */
  predicate ConsistentCounters(s: Stats) {
    0 <= s.completedTopics && 0 <= s.inProgressTopics && 0 <= s.reviewedTopics && 0 <= s.notStartedTopics
    && s.completedTopics + s.inProgressTopics + s.reviewedTopics + s.notStartedTopics == s.totalTopics
  }

  /** For consistent counters the home page's fallback is idle and its rate a percentage. */
  lemma HomeRateOfConsistent(s: Stats)
    requires ConsistentCounters(s)
    ensures HomeTotalTopics(Some(s)) == s.totalTopics
    ensures 0 <= HomeCompletionRate(Some(s)) <= 100
  {
    Rounding.PercentBounds(s.completedTopics, s.totalTopics, 1);
  }

  /**
   * The greeting of a signed-in user, whose display name is
   * `${firstName} ${lastName}`, is the first name when it holds no space.
   */
  lemma GreetingIsFirstName(u: User)
    requires ' ' !in u.firstName
    ensures Greeting(AuthConfig.FullName(u)) == u.firstName
  {
    var n := AuthConfig.FullName(u);
    var g := Greeting(n);
    var f := |u.firstName|;
    assert n[f] == ' ';
    assert g != n by {
      assert ' ' in n;
    }
    assert g == n[..f];
  }

  // ---- the detail page ------------------------------------------------------

  /** `stats?.totalTopics || 0`. */
  function DetailTotalTopics(stats: Option<Stats>): (t: int)
    ensures stats.None? ==> t == 0
    ensures stats.Some? ==> t == stats.value.totalTopics
  {
    if stats.Some? then stats.value.totalTopics else 0
  }

  /** The completed share of the total (`totalTopics ? … : 0`). */
  function CompletionRate(stats: Option<Stats>): (r: int)
    ensures DetailTotalTopics(stats) == 0 ==> r == 0
    ensures DetailTotalTopics(stats) != 0 ==> r == JsRate(stats.value.completedTopics, DetailTotalTopics(stats))
  {
    var t := DetailTotalTopics(stats);
    if t != 0 then JsRate(stats.value.completedTopics, t) else 0
  }

  /** The completed-or-started share of the total. */
  function ProgressRate(stats: Option<Stats>): (r: int)
    ensures DetailTotalTopics(stats) == 0 ==> r == 0
    ensures DetailTotalTopics(stats) != 0 ==>
      r == JsRate(stats.value.completedTopics + stats.value.inProgressTopics, DetailTotalTopics(stats))
  {
    var t := DetailTotalTopics(stats);
    if t != 0 then JsRate(stats.value.completedTopics + stats.value.inProgressTopics, t) else 0
  }

  /**
   * For counters the stats endpoint produced, the detail page's total agrees
   * with the home page's and `0 <= completion <= progress <= 100`.
   */
  lemma DetailRatesOrdered(db: Db, u: SessionUser)
    ensures var s := GetStats(db, Some(u)).value;
      DetailTotalTopics(Some(s)) == HomeTotalTopics(Some(s))
      && 0 <= CompletionRate(Some(s)) <= ProgressRate(Some(s)) <= 100
  {
    StatsInvariants(db, u);
    var s := GetStats(db, Some(u)).value;
    HomeRateOfConsistent(s);
    DetailRatesOfConsistent(s);
  }

  /** For consistent counters `0 <= completion <= progress <= 100`. */
  lemma DetailRatesOfConsistent(s: Stats)
    requires ConsistentCounters(s)
    ensures 0 <= CompletionRate(Some(s)) <= ProgressRate(Some(s)) <= 100
  {
    if s.totalTopics != 0 {
      Rounding.PercentBounds(s.completedTopics, s.totalTopics, 1);
      Rounding.PercentMonotone(s.completedTopics, s.completedTopics + s.inProgressTopics, s.totalTopics);
      Rounding.PercentBounds(s.completedTopics + s.inProgressTopics, s.totalTopics, 1);
    }
  }

  /** The status badge: Aktif, Arşiv, or Pasif for every other status. */
  function StatusLabel(status: ExamStatus): (badge: string)
    ensures status == Active <==> badge == "Aktif"
    ensures status == Archived <==> badge == "Arşiv"
    ensures status == Inactive <==> badge == "Pasif"
  {
    assert "Aktif"[1] != "Arşiv"[1] && "Aktif"[0] != "Pasif"[0] && "Arşiv"[0] != "Pasif"[0];
    match status
    case Active => "Aktif"
    case Archived => "Arşiv"
    case Inactive => "Pasif"
  }

  /** The badge tells every status apart. */
  lemma StatusLabelInjective(a: ExamStatus, b: ExamStatus)
    ensures StatusLabel(a) == StatusLabel(b) <==> a == b
  {
  }

  /**
   * The exam list as written: `examsData.data?.exams || []`. The listing's
   * `data` is the array of exams itself, which has no `exams` property, so
   * the read is undefined and the list is empty whatever the answer holds.
   */
  function ExamsShownAsWritten(reply: Reply<Pagination.Paginated<Exam>>): (r: seq<Exam>)
    ensures r == []
  {
    match reply
    case ErrorReply(_) => []
    case Handled(_) => []
  }

  /** An answered listing with exams still shows none. */
  lemma ExamListAlwaysEmpty()
    ensures var e := Exam("e1", "KPSS", "KPSS", None, Active, None, None, 0, false);
      ExamsShownAsWritten(Handled(Pagination.CreatePaginatedResponse([e], 1, 1, 20))) == []
  {
  }

  /** The intended list: up to the first five exams of an answered listing, none for an error. */
  function ExamsShown(reply: Reply<Pagination.Paginated<Exam>>): (r: seq<Exam>)
    ensures reply.ErrorReply? ==> r == []
    ensures reply.Handled? ==>
      |r| == (if |reply.response.data| < 5 then |reply.response.data| else 5)
      && r == reply.response.data[..|r|]
  {
    match reply
    case ErrorReply(_) => []
    case Handled(page) => if |page.data| < 5 then page.data else page.data[..5]
  }

  /** With the intended read an answered, non-empty listing shows its newest exam first. */
  lemma ExamListShowsExams(reply: Reply<Pagination.Paginated<Exam>>)
    requires reply.Handled? && |reply.response.data| > 0
    ensures |ExamsShown(reply)| > 0 && ExamsShown(reply)[0] == reply.response.data[0]
    ensures |ExamsShown(reply)| > |ExamsShownAsWritten(reply)|
  {
  }
}

=== FILE: effects.dfy ===
/**
 * A handler run against the store: the store afterwards and what the handler
 * answered. A handler that throws leaves the store as it was.
 */
module Effects {
  import opened Store
  import opened ErrorHandler

  datatype Step<+T> = Step(db: Db, out: Outcome<T>)

  /** A failed step: the error, and the store unchanged. */
  function Fail<T>(db: Db, e: Thrown): (r: Step<T>)
    ensures r.db == db && r.out == Threw(e)
  {
    Step(db, Threw(e))
  }
}

=== FILE: error_handler.dfy ===
/** Mapping a thrown value to an error response (lib/errors/errorHandler.ts). */
module ErrorHandler {
  import opened Wrappers
  import opened Constants
  import opened AppErrors
  import Strings

  /** One validation issue: the path of the offending field and its message. */
  datatype Issue = Issue(path: seq<string>, message: string)

  /**
   * A value caught by a `catch` block. `appError` is set when it is an
   * `AppError` instance and `issues` when it is an object with an `issues`
   * property (a schema error); a plain `Error` has neither.
   */
  datatype Thrown = Thrown(appError: Option<AppError>, issues: Option<seq<Issue>>, message: string)

  /** A thrown `AppError`. */
  function ThrowApp(e: AppError): Thrown {
    Thrown(Some(e), None, e.message)
  }

  /** A thrown schema error carrying `issues`. */
  function ThrowIssues(issues: seq<Issue>): Thrown {
    Thrown(None, Some(issues), MSG_VALIDATION_ERROR)
  }

  /** A thrown plain `Error(message)`. */
  function ThrowPlain(message: string): Thrown {
    Thrown(None, None, message)
  }

  /** The body and status of an error response. */
  datatype ErrorResponse = ErrorResponse(
    status: int,
    success: bool,
    message: string,
    code: Option<string>,
    details: Option<map<string, string>>)

  /** `issue.path.join('.')`. */
  function IssueKey(i: Issue): string {
    Strings.Join(i.path, ".")
  }

  /**
   * The `details` object: each issue's joined path mapped to its message, a
   * later issue overwriting an earlier one with the same joined path.
   */
  function FoldIssues(issues: seq<Issue>): (d: map<string, string>)
  {
    if |issues| == 0 then map[]
    else FoldIssues(issues[..|issues| - 1])[IssueKey(issues[|issues| - 1]) := issues[|issues| - 1].message]
  }

  /** No issue after position `i` has the same joined path as issue `i`. */
  predicate LastWithKey(issues: seq<Issue>, i: int)
    requires 0 <= i < |issues|
  {
    forall j :: i < j < |issues| ==> IssueKey(issues[j]) != IssueKey(issues[i])
  }

  /**
   * The keys of `FoldIssues` are exactly the joined paths, and each key holds
   * the message of the last issue with that path.
   */
  lemma {:induction false} FoldIssuesSpec(issues: seq<Issue>)
    ensures forall k :: k in FoldIssues(issues) <==> exists i :: 0 <= i < |issues| && IssueKey(issues[i]) == k
    ensures forall i :: 0 <= i < |issues| && LastWithKey(issues, i) ==>
      FoldIssues(issues)[IssueKey(issues[i])] == issues[i].message
  {
    if |issues| > 0 {
      var init := issues[..|issues| - 1];
      FoldIssuesSpec(init);
      forall k
        ensures k in FoldIssues(issues) <==> exists i :: 0 <= i < |issues| && IssueKey(issues[i]) == k
      {
        if k in FoldIssues(init) {
          var i :| 0 <= i < |init| && IssueKey(init[i]) == k;
          assert issues[i] == init[i];
        }
        if exists i :: 0 <= i < |issues| && IssueKey(issues[i]) == k {
          var i :| 0 <= i < |issues| && IssueKey(issues[i]) == k;
          if i < |init| {
            assert init[i] == issues[i];
          }
        }
      }
      forall i | 0 <= i < |issues| && LastWithKey(issues, i)
        ensures FoldIssues(issues)[IssueKey(issues[i])] == issues[i].message
      {
        if i < |init| {
          assert init[i] == issues[i];
          assert forall j :: i < j < |init| ==> init[j] == issues[j];
        }
      }
    }
  }

  /**
   * `handleError(error)`: an `AppError` answers with its own status, message and
   * code (checked first); an object with `issues` answers 422 VALIDATION_ERROR
   * with the folded details; anything else answers 500 INTERNAL_ERROR with the
   * fixed message. No response ever reports success.
   */
  function HandleError(e: Thrown): (r: ErrorResponse)
    ensures !r.success
    ensures e.appError.Some? ==>
      r.status == e.appError.value.statusCode && r.message == e.appError.value.message
      && r.code == e.appError.value.code && r.details.None?
    ensures e.appError.None? && e.issues.Some? ==>
      r.status == 422 && r.code == Some("VALIDATION_ERROR") && r.message == MSG_VALIDATION_ERROR
      && r.details == Some(FoldIssues(e.issues.value))
    ensures e.appError.None? && e.issues.None? ==>
      r.status == 500 && r.code == Some("INTERNAL_ERROR") && r.message == MSG_INTERNAL_ERROR
      && r.details.None?
  {
    match e.appError
    case Some(app) => ErrorResponse(app.statusCode, false, app.message, app.code, None)
    case None =>
      match e.issues
      case Some(issues) =>
        ErrorResponse(HTTP_UNPROCESSABLE_ENTITY, false, MSG_VALIDATION_ERROR, Some("VALIDATION_ERROR"), Some(FoldIssues(issues)))
      case None =>
        ErrorResponse(HTTP_INTERNAL_SERVER_ERROR, false, MSG_INTERNAL_ERROR, Some("INTERNAL_ERROR"), None)
  }

  /** A plain error never leaks its own message. */
  lemma PlainErrorHidden(message: string)
    ensures HandleError(ThrowPlain(message)).message == MSG_INTERNAL_ERROR
    ensures HandleError(ThrowPlain(message)).status == 500
  {
  }

  /** The outcome of running a handler: a value, or a thrown error. */
  datatype Outcome<+T> = Done(value: T) | Threw(error: Thrown) {
    predicate IsFailure() { Threw? }
    function PropagateFailure<U>(): Outcome<U>
      requires Threw?
    {
      Threw(error)
    }
    function Extract(): T
      requires Done?
    {
      value
    }
  }

  /** What a wrapped handler answers: its own response, or an error response. */
  datatype Reply<+T> = Handled(response: T) | ErrorReply(error: ErrorResponse)

  /**
   * `asyncHandler(fn)`: the handler's own result when it returns, and the
   * `handleError` response for what it throws.
   */
  function AsyncHandler<T>(run: Outcome<T>): (r: Reply<T>)
    ensures run.Done? <==> r.Handled?
    ensures run.Done? ==> r.response == run.value
    ensures run.Threw? ==> r.error == HandleError(run.error) && !r.error.success
  {
    match run
    case Done(v) => Handled(v)
    case Threw(e) => ErrorReply(HandleError(e))
  }
}

=== FILE: exams.dfy ===
/**
 * The exam collection endpoints (app/api/exams/route.ts): the listing with
 * its visibility filter and paging, and exam creation.
 */
module Exams {
  import opened Wrappers
  import opened Constants
  import opened Store
  import opened AppErrors
  import opened ErrorHandler
  import opened Schemas
  import opened Effects
  import opened Permissions
  import Seqs
  import Strings
  import Pagination

  /** The permission record the handlers build from the session. */
  function PermissionsOf(u: SessionUser): (p: UserPermissions)
    ensures p.role == u.role && p.institutionId == u.institutionId && p.userId == u.id
  {
    UserPermissions(u.role, u.institutionId, u.id)
  }

  // ---- listing ----------------------------------------------------------

  /** Roles that may not create exams see only exams reachable through an assignment. */
  predicate ListingRestricted(u: SessionUser) {
    !CanCreateExam(PermissionsOf(u))
  }

  /** The exams the listing selects, in table order. */
  function ListedExams(db: Db, u: SessionUser): (r: seq<Exam>)
    ensures forall i :: 0 <= i < |r| ==> r[i] in db.exams && VisibleExam(db, ListingRestricted(u), u, r[i])
    ensures forall i :: 0 <= i < |db.exams| && VisibleExam(db, ListingRestricted(u), u, db.exams[i]) ==> db.exams[i] in r
  {
    Seqs.Filter(db.exams, (e: Exam) => VisibleExam(db, ListingRestricted(u), u, e))
  }

  /** Newest first: ascending in the negated creation time. */
  function NewestFirst(exams: seq<Exam>): (r: seq<Exam>)
    ensures Seqs.SortedBy(r, (e: Exam) => -e.createdAt)
    ensures |r| == |exams| && multiset(r) == multiset(exams)
  {
    Seqs.SortBy(exams, (e: Exam) => -e.createdAt)
  }

  /**
   * `getExamsHandler`: 401 without a session user; the pagination schema's
   * issues for bad paging parameters; otherwise the selected exams, newest
   * first, sliced to the clamped page, with the count of all selected exams.
   */
  function GetExams(db: Db, session: Option<SessionUser>, page: RawField, pageSize: RawField)
    : (r: Outcome<Pagination.Paginated<Exam>>)
    ensures session.None? ==> r == Threw(ThrowApp(NewUnauthorizedError(None)))
    ensures session.Some? && PaginationSchema(page, pageSize).Invalid? ==>
      r == Threw(ThrowIssues(PaginationSchema(page, pageSize).issues))
    ensures r.Done? <==> session.Some? && PaginationSchema(page, pageSize).Valid?
    ensures r.Done? ==>
      var pp := PaginationSchema(page, pageSize).value;
      var p := Pagination.GetPaginationParams(Some(pp.0), Some(pp.1));
      var sorted := NewestFirst(ListedExams(db, session.value));
      r.value.data == Pagination.TakePage(sorted, Pagination.GetSkip(p.page, p.pageSize), p.pageSize)
      && r.value.pagination.total == |ListedExams(db, session.value)|
      && r.value.pagination.page == pp.0 && r.value.pagination.pageSize == pp.1
  {
    if session.None? then Threw(ThrowApp(NewUnauthorizedError(None)))
    else
      match PaginationSchema(page, pageSize)
      case Invalid(issues) => Threw(ThrowIssues(issues))
      case Valid(pp) =>
        var p := Pagination.GetPaginationParams(Some(pp.0), Some(pp.1));
        var listed := ListedExams(db, session.value);
        var rows := Pagination.TakePage(NewestFirst(listed), Pagination.GetSkip(p.page, p.pageSize), p.pageSize);
        Done(Pagination.CreatePaginatedResponse(rows, |listed|, p.page, p.pageSize))
  }

  /**
   * A listing request without page parameters, as the dashboard sends it,
   * answers 422: both parameters read as `null`, which the schema rejects.
   */
  lemma ListingWithoutParamsRejected(db: Db, u: SessionUser)
    ensures AsyncHandler(GetExams(db, Some(u), NullField, NullField)).ErrorReply?
    ensures AsyncHandler(GetExams(db, Some(u), NullField, NullField)).error.status == HTTP_UNPROCESSABLE_ENTITY
  {
    MissingParamsRejected();
  }

  /** A page of the listed exams, newest first, holds only visible stored exams, in that order. */
  lemma PageOfListed(db: Db, u: SessionUser, data: seq<Exam>, skip: nat, take: nat)
    requires data == Pagination.TakePage(NewestFirst(ListedExams(db, u)), skip, take)
    ensures |data| <= take
    ensures Seqs.SortedBy(data, (e: Exam) => -e.createdAt)
    ensures forall i :: 0 <= i < |data| ==> data[i] in db.exams && VisibleExam(db, ListingRestricted(u), u, data[i])
  {
    var listed := ListedExams(db, u);
    var sorted := NewestFirst(listed);
    Pagination.PageOfSorted(sorted, skip, take, (e: Exam) => -e.createdAt);
    forall i | 0 <= i < |data|
      ensures data[i] in db.exams && VisibleExam(db, ListingRestricted(u), u, data[i])
    {
      assert data[i] in sorted;
      assert data[i] in multiset(listed);
      var k :| 0 <= k < |listed| && listed[k] == data[i];
    }
  }

  /**
   * What a listing page holds: at most a page of non-deleted exams, newest
   * first; every exam is reachable through an assignment unless the caller
   * may create exams, in which case the total counts every non-deleted exam.
   */
  lemma ListingProperties(db: Db, u: SessionUser, page: RawField, pageSize: RawField, r: Pagination.Paginated<Exam>)
    requires GetExams(db, Some(u), page, pageSize) == Done(r)
    ensures |r.data| <= r.pagination.pageSize
    ensures Seqs.SortedBy(r.data, (e: Exam) => -e.createdAt)
    ensures forall i :: 0 <= i < |r.data| ==> r.data[i] in db.exams && !r.data[i].deleted
    ensures ListingRestricted(u) ==> forall i :: 0 <= i < |r.data| ==> AssignedTo(db, r.data[i].id, u.id, u.institutionId)
    ensures !ListingRestricted(u) ==> r.pagination.total == |Seqs.Filter(db.exams, (e: Exam) => !e.deleted)|
  {
    var pp := PaginationSchema(page, pageSize).value;
    var p := Pagination.GetPaginationParams(Some(pp.0), Some(pp.1));
    PageOfListed(db, u, r.data, Pagination.GetSkip(p.page, p.pageSize), p.pageSize);
    if !ListingRestricted(u) {
      Seqs.FilterSameCondition(db.exams, (e: Exam) => VisibleExam(db, ListingRestricted(u), u, e), (e: Exam) => !e.deleted);
    }
  }

  /**
   * A user without an institution (`null`) sees an exam assigned only to some
   * other user: the `{ institutionId: null }` branch matches every assignment
   * without an institution.
   */
  lemma NullInstitutionSeesOthersExams()
    ensures var other := Assignment("a1", "e1", Some("someone-else"), None, 0, false);
      var exam := Exam("e1", "Exam", "EXAM", None, Active, None, None, 0, false);
      var db := Db([exam], [], [], [], [], [other], map[], []);
      var u := SessionUser("me", Individual, Null);
      GetExams(db, Some(u), UndefinedField, UndefinedField).value.data == [exam]
  {
    var other := Assignment("a1", "e1", Some("someone-else"), None, 0, false);
    var exam := Exam("e1", "Exam", "EXAM", None, Active, None, None, 0, false);
    var db := Db([exam], [], [], [], [], [other], map[], []);
    var u := SessionUser("me", Individual, Null);
    assert db.assignments[0] == other;
    assert AssignedTo(db, exam.id, u.id, u.institutionId);
    assert ListedExams(db, u) == [exam];
  }

  /**
   * The evidently intended institution condition: a missing institution
   * (`null` or `undefined`) matches no assignment.
   */
  predicate InstitutionConditionIntended(sessionInstitution: JsId, column: Option<string>) {
    sessionInstitution.Val? && column == Some(sessionInstitution.s)
  }

  /** The intended reachability: assigned to the user, or to the user's (actual) institution. */
  predicate AssignedToIntended(db: Db, examId: string, userId: string, sessionInstitution: JsId) {
    exists i :: 0 <= i < |db.assignments| && db.assignments[i].examId == examId && !db.assignments[i].deleted
      && (db.assignments[i].userId == Some(userId) || InstitutionConditionIntended(sessionInstitution, db.assignments[i].institutionId))
  }

  /**
   * With the intended condition, a user without an institution reaches an
   * exam only through an assignment to that user; with an institution the
   * two conditions agree.
   */
  lemma IntendedReachability(db: Db, examId: string, userId: string, inst: JsId)
    ensures !inst.Val? ==> (AssignedToIntended(db, examId, userId, inst) <==>
      exists i :: 0 <= i < |db.assignments| && db.assignments[i].examId == examId && !db.assignments[i].deleted
        && db.assignments[i].userId == Some(userId))
    ensures inst.Val? ==> (AssignedToIntended(db, examId, userId, inst) <==> AssignedTo(db, examId, userId, inst))
  {
  }

  // ---- creation ---------------------------------------------------------

  /**
   * The code stored for a request: `code.toUpperCase()`. It is applied only
   * to a code the schema accepted, which holds ASCII letters, digits and `_`
   * alone, and on ASCII text JavaScript's upper-casing is the ASCII one.
   */
  function StoredCode(code: string): (r: string)
    ensures |r| == |code|
  {
    Strings.AsciiUpper(code)
  }

  /** There is a non-deleted exam with this code. */
  predicate CodeTaken(db: Db, code: string) {
    exists i :: 0 <= i < |db.exams| && db.exams[i].code == code && !db.exams[i].deleted
  }

  /**
   * Some exam row, deleted or not, has this code. The exam table's `code`
   * column is unique (the seed script upserts by it), and the index covers
   * soft-deleted rows too.
   */
  predicate CodeStored(db: Db, code: string) {
    exists i :: 0 <= i < |db.exams| && db.exams[i].code == code
  }

  /** The error the database raises when a new row repeats a unique `code`. */
  const UNIQUE_CODE := "Unique constraint failed on the fields: (`code`)"

  /** All exam rows, deleted or not, have pairwise distinct codes: the unique index. */
  predicate DistinctCodes(exams: seq<Exam>) {
    forall i, j :: 0 <= i < |exams| && 0 <= j < |exams| && i != j ==> exams[i].code != exams[j].code
  }

  /** Non-deleted exams have pairwise distinct codes. */
  predicate DistinctLiveCodes(exams: seq<Exam>) {
    forall i, j :: 0 <= i < |exams| && 0 <= j < |exams| && i != j && !exams[i].deleted && !exams[j].deleted
      ==> exams[i].code != exams[j].code
  }

  /** A session user whose role may create exams. */
  predicate MayCreate(session: Option<SessionUser>) {
    session.Some? && CanCreateExam(PermissionsOf(session.value))
  }

  /** The values the database fills in for a new row: its id, the time, and the status column's default. */
  datatype NewRow = NewRow(id: string, now: int, defaultStatus: ExamStatus)

  /**
   * The pre-check and the insert for a parsed exam: Conflict when a
   * non-deleted exam has its code, a plain Error from the unique index when
   * only a deleted one has it — the store unchanged in both — otherwise the
   * exam appended.
   */
  function InsertExam(db: Db, exam: Exam): (r: Step<Exam>)
    ensures r.out.Threw? ==> r.db == db
    ensures CodeTaken(db, exam.code) ==> r.out == Threw(ThrowApp(NewConflictError("Bu sınav kodu zaten kullanılıyor")))
    ensures !CodeTaken(db, exam.code) && CodeStored(db, exam.code) ==> r.out == Threw(ThrowPlain(UNIQUE_CODE))
    ensures r.out.Done? <==> !CodeStored(db, exam.code)
    ensures r.out.Done? ==> r.out.value == exam && r.db == db.(exams := db.exams + [exam])
  {
    if CodeTaken(db, exam.code) then Fail(db, ThrowApp(NewConflictError("Bu sınav kodu zaten kullanılıyor")))
    else if CodeStored(db, exam.code) then Fail(db, ThrowPlain(UNIQUE_CODE))
    else Step(db.(exams := db.exams + [exam]), Done(exam))
  }

  /**
   * `createExamHandler`: 401 without a session user, Forbidden for a role
   * that may not create exams, the schema's issues for a bad body, Conflict
   * when a non-deleted exam has the upper-cased code, and a plain Error from
   * the unique index when only a deleted exam has it — the store unchanged in
   * each case — otherwise the new exam appended with the upper-cased code.
   */
  method CreateExam(db: Db, session: Option<SessionUser>, input: ExamInput, row: NewRow) returns (r: Step<Exam>)
    ensures r.out.Threw? ==> r.db == db
    ensures session.None? ==> r.out == Threw(ThrowApp(NewUnauthorizedError(None)))
    ensures session.Some? && !MayCreate(session) ==> r.out == Threw(ThrowApp(NewForbiddenError(None)))
    ensures MayCreate(session) && CreateExamSchema(input).Invalid? ==>
      r.out == Threw(ThrowIssues(CreateExamSchema(input).issues))
    ensures MayCreate(session) && CreateExamSchema(input).Valid? && CodeTaken(db, StoredCode(input.code)) ==>
      r.out == Threw(ThrowApp(NewConflictError("Bu sınav kodu zaten kullanılıyor")))
    ensures MayCreate(session) && CreateExamSchema(input).Valid? && !CodeTaken(db, StoredCode(input.code))
            && CodeStored(db, StoredCode(input.code)) ==>
      r.out == Threw(ThrowPlain(UNIQUE_CODE))
    ensures r.out.Done? <==> MayCreate(session) && CreateExamSchema(input).Valid? && !CodeStored(db, StoredCode(input.code))
    ensures r.out.Done? ==>
      var v := CreateExamSchema(input).value;
      r.out.value == Exam(row.id, v.name, StoredCode(input.code), v.description, row.defaultStatus,
        v.startDate, v.endDate, row.now, false)
      && r.db == db.(exams := db.exams + [r.out.value])
    ensures DistinctLiveCodes(db.exams) ==> DistinctLiveCodes(r.db.exams)
    ensures DistinctCodes(db.exams) ==> DistinctCodes(r.db.exams)
  {
    if session.None? {
      r := Fail(db, ThrowApp(NewUnauthorizedError(None)));
    } else if !CanCreateExam(PermissionsOf(session.value)) {
      r := Fail(db, ThrowApp(NewForbiddenError(None)));
    } else {
      var parsed := CreateExamSchema(input);
      if parsed.Invalid? {
        r := Fail(db, ThrowIssues(parsed.issues));
      } else {
        var v := parsed.value;
        var exam := Exam(row.id, v.name, StoredCode(v.code), v.description, row.defaultStatus,
          v.startDate, v.endDate, row.now, false);
        r := InsertExam(db, exam);
        InsertKeepsCodesDistinct(db, exam);
      }
    }
  }

  /** Upper-casing an accepted code changes nothing: the stored code is the request's code. */
  lemma StoredCodeIsInput(code: string)
    requires CodeMessages(code) == []
    ensures StoredCode(code) == code
  {
    Strings.AsciiUpperEffect(code);
  }

  /** Appending an exam whose code no non-deleted exam has keeps the codes distinct. */
  lemma AppendKeepsDistinct(exams: seq<Exam>, e: Exam)
    requires DistinctLiveCodes(exams)
    requires forall i :: 0 <= i < |exams| && !exams[i].deleted ==> exams[i].code != e.code
    ensures DistinctLiveCodes(exams + [e])
  {
    var all := exams + [e];
    forall i, j | 0 <= i < |all| && 0 <= j < |all| && i != j && !all[i].deleted && !all[j].deleted
      ensures all[i].code != all[j].code
    {
      if i < |exams| && j < |exams| {
        assert all[i] == exams[i] && all[j] == exams[j];
      } else if i < |exams| {
        assert all[i] == exams[i] && all[j] == e;
      } else {
        assert all[j] == exams[j] && all[i] == e;
      }
    }
  }

  /** Appending an exam whose code no row has keeps all codes distinct. */
  lemma AppendKeepsUnique(exams: seq<Exam>, e: Exam)
    requires DistinctCodes(exams)
    requires forall i :: 0 <= i < |exams| ==> exams[i].code != e.code
    ensures DistinctCodes(exams + [e])
  {
    var all := exams + [e];
    forall i, j | 0 <= i < |all| && 0 <= j < |all| && i != j
      ensures all[i].code != all[j].code
    {
      if i < |exams| && j < |exams| {
        assert all[i] == exams[i] && all[j] == exams[j];
      } else if i < |exams| {
        assert all[i] == exams[i] && all[j] == e;
      } else {
        assert all[j] == exams[j] && all[i] == e;
      }
    }
  }

  /**
   * An insert keeps both uniqueness facts: the codes of non-deleted exams
   * stay pairwise distinct, and so do the codes of all rows (the unique index).
   */
  lemma InsertKeepsCodesDistinct(db: Db, exam: Exam)
    ensures DistinctLiveCodes(db.exams) ==> DistinctLiveCodes(InsertExam(db, exam).db.exams)
    ensures DistinctCodes(db.exams) ==> DistinctCodes(InsertExam(db, exam).db.exams)
  {
    if !CodeStored(db, exam.code) {
      if DistinctLiveCodes(db.exams) {
        AppendKeepsDistinct(db.exams, exam);
      }
      if DistinctCodes(db.exams) {
        AppendKeepsUnique(db.exams, exam);
      }
    }
  }
}

=== FILE: middleware.dfy ===
/**
 * The request middleware (middleware.ts): the `authorized` callback that
 * decides which paths need a token, and the CORS origin check.
 */
module Middleware {
  import opened Wrappers
  import Strings

  /** The paths the callback lets through without a token. */
  const PublicPaths: seq<string> :=
    ["/", "/auth/login", "/auth/register", "/onboarding", "/api/auth", "/api/health", "/api/exams/available"]

  /** `path === p || path.startsWith(p)` for some listed `p`. */
  predicate IsPublicAsWritten(path: string) {
    exists i :: 0 <= i < |PublicPaths| && (path == PublicPaths[i] || Strings.StartsWith(path, PublicPaths[i]))
  }

  /** `authorized({ token, req })`: public paths always, others only with a token. */
  function AuthorizedAsWritten(path: string, hasToken: bool): (ok: bool)
    ensures IsPublicAsWritten(path) ==> ok
    ensures !IsPublicAsWritten(path) ==> ok == hasToken
  {
    if IsPublicAsWritten(path) then true else hasToken
  }

  /**
   * Because '/' is listed and matching is by prefix, every path that starts
   * with '/' — every request pathname — is authorized without a token.
   */
  lemma EveryPathPublic(path: string)
    requires |path| >= 1 && path[0] == '/'
    ensures AuthorizedAsWritten(path, false)
  {
    assert Strings.StartsWith(path, PublicPaths[0]);
  }

  /** Prefix matching is raw: '/api/authz' and '/api/healthcheck' count as public on their own. */
  lemma RawPrefixMatch()
    ensures AuthorizedAsWritten("/api/authz", false)
    ensures AuthorizedAsWritten("/api/healthcheck", false)
  {
    assert Strings.StartsWith("/api/authz", PublicPaths[4]);
    assert Strings.StartsWith("/api/healthcheck", PublicPaths[5]);
  }

  /**
   * The intended check: '/' is public only as itself, every other listed path
   * also covers its sub-paths (the path continues with '/').
   */
  predicate IsPublic(path: string) {
    path == "/"
    || exists i :: 1 <= i < |PublicPaths| && CoversPath(PublicPaths[i], path)
  }

  /** `path` is `p` itself or a sub-path of it. */
  predicate CoversPath(p: string, path: string) {
    path == p || (Strings.StartsWith(path, p) && |path| > |p| && path[|p|] == '/')
  }

  /** The callback with the intended check. */
  function Authorized(path: string, hasToken: bool): (ok: bool)
    ensures ok <==> IsPublic(path) || hasToken
  {
    IsPublic(path) || hasToken
  }

  /**
   * With the intended check a protected page needs a token, a public path and
   * its sub-paths do not, and a path that only shares a raw prefix with a
   * public one does.
   */
  lemma AuthorizedProtects()
    ensures !Authorized("/dashboard", false) && Authorized("/dashboard", true)
    ensures Authorized("/", false) && Authorized("/api/auth/session", false)
    ensures !Authorized("/api/authz", false)
  {
    assert Strings.StartsWith("/api/auth/session", PublicPaths[4]);
    assert !IsPublic("/dashboard") by {
      forall i | 1 <= i < |PublicPaths|
        ensures !("/dashboard" == PublicPaths[i] || Strings.StartsWith("/dashboard", PublicPaths[i]))
      {
        assert PublicPaths[i][1] != 'd';
      }
    }
    assert !IsPublic("/api/authz") by {
      forall i | 1 <= i < |PublicPaths|
        ensures !CoversPath(PublicPaths[i], "/api/authz")
      {
        if i == 1 || i == 2 {
          assert PublicPaths[i][2] != "/api/authz"[2];
        } else if i == 3 {
          assert PublicPaths[i][1] != "/api/authz"[1];
        } else if i == 4 {
          assert "/api/authz"[|PublicPaths[i]|] == 'z';
        } else if i == 5 {
          assert PublicPaths[i][5] != "/api/authz"[5];
        } else {
          assert |PublicPaths[i]| > |"/api/authz"|;
        }
      }
    }
  }

  /** Every path the intended check lets through, the written one does too. */
  lemma IntendedIsStricter(path: string, hasToken: bool)
    ensures Authorized(path, hasToken) ==> AuthorizedAsWritten(path, hasToken)
  {
    if IsPublic(path) && path == "/" {
      assert path == PublicPaths[0];
    }
  }

  // ---- CORS -------------------------------------------------------------

  /**
   * `process.env.ALLOWED_ORIGINS?.split(',') || ['http://localhost:3000']`:
   * the comma-separated entries untrimmed, or the local origin when unset.
   * An empty variable still splits to `['']`.
   */
  function AllowedOrigins(env: Option<string>): (r: seq<string>)
    ensures |r| >= 1
    ensures env.None? ==> r == ["http://localhost:3000"]
    ensures env.Some? ==> r == Strings.Split(env.value, ',')
  {
    if env.Some? then Strings.Split(env.value, ',') else ["http://localhost:3000"]
  }

  /** The CORS headers the middleware adds. */
  datatype CorsHeaders = CorsHeaders(allowOrigin: string, allowCredentials: string, allowMethods: string, allowHeaders: string)

  /** Headers are added iff the request has a non-empty origin listed exactly. */
  function Cors(origin: Option<string>, env: Option<string>): (r: Option<CorsHeaders>)
    ensures r.Some? <==> origin.Some? && origin.value != "" && origin.value in AllowedOrigins(env)
    ensures r.Some? ==> r.value.allowOrigin == origin.value && r.value.allowCredentials == "true"
  {
    if origin.Some? && origin.value != "" && origin.value in AllowedOrigins(env) then
      Some(CorsHeaders(origin.value, "true", "GET, POST, PUT, DELETE, OPTIONS", "Content-Type, Authorization"))
    else None
  }

  /** An origin listed in the variable is matched exactly when the variable is joined back from its entries. */
  lemma ListedOriginAllowed(origins: seq<string>, i: int)
    requires 0 <= i < |origins|
    requires forall j :: 0 <= j < |origins| ==> ',' !in origins[j]
    requires origins[i] != ""
    ensures Cors(Some(origins[i]), Some(Strings.Join(origins, [',']))).Some?
  {
    Strings.SplitJoin(origins, ',');
  }
}

=== FILE: pagination.dfy ===
/** Page-number clamping and page arithmetic (lib/utils/pagination.ts). */
module Pagination {
  import opened Wrappers
  import opened Constants
  import Seqs

  /** A clamped page request. */
  datatype PageParams = PageParams(page: int, pageSize: int)

  /**
   * `getPaginationParams(page?, pageSize?)`. `page || 1` turns an absent or zero
   * page into 1 and `Math.max(1, ·)` lifts a negative one to 1; `pageSize ||
   * 20` turns an absent or zero size into 20, then the size is clamped to 1..100.
   */
  function GetPaginationParams(page: Option<int>, pageSize: Option<int>): (r: PageParams)
    ensures r.page >= 1
    ensures MIN_PAGE_SIZE <= r.pageSize <= MAX_PAGE_SIZE
    ensures page.None? || page.value <= 0 ==> r.page == 1
    ensures page.Some? && page.value >= 1 ==> r.page == page.value
    ensures pageSize.None? || pageSize.value == 0 ==> r.pageSize == DEFAULT_PAGE_SIZE
    ensures pageSize.Some? && pageSize.value < 0 ==> r.pageSize == MIN_PAGE_SIZE
    ensures pageSize.Some? && 1 <= pageSize.value <= 100 ==> r.pageSize == pageSize.value
    ensures pageSize.Some? && pageSize.value > 100 ==> r.pageSize == MAX_PAGE_SIZE
  {
    var p := if page.None? || page.value == 0 then 1 else page.value;
    var s := if pageSize.None? || pageSize.value == 0 then DEFAULT_PAGE_SIZE else pageSize.value;
    var lifted := if s < MIN_PAGE_SIZE then MIN_PAGE_SIZE else s;
    PageParams(if p < 1 then 1 else p, if lifted > MAX_PAGE_SIZE then MAX_PAGE_SIZE else lifted)
  }

  /** `getSkip(page, pageSize)`: rows before the page; never negative for page ≥ 1. */
  function GetSkip(page: int, pageSize: int): (r: int)
    ensures r + pageSize == page * pageSize
    ensures page >= 1 && pageSize >= 0 ==> r >= 0
  {
    (page - 1) * pageSize
  }

  /**
   * `getTotalPages(total, pageSize)` = `Math.ceil(total / pageSize)`: the fewest
   * pages of `pageSize` rows that hold `total` rows; 0 exactly when there are none.
   */
  function GetTotalPages(total: nat, pageSize: int): (r: nat)
    requires pageSize >= 1
    ensures r * pageSize >= total
    ensures r > 0 ==> (r - 1) * pageSize < total
    ensures r == 0 <==> total == 0
  {
    (total + pageSize - 1) / pageSize
  }

  /** Page metadata of a listing response. */
  datatype PageInfo = PageInfo(page: int, pageSize: int, total: nat, totalPages: nat, hasNext: bool, hasPrev: bool)

  /** A listing response: the page's rows and its metadata. */
  datatype Paginated<+T> = Paginated(data: seq<T>, pagination: PageInfo)

  /**
   * `createPaginatedResponse(data, total, page, pageSize)`: passes data, page,
   * size and total through; there is a next page iff `page < totalPages` and a
   * previous one iff `page > 1`.
   */
  function CreatePaginatedResponse<T>(data: seq<T>, total: nat, page: int, pageSize: int): (r: Paginated<T>)
    requires pageSize >= 1
    ensures r.data == data
    ensures r.pagination.page == page && r.pagination.pageSize == pageSize && r.pagination.total == total
    ensures r.pagination.totalPages == GetTotalPages(total, pageSize)
    ensures r.pagination.hasNext <==> page < GetTotalPages(total, pageSize)
    ensures r.pagination.hasPrev <==> page > 1
  {
    var totalPages := GetTotalPages(total, pageSize);
    Paginated(data, PageInfo(page, pageSize, total, totalPages, page < totalPages, page > 1))
  }

  /** A page inside the page range starts before the last row. */
  lemma SkipWithinTotal(total: nat, page: int, pageSize: int)
    requires pageSize >= 1
    requires 1 <= page <= GetTotalPages(total, pageSize)
    ensures 0 <= GetSkip(page, pageSize) < total
  {
    var tp := GetTotalPages(total, pageSize);
    assert (page - 1) * pageSize <= (tp - 1) * pageSize by {
      var k := tp - page;
      assert (tp - 1) * pageSize == (page - 1) * pageSize + k * pageSize;
    }
  }

  /**
   * The rows a query with `skip` and `take` returns: at most `take` rows, the
   * ones starting at position `skip` (none when `skip` is past the end).
   */
  function TakePage<T>(rows: seq<T>, skip: nat, take: nat): (r: seq<T>)
    ensures |r| <= take
    ensures skip >= |rows| ==> r == []
    ensures skip < |rows| ==> skip + |r| <= |rows| && r == rows[skip..skip + |r|]
    ensures skip + take <= |rows| ==> |r| == take
  {
    if skip >= |rows| then []
    else if skip + take <= |rows| then rows[skip..skip + take]
    else rows[skip..]
  }

  /** A page of a sorted sequence is sorted and holds only its elements. */
  lemma PageOfSorted<T>(s: seq<T>, skip: nat, take: nat, key: T -> int)
    requires Seqs.SortedBy(s, key)
    ensures Seqs.SortedBy(TakePage(s, skip, take), key)
    ensures forall x :: x in TakePage(s, skip, take) ==> x in s
  {
    var r := TakePage(s, skip, take);
    if skip < |s| {
      forall i, j | 0 <= i < j < |r|
        ensures key(r[i]) <= key(r[j])
      {
        assert r[i] == s[skip + i] && r[j] == s[skip + j];
      }
      forall x | x in r
        ensures x in s
      {
        var i :| 0 <= i < |r| && r[i] == x;
        assert x == s[skip + i];
      }
    }
  }
}

=== FILE: permissions.dfy ===
/** Role-based access predicates (lib/auth/permissions.ts). */
module Permissions {
  import opened Wrappers
  import opened Constants

  /** The caller's role, institution and id. */
  datatype UserPermissions = UserPermissions(role: Role, institutionId: JsId, userId: string)

  /** `hasRole(role, required)`: membership in the list. */
  predicate HasRole(role: Role, required: seq<Role>) {
    role in required
  }

  /** `isAdmin(role)`. */
  predicate IsAdmin(role: Role) {
    role == Admin
  }

  /** `isInstitutionAdmin(role)`. */
  predicate IsInstitutionAdmin(role: Role) {
    role == InstitutionAdmin
  }

  /** `canManageInstitution`: admins always, institution admins for their own institution only. */
  predicate CanManageInstitution(p: UserPermissions, targetInstitutionId: JsId) {
    if IsAdmin(p.role) then true
    else if IsInstitutionAdmin(p.role) then p.institutionId.StrictEq(targetInstitutionId)
    else false
  }

  /** `canManageUser`: admins, the user themself, or an institution admin of the same institution. */
  predicate CanManageUser(p: UserPermissions, targetUserId: string, targetInstitutionId: JsId) {
    if IsAdmin(p.role) then true
    else if p.userId == targetUserId then true
    else if IsInstitutionAdmin(p.role) then p.institutionId.StrictEq(targetInstitutionId)
    else false
  }

  /** `canViewExam`: institution admins only for their institution's exams, everyone else always. */
  predicate CanViewExam(p: UserPermissions, examInstitutionId: JsId) {
    if IsAdmin(p.role) then true
    else if IsInstitutionAdmin(p.role) then p.institutionId.StrictEq(examInstitutionId)
    else true
  }

  /** `canCreateExam`: the two administrator roles. */
  predicate CanCreateExam(p: UserPermissions) {
    IsAdmin(p.role) || IsInstitutionAdmin(p.role)
  }

  /** `canUpdateExam`: allowed to create, and allowed to view this exam. */
  predicate CanUpdateExam(p: UserPermissions, examInstitutionId: JsId) {
    CanCreateExam(p) && CanViewExam(p, examInstitutionId)
  }

  /** An admin passes every check for every target. */
  lemma AdminPassesAll(p: UserPermissions, targetUser: string, target: JsId)
    requires p.role == Admin
    ensures CanManageInstitution(p, target) && CanManageUser(p, targetUser, target)
    ensures CanViewExam(p, target) && CanCreateExam(p) && CanUpdateExam(p, target)
  {
  }

  /** Exam creation is allowed exactly for the two administrator roles. */
  lemma CanCreateExamRoles(p: UserPermissions)
    ensures CanCreateExam(p) <==> HasRole(p.role, [Admin, InstitutionAdmin])
  {
  }

  /** Updating an exam needs the right to create exams. */
  lemma UpdateImpliesCreate(p: UserPermissions, target: JsId)
    ensures CanUpdateExam(p, target) ==> CanCreateExam(p)
    ensures CanUpdateExam(p, target) ==> CanViewExam(p, target)
  {
  }

  /**
   * An institution admin passes the institution, exam and other-user checks
   * exactly when its institution id is strictly equal to the target's; two
   * `null` ids are equal, `null` and `undefined` are not.
   */
  lemma InstitutionAdminScope(p: UserPermissions, targetUser: string, target: JsId)
    requires p.role == InstitutionAdmin
    ensures CanManageInstitution(p, target) <==> p.institutionId.StrictEq(target)
    ensures CanViewExam(p, target) <==> p.institutionId.StrictEq(target)
    ensures CanUpdateExam(p, target) <==> p.institutionId.StrictEq(target)
    ensures targetUser != p.userId ==> (CanManageUser(p, targetUser, target) <==> p.institutionId.StrictEq(target))
    ensures p.institutionId == Null && target == Null ==> CanViewExam(p, target)
    ensures p.institutionId == Null && target == Undefined ==> !CanViewExam(p, target)
  {
  }

  /** Everyone may manage their own user record. */
  lemma ManageSelf(p: UserPermissions, target: JsId)
    ensures CanManageUser(p, p.userId, target)
  {
  }

  /** Individuals and viewers may view any exam but manage no institution and create no exam. */
  lemma PlainUserRights(p: UserPermissions, targetUser: string, target: JsId)
    requires p.role == Individual || p.role == Viewer
    ensures CanViewExam(p, target)
    ensures !CanManageInstitution(p, target) && !CanCreateExam(p) && !CanUpdateExam(p, target)
    ensures targetUser != p.userId ==> !CanManageUser(p, targetUser, target)
  {
  }
}

=== FILE: pomodoro.dfy ===
/**
 * The pomodoro endpoints (app/api/pomodoro/route.ts): starting a session and
 * the history listing with its study statistics. The clock reading, the new
 * row's id and the local-time boundaries of today and of this week are
 * parameters.
 */
module Pomodoro {
  import opened Wrappers
  import opened Store
  import opened AppErrors
  import opened ErrorHandler
  import opened Schemas
  import opened Effects
  import Rounding
  import Seqs
  import Pagination

  // ---- starting a session ---------------------------------------------------

  /** A JSON body field: absent, `null`, a value of another type (named), or a value of the expected type. */
  datatype BodyField<+T> = Missing | JsonNull | OtherType(received: string) | Given(v: T)

  /** The body of a start request. */
  datatype StartInput = StartInput(duration: BodyField<NumberValue>, isBreak: BodyField<bool>)

  /** The parsed start request. */
  datatype StartData = StartData(duration: int, isBreak: bool)

  /**
   * `duration: z.number().int().positive().default(25)`: absent takes 25, a
   * value of another type fails its type check, a number gets the number
   * rule's messages.
   */
  function DurationField(f: BodyField<NumberValue>): (r: Validated<int>)
    ensures f.Missing? ==> r == Valid(25)
    ensures r.Valid? <==> f.Missing? || (f.Given? && AcceptedNumber(f.v, Positive, None))
    ensures f.Given? && r.Valid? ==> f.v == Finite(r.value as real) && r.value > 0
    ensures f.Given? && r.Invalid? ==> r.issues == FieldIssues("duration", NumberMessages(f.v, Positive, None))
  {
    match f
    case Missing => Valid(25)
    case JsonNull => Invalid([Issue(["duration"], "Expected number, received null")])
    case OtherType(t) => Invalid([Issue(["duration"], "Expected number, received " + t)])
    case Given(v) =>
      var messages := NumberMessages(v, Positive, None);
      if messages == [] then Valid(IntValue(v)) else Invalid(FieldIssues("duration", messages))
  }

  /** A negative fraction fails both the integer and the positive check. */
  lemma NegativeFractionDuration()
    ensures DurationField(Given(Finite(-1.5)))
      == Invalid([Issue(["duration"], FLOAT_MESSAGE), Issue(["duration"], "Number must be greater than 0")])
  {
    assert (-1.5).Floor == -2;
  }

  /** `isBreak: z.boolean().default(false)`. */
  function IsBreakField(f: BodyField<bool>): (r: Validated<bool>)
    ensures f.Missing? ==> r == Valid(false)
    ensures r.Valid? <==> f.Missing? || f.Given?
    ensures f.Given? ==> r == Valid(f.v)
  {
    match f
    case Missing => Valid(false)
    case JsonNull => Invalid([Issue(["isBreak"], "Expected boolean, received null")])
    case OtherType(t) => Invalid([Issue(["isBreak"], "Expected boolean, received " + t)])
    case Given(b) => Valid(b)
  }

  /** `startPomodoroSchema`: both fields' issues, in field order. */
  function StartSchema(input: StartInput): (r: Validated<StartData>)
    ensures r.Valid? <==> DurationField(input.duration).Valid? && IsBreakField(input.isBreak).Valid?
    ensures r.Valid? ==> r.value == StartData(DurationField(input.duration).value, IsBreakField(input.isBreak).value)
    ensures r.Valid? ==> r.value.duration > 0
    ensures input == StartInput(Missing, Missing) ==> r == Valid(StartData(25, false))
  {
    var d := DurationField(input.duration);
    var b := IsBreakField(input.isBreak);
    if d.Valid? && b.Valid? then Valid(StartData(d.value, b.value))
    else Invalid((if d.Invalid? then d.issues else []) + (if b.Invalid? then b.issues else []))
  }

  /**
   * `startPomodoroHandler`: 401 without a session user, the schema's issues
   * for a bad body — the store unchanged in both cases — otherwise a new,
   * not completed session of the caller started at `now`.
   */
  function Start(db: Db, session: Option<SessionUser>, input: StartInput, id: string, now: int): (r: Step<PomodoroSession>)
    ensures r.out.Threw? ==> r.db == db
    ensures session.None? ==> r.out == Threw(ThrowApp(NewUnauthorizedError(None)))
    ensures session.Some? && StartSchema(input).Invalid? ==> r.out == Threw(ThrowIssues(StartSchema(input).issues))
    ensures r.out.Done? <==> session.Some? && StartSchema(input).Valid?
    ensures r.out.Done? ==>
      var v := StartSchema(input).value;
      r.out.value == PomodoroSession(id, session.value.id, v.duration, v.isBreak, false, now, false)
      && r.db == db.(pomodoros := db.pomodoros + [r.out.value])
  {
    if session.None? then Fail(db, ThrowApp(NewUnauthorizedError(None)))
    else
      match StartSchema(input)
      case Invalid(issues) => Fail(db, ThrowIssues(issues))
      case Valid(v) =>
        var row := PomodoroSession(id, session.value.id, v.duration, v.isBreak, false, now, false);
        Step(db.(pomodoros := db.pomodoros + [row]), Done(row))
  }

  // ---- history -----------------------------------------------------------

  /** `parseInt(param || default)`: an absent or empty parameter takes the default. */
  function QueryInt(param: Option<int>, default: int): (n: int)
    ensures param.None? ==> n == default
    ensures param.Some? ==> n == param.value
  {
    param.GetOr(default)
  }

  /** `Math.ceil(total / limit)` in JavaScript numbers. */
  datatype PageCount = Pages(n: int) | Infinite | NotANumber

  /**
   * The page count: the ceiling for a positive limit, `Infinity` (rows but a
   * zero limit) or `NaN` (no rows and a zero limit), and the ceiling of the
   * negative quotient for a negative limit.
   */
  function TotalPages(total: nat, limit: int): (r: PageCount)
    ensures limit > 0 ==> r.Pages? && (r.n - 1) * limit < total <= r.n * limit
    ensures limit == 0 ==> r == (if total == 0 then NotANumber else Infinite)
    ensures limit < 0 ==> r.Pages? && r.n * limit <= total < (r.n - 1) * limit
  {
    if limit > 0 then Pages((total + limit - 1) / limit)
    else if limit == 0 then (if total == 0 then NotANumber else Infinite)
    else Pages(-(total / -limit))
  }

  /** A work session counted by the statistics, started at or after `since` when given. */
  function Worked(userId: string, since: Option<int>): PomodoroSession -> bool {
    (s: PomodoroSession) => StudySession(userId, s) && (since.None? || s.startedAt >= since.value)
  }

  /** Count and rounded tenths of an hour of the counted sessions. */
  datatype Figures = Figures(sessions: nat, studyTenths: int)

  /** `_count` and `Math.round((_sum.duration || 0) / 60 * 10) / 10` over the selected sessions. */
  function FiguresOf(db: Db, userId: string, since: Option<int>): (f: Figures)
    ensures f.sessions == |Seqs.Filter(db.pomodoros, Worked(userId, since))|
    ensures 120 * f.studyTenths <= 20 * Minutes(Seqs.Filter(db.pomodoros, Worked(userId, since))) + 60 < 120 * (f.studyTenths + 1)
  {
    var selected := Seqs.Filter(db.pomodoros, Worked(userId, since));
    Figures(|selected|, Rounding.HourTenths(Minutes(selected)))
  }

  /** The three statistics blocks. */
  datatype PomodoroStats = PomodoroStats(total: Figures, today: Figures, week: Figures)

  /** The history answer: the page of sessions, the page metadata and the statistics. */
  datatype History = History(
    sessions: Option<seq<PomodoroSession>>, total: nat, page: int, limit: int, totalPages: PageCount, stats: PomodoroStats)

  /** The caller's non-deleted sessions, newest first. */
  function NewestFirst(db: Db, userId: string): (r: seq<PomodoroSession>)
    ensures Seqs.SortedBy(r, (s: PomodoroSession) => -s.startedAt)
    ensures multiset(r) == multiset(Seqs.Filter(db.pomodoros, (s: PomodoroSession) => s.userId == userId && !s.deleted))
  {
    Seqs.SortBy(Seqs.Filter(db.pomodoros, (s: PomodoroSession) => s.userId == userId && !s.deleted),
      (s: PomodoroSession) => -s.startedAt)
  }

  /** The store's complaint about a negative skip; only its plainness reaches the response. */
  const NEGATIVE_SKIP := "Invalid value for argument `skip`"

  /**
   * `getPomodoroHistoryHandler`: 401 without a session user; otherwise the
   * page of the caller's non-deleted sessions (newest first, skip
   * `(page - 1) * limit`, take `limit`), the count of all of them, the page
   * metadata with the unclamped `page` and `limit`, and the statistics of
   * completed work sessions overall, since `today` and since `weekStart`.
   * A negative skip (a page below 1 with a positive limit, or a page above 1
   * with a negative limit) makes the store's query throw a plain error,
   * answered 500; the rows for a negative take alone are not decided (`None`).
   */
  function GetHistory(db: Db, session: Option<SessionUser>, limitParam: Option<int>, pageParam: Option<int>,
                      today: int, weekStart: int): (r: Outcome<History>)
    ensures session.None? ==> r == Threw(ThrowApp(NewUnauthorizedError(None)))
    ensures r.Done? <==> session.Some? && (QueryInt(pageParam, 1) - 1) * QueryInt(limitParam, 20) >= 0
    ensures session.Some? && (QueryInt(pageParam, 1) - 1) * QueryInt(limitParam, 20) < 0 ==>
      r.Threw? && r.error.appError.None? && r.error.issues.None?
    ensures r.Done? ==>
      var h := r.value;
      var mine := NewestFirst(db, session.value.id);
      h.limit == QueryInt(limitParam, 20) && h.page == QueryInt(pageParam, 1)
      && h.total == |mine|
      && h.totalPages == TotalPages(|mine|, h.limit)
      && (h.sessions.Some? <==> h.limit >= 0)
      && (h.sessions.Some? ==> h.sessions.value == Pagination.TakePage(mine, (h.page - 1) * h.limit, h.limit))
      && h.stats == PomodoroStats(FiguresOf(db, session.value.id, None), FiguresOf(db, session.value.id, Some(today)),
                                  FiguresOf(db, session.value.id, Some(weekStart)))
  {
    if session.None? then Threw(ThrowApp(NewUnauthorizedError(None)))
    else
      var userId := session.value.id;
      var limit := QueryInt(limitParam, 20);
      var page := QueryInt(pageParam, 1);
      var skip := (page - 1) * limit;
      if skip < 0 then Threw(ThrowPlain(NEGATIVE_SKIP))
      else
        var mine := NewestFirst(db, userId);
        var rows := if limit >= 0 then Some(Pagination.TakePage(mine, skip, limit)) else None;
        var stats := PomodoroStats(FiguresOf(db, userId, None), FiguresOf(db, userId, Some(today)), FiguresOf(db, userId, Some(weekStart)));
        Done(History(rows, |mine|, page, limit, TotalPages(|mine|, limit), stats))
  }

  /**
   * A later lower bound selects no more sessions and, with non-negative
   * durations, no more study time.
   */
  lemma {:induction false} FiguresMonotone(db: Db, userId: string, narrow: Option<int>, wide: Option<int>)
    requires wide.None? || (narrow.Some? && wide.value <= narrow.value)
    requires forall i :: 0 <= i < |db.pomodoros| ==> db.pomodoros[i].duration >= 0
    ensures FiguresOf(db, userId, narrow).sessions <= FiguresOf(db, userId, wide).sessions
    ensures FiguresOf(db, userId, narrow).studyTenths <= FiguresOf(db, userId, wide).studyTenths
  {
    var p := Worked(userId, wide);
    var q := Worked(userId, narrow);
    assert forall x :: q(x) ==> p(x);
    Seqs.FilterMonotone(db.pomodoros, p, q);
    Seqs.SumOfFilterMonotone(db.pomodoros, p, q, (s: PomodoroSession) => s.duration);
    Rounding.HourTenthsMonotone(Minutes(Seqs.Filter(db.pomodoros, q)), Minutes(Seqs.Filter(db.pomodoros, p)));
  }

  /**
   * Since the week starts on or before today, today's figures never exceed
   * this week's, and this week's never exceed the totals.
   */
  lemma StatsOrdered(db: Db, u: SessionUser, limitParam: Option<int>, pageParam: Option<int>, today: int, weekStart: int)
    requires weekStart <= today
    requires forall i :: 0 <= i < |db.pomodoros| ==> db.pomodoros[i].duration >= 0
    ensures GetHistory(db, Some(u), limitParam, pageParam, today, weekStart).Done? ==>
      var s := GetHistory(db, Some(u), limitParam, pageParam, today, weekStart).value.stats;
      s.today.sessions <= s.week.sessions <= s.total.sessions
      && s.today.studyTenths <= s.week.studyTenths <= s.total.studyTenths
  {
    FiguresMonotone(db, u.id, Some(today), Some(weekStart));
    FiguresMonotone(db, u.id, Some(weekStart), None);
  }

  /** A just-started session is not completed, so it changes none of the statistics. */
  lemma {:induction false} StartLeavesStats(db: Db, u: SessionUser, input: StartInput, id: string, now: int,
                                            since: Option<int>)
    requires Start(db, Some(u), input, id, now).out.Done?
    ensures FiguresOf(Start(db, Some(u), input, id, now).db, u.id, since) == FiguresOf(db, u.id, since)
  {
    var r := Start(db, Some(u), input, id, now);
    var row := r.out.value;
    var p := Worked(u.id, since);
    Seqs.FilterConcat(db.pomodoros, [row], p);
    assert !p(row);
    assert Seqs.Filter([row], p) == [];
    assert Seqs.Filter(db.pomodoros, p) + [] == Seqs.Filter(db.pomodoros, p);
  }

  /** A started session appears on the caller's history: the history total grows by one. */
  lemma {:induction false} StartCountsInHistory(db: Db, u: SessionUser, input: StartInput, id: string, now: int)
    requires Start(db, Some(u), input, id, now).out.Done?
    ensures |NewestFirst(Start(db, Some(u), input, id, now).db, u.id)| == |NewestFirst(db, u.id)| + 1
  {
    var r := Start(db, Some(u), input, id, now);
    var row := r.out.value;
    var p := (s: PomodoroSession) => s.userId == u.id && !s.deleted;
    Seqs.FilterConcat(db.pomodoros, [row], p);
    assert Seqs.Filter([row], p) == [row];
  }
}

=== FILE: progress.dfy ===
/**
 * The progress endpoints (app/api/progress/route.ts): the upsert of one
 * (user, topic) row and the listing filter.
 */
module ProgressApi {
  import opened Wrappers
  import opened Constants
  import opened Store
  import opened AppErrors
  import opened ErrorHandler
  import opened Schemas
  import opened Effects
  import Pagination

  // ---- upsert -----------------------------------------------------------

  /** The topic exists and is not deleted. */
  predicate LiveTopic(db: Db, topicId: string) {
    exists i :: 0 <= i < |db.topics| && db.topics[i].id == topicId && !db.topics[i].deleted
  }

  /** `status === 'COMPLETED' ? now : null`. */
  function CompletedAt(status: ProgressStatus, now: int): (r: Option<int>)
    ensures r.Some? <==> status == Completed
    ensures r.Some? ==> r.value == now
  {
    if status == Completed then Some(now) else None
  }

  /**
   * The row after the upsert. An existing row gets the new status, the new
   * `completedAt` and `updatedAt`, and the new notes when given (an omitted
   * field leaves the column alone); its soft-delete flag is not touched. A
   * new row has the status, the notes or null, and is not deleted.
   */
  function UpsertRow(prior: Option<Progress>, userId: string, data: ProgressData, now: int): (r: Progress)
    ensures r.userId == (if prior.Some? then prior.value.userId else userId)
    ensures r.topicId == (if prior.Some? then prior.value.topicId else data.topicId)
    ensures r.status == data.status && r.updatedAt == now
    ensures r.completedAt == CompletedAt(data.status, now)
    ensures data.notes.Some? ==> r.notes == data.notes
    ensures data.notes.None? ==> r.notes == (if prior.Some? then prior.value.notes else None)
    ensures r.deleted == (prior.Some? && prior.value.deleted)
  {
    match prior
    case Some(row) =>
      row.(status := data.status, notes := if data.notes.Some? then data.notes else row.notes,
        completedAt := CompletedAt(data.status, now), updatedAt := now)
    case None =>
      Progress(userId, data.topicId, data.status, data.notes, CompletedAt(data.status, now), now, false)
  }

  /** The progress table after upserting the row keyed by (user, topic). */
  function Upsert(progress: map<(string, string), Progress>, userId: string, data: ProgressData, now: int)
    : (r: map<(string, string), Progress>)
    ensures (userId, data.topicId) in r
    ensures r.Keys == progress.Keys + {(userId, data.topicId)}
    ensures forall k :: k in progress && k != (userId, data.topicId) ==> r[k] == progress[k]
  {
    var key := (userId, data.topicId);
    progress[key := UpsertRow(if key in progress then Some(progress[key]) else None, userId, data, now)]
  }

  /**
   * `updateProgressHandler`: 401 without a session user, the schema's issues
   * for a bad body, NotFound('Topic not found') for a missing or deleted
   * topic — each leaving the store unchanged — otherwise the upserted row.
   */
  function UpdateProgress(db: Db, session: Option<SessionUser>, input: ProgressInput, now: int): (r: Step<Progress>)
    ensures r.out.Threw? ==> r.db == db
    ensures session.None? ==> r.out == Threw(ThrowApp(NewUnauthorizedError(None)))
    ensures session.Some? && UpdateProgressSchema(input).Invalid? ==>
      r.out == Threw(ThrowIssues(UpdateProgressSchema(input).issues))
    ensures session.Some? && UpdateProgressSchema(input).Valid? && !LiveTopic(db, input.topicId) ==>
      r.out == Threw(ThrowApp(NewNotFoundError(Some("Topic not found"))))
    ensures r.out.Done? <==> session.Some? && UpdateProgressSchema(input).Valid? && LiveTopic(db, input.topicId)
    ensures r.out.Done? ==>
      var key := (session.value.id, input.topicId);
      r.db == db.(progress := Upsert(db.progress, session.value.id, UpdateProgressSchema(input).value, now))
      && r.out.value == r.db.progress[key]
  {
    if session.None? then Fail(db, ThrowApp(NewUnauthorizedError(None)))
    else
      match UpdateProgressSchema(input)
      case Invalid(issues) => Fail(db, ThrowIssues(issues))
      case Valid(data) =>
        if !LiveTopic(db, data.topicId) then Fail(db, ThrowApp(NewNotFoundError(Some("Topic not found"))))
        else
          var progress := Upsert(db.progress, session.value.id, data, now);
          Step(db.(progress := progress), Done(progress[(session.value.id, data.topicId)]))
  }

  /**
   * After a successful update the (user, topic) row carries the requested
   * status, `completedAt` is set exactly for COMPLETED, every other key keeps
   * its row (and no key other than this one appears), and the other tables
   * are unchanged.
   */
  lemma UpdateEffect(db: Db, session: SessionUser, input: ProgressInput, now: int)
    requires UpdateProgress(db, Some(session), input, now).out.Done?
    ensures var r := UpdateProgress(db, Some(session), input, now);
      var key := (session.id, input.topicId);
      key in r.db.progress
      && StatusName(r.db.progress[key].status) == input.status
      && (r.db.progress[key].completedAt.Some? <==> input.status == "COMPLETED")
      && (forall k :: k != key ==> (k in r.db.progress <==> k in db.progress))
      && (forall k :: k != key && k in db.progress ==> r.db.progress[k] == db.progress[k])
      && r.db.exams == db.exams && r.db.topics == db.topics && r.db.users == db.users
      && r.db.assignments == db.assignments && r.db.pomodoros == db.pomodoros
  {
    var data := UpdateProgressSchema(input).value;
    var r := UpdateProgress(db, Some(session), input, now);
    var key := (session.id, input.topicId);
    assert r.db.progress[key] == UpsertRow(if key in db.progress then Some(db.progress[key]) else None, session.id, data, now);
    if input.status == "COMPLETED" {
      assert data.status == Completed;
    } else {
      assert data.status != Completed by {
        assert StatusName(data.status) == input.status;
      }
    }
  }

  /**
   * Repeating the same upsert later gives the table that the later upsert
   * alone gives: the earlier application leaves nothing behind.
   */
  lemma {:induction false} UpsertIdempotent(
    progress: map<(string, string), Progress>, userId: string, data: ProgressData, first: int, second: int)
    ensures Upsert(Upsert(progress, userId, data, first), userId, data, second) == Upsert(progress, userId, data, second)
  {
    var key := (userId, data.topicId);
    var once := Upsert(progress, userId, data, first);
    var twiceRow := UpsertRow(Some(once[key]), userId, data, second);
    var directRow := UpsertRow(if key in progress then Some(progress[key]) else None, userId, data, second);
    assert twiceRow == directRow;
    assert Upsert(once, userId, data, second) == once[key := twiceRow];
    assert once[key := twiceRow] == progress[key := directRow];
  }

  // ---- listing ----------------------------------------------------------

  /**
   * The listing filter: always the caller's non-deleted rows; a topic
   * condition when a non-empty topicId is given; a status condition when a
   * non-empty status is given.
   */
  datatype ProgressWhere = ProgressWhere(userId: string, topicId: Option<string>, status: Option<string>)

  /** `where` as built from the query string (`if (topicId)`, `if (status)`). */
  function ListingFilter(userId: string, topicId: Option<string>, status: Option<string>): (w: ProgressWhere)
    ensures w.userId == userId
    ensures w.topicId.Some? <==> topicId.Some? && topicId.value != ""
    ensures w.topicId.Some? ==> w.topicId == topicId
    ensures w.status.Some? <==> status.Some? && status.value != ""
    ensures w.status.Some? ==> w.status == status
  {
    ProgressWhere(userId,
      if topicId.Some? && topicId.value != "" then topicId else None,
      if status.Some? && status.value != "" then status else None)
  }

  /** A stored row matches the filter. */
  predicate Matches(w: ProgressWhere, row: Progress) {
    row.userId == w.userId && !row.deleted
    && (w.topicId.None? || row.topicId == w.topicId.value)
    && (w.status.None? || StatusName(row.status) == w.status.value)
  }

  /** The keys of the rows the filter selects. */
  function Selected(progress: map<(string, string), Progress>, w: ProgressWhere): (r: set<(string, string)>)
    ensures forall k :: k in r <==> k in progress && Matches(w, progress[k])
  {
    set k | k in progress.Keys && Matches(w, progress[k])
  }

  /** The rows stored under the given keys, in the keys' order. */
  function RowsAt(progress: map<(string, string), Progress>, keys: seq<(string, string)>): (r: seq<Progress>)
    requires forall k :: k in keys ==> k in progress
    ensures |r| == |keys|
    ensures forall i :: 0 <= i < |keys| ==> r[i] == progress[keys[i]]
  {
    if keys == [] then [] else [progress[keys[0]]] + RowsAt(progress, keys[1..])
  }

  /** A row is stored under one of the keys exactly when it appears among their rows. */
  lemma RowsAtMembers(progress: map<(string, string), Progress>, keys: seq<(string, string)>)
    requires forall k :: k in keys ==> k in progress
    ensures forall row :: row in RowsAt(progress, keys) <==> exists k :: k in keys && progress[k] == row
  {
    var rows := RowsAt(progress, keys);
    forall row | row in rows
      ensures exists k :: k in keys && progress[k] == row
    {
      var i :| 0 <= i < |rows| && rows[i] == row;
      assert keys[i] in keys;
    }
    forall row | exists k :: k in keys && progress[k] == row
      ensures row in rows
    {
      var k :| k in keys && progress[k] == row;
      var i :| 0 <= i < |keys| && keys[i] == k;
      assert rows[i] == row;
    }
  }

  /**
   * The selected rows, most recently updated first (`orderBy: { updatedAt:
   * 'desc' }`); rows updated at the same instant come in no promised order.
   * Every selected row appears once and nothing else does.
   */
  ghost function NewestFirst(progress: map<(string, string), Progress>, w: ProgressWhere): (r: seq<Progress>)
    ensures Seqs.SortedBy(r, (p: Progress) => -p.updatedAt)
    ensures |r| == |Selected(progress, w)|
    ensures forall row :: row in r <==> exists k :: k in progress && Matches(w, progress[k]) && progress[k] == row
  {
    var keys := Seqs.FromSet(Selected(progress, w));
    var rows := RowsAt(progress, keys);
    RowsAtMembers(progress, keys);
    Seqs.SortByMembers(rows, (p: Progress) => -p.updatedAt);
    Seqs.SortBy(rows, (p: Progress) => -p.updatedAt)
  }

  /** The listing answer: the page of rows and the page metadata. */
  datatype ProgressListing = ProgressListing(rows: seq<Progress>, pagination: Pagination.PageInfo)

  /**
   * `getProgressHandler`: 401 without a session user, the pagination
   * schema's issues, a failing query for a status that is not an enum name,
   * otherwise the selected rows most recently updated first, sliced to the
   * clamped page, with the page metadata over the count of all selected rows.
   */
  ghost function ListProgress(db: Db, session: Option<SessionUser>, page: RawField, pageSize: RawField,
                              topicId: Option<string>, status: Option<string>): (r: Outcome<ProgressListing>)
    ensures session.None? ==> r == Threw(ThrowApp(NewUnauthorizedError(None)))
    ensures session.Some? && PaginationSchema(page, pageSize).Invalid? ==>
      r == Threw(ThrowIssues(PaginationSchema(page, pageSize).issues))
    ensures r.Done? <==>
      session.Some? && PaginationSchema(page, pageSize).Valid?
      && (ListingFilter(session.value.id, topicId, status).status.None?
          || ParseProgressStatus(ListingFilter(session.value.id, topicId, status).status.value).Some?)
    ensures r.Done? ==>
      var w := ListingFilter(session.value.id, topicId, status);
      var pp := PaginationSchema(page, pageSize).value;
      var p := Pagination.GetPaginationParams(Some(pp.0), Some(pp.1));
      r.value.rows == Pagination.TakePage(NewestFirst(db.progress, w), Pagination.GetSkip(p.page, p.pageSize), p.pageSize)
      && r.value.pagination.total == |Selected(db.progress, w)|
      && r.value.pagination.page == pp.0 && r.value.pagination.pageSize == pp.1
      && r.value.pagination.totalPages == Pagination.GetTotalPages(|Selected(db.progress, w)|, pp.1)
    ensures r.Threw? && session.Some? && PaginationSchema(page, pageSize).Valid? ==>
      r.error.appError.None? && r.error.issues.None?
  {
    if session.None? then Threw(ThrowApp(NewUnauthorizedError(None)))
    else
      match PaginationSchema(page, pageSize)
      case Invalid(issues) => Threw(ThrowIssues(issues))
      case Valid(pp) =>
        var p := Pagination.GetPaginationParams(Some(pp.0), Some(pp.1));
        var w := ListingFilter(session.value.id, topicId, status);
        if w.status.Some? && ParseProgressStatus(w.status.value).None? then
          Threw(ThrowPlain("Invalid value for argument `status`"))
        else
          var total := |Selected(db.progress, w)|;
          var rows := Pagination.TakePage(NewestFirst(db.progress, w), Pagination.GetSkip(p.page, p.pageSize), p.pageSize);
          Done(ProgressListing(rows, Pagination.CreatePaginatedResponse(rows, total, p.page, p.pageSize).pagination))
  }

  /**
   * A page of the ordered selection holds only selected rows, most recently
   * updated first; the first page, when it is large enough, holds them all.
   */
  lemma PageOfSelection(progress: map<(string, string), Progress>, w: ProgressWhere,
                        page: seq<Progress>, skip: nat, take: nat)
    requires page == Pagination.TakePage(NewestFirst(progress, w), skip, take)
    ensures |page| <= take
    ensures forall i :: 0 <= i < |page| ==> Matches(w, page[i])
    ensures forall i, j :: 0 <= i < j < |page| ==> page[i].updatedAt >= page[j].updatedAt
    ensures skip == 0 && |Selected(progress, w)| <= take ==>
      forall k :: k in progress && Matches(w, progress[k]) ==> progress[k] in page
  {
    var sorted := NewestFirst(progress, w);
    Pagination.PageOfSorted(sorted, skip, take, (q: Progress) => -q.updatedAt);
    forall i | 0 <= i < |page|
      ensures Matches(w, page[i])
    {
      assert page[i] in sorted;
    }
    forall i, j | 0 <= i < j < |page|
      ensures page[i].updatedAt >= page[j].updatedAt
    {
      assert -page[i].updatedAt <= -page[j].updatedAt;
    }
    if skip == 0 && |Selected(progress, w)| <= take {
      assert page == sorted;
    }
  }

  /**
   * Every listed row is the caller's and not deleted, at most a page of them
   * is listed, and they come most recently updated first.
   */
  lemma ListingScope(db: Db, session: SessionUser, page: RawField, pageSize: RawField,
                     topicId: Option<string>, status: Option<string>, r: ProgressListing)
    requires ListProgress(db, Some(session), page, pageSize, topicId, status) == Done(r)
    ensures |r.rows| <= r.pagination.pageSize
    ensures forall i :: 0 <= i < |r.rows| ==> r.rows[i].userId == session.id && !r.rows[i].deleted
    ensures forall i, j :: 0 <= i < j < |r.rows| ==> r.rows[i].updatedAt >= r.rows[j].updatedAt
  {
    var w := ListingFilter(session.id, topicId, status);
    var pp := PaginationSchema(page, pageSize).value;
    var p := Pagination.GetPaginationParams(Some(pp.0), Some(pp.1));
    PageOfSelection(db.progress, w, r.rows, Pagination.GetSkip(p.page, p.pageSize), p.pageSize);
  }

  /**
   * Without conditions, the first page of a size that covers all of the
   * caller's non-deleted rows lists each of them.
   */
  lemma ListingComplete(db: Db, session: SessionUser, page: RawField, pageSize: RawField, r: ProgressListing)
    requires ListProgress(db, Some(session), page, pageSize, None, None) == Done(r)
    requires r.pagination.page == 1 && r.pagination.total <= r.pagination.pageSize
    ensures forall k :: k in db.progress && db.progress[k].userId == session.id && !db.progress[k].deleted ==>
      db.progress[k] in r.rows
  {
    var w := ListingFilter(session.id, None, None);
    assert w == ProgressWhere(session.id, None, None);
    var pp := PaginationSchema(page, pageSize).value;
    var p := Pagination.GetPaginationParams(Some(pp.0), Some(pp.1));
    assert p.page == pp.0 == 1 && p.pageSize == pp.1 == r.pagination.pageSize;
    assert |Selected(db.progress, w)| <= p.pageSize;
    var skip := Pagination.GetSkip(p.page, p.pageSize);
    assert skip == 0 * p.pageSize;
    PageOfSelection(db.progress, w, r.rows, skip, p.pageSize);
  }
}

=== FILE: rate_limit.dfy ===
/**
 * The fixed-window rate limiter (lib/middleware/rateLimit.ts). The
 * process-wide record table is a value passed in and returned, and the clock
 * reading `now` is a parameter.
 */
module RateLimit {
  import opened Wrappers
  import opened Constants
  import Strings

  /** A client's window: requests counted so far and the time the window ends. */
  datatype Record = Record(count: int, resetTime: int)

  /** The record table, keyed by client identifier. */
  type RateStore = map<string, Record>

  /** The limiter's settings. */
  datatype Limits = Limits(maxRequests: int, windowMs: int)

  /** `rateLimit(maxRequests?, windowMs?)`: omitted settings take 100 requests per 15 minutes. */
  function Configure(maxRequests: Option<int>, windowMs: Option<int>): (l: Limits)
    ensures l.maxRequests == (if maxRequests.Some? then maxRequests.value else RATE_LIMIT_MAX_REQUESTS)
    ensures l.windowMs == (if windowMs.Some? then windowMs.value else RATE_LIMIT_WINDOW_MS)
  {
    Limits(maxRequests.GetOr(RATE_LIMIT_MAX_REQUESTS), windowMs.GetOr(RATE_LIMIT_WINDOW_MS))
  }

  /**
   * The answer to one request: let it through (`null`), or reject it with
   * status 400, code RATE_LIMIT_EXCEEDED and the limit headers.
   */
  datatype Decision =
    | Allow
    | Reject(status: int, message: string, code: string, limitHeader: int, remainingHeader: int, resetHeader: int)

  /** The table after a request, and the answer. */
  datatype Decided = Decided(store: RateStore, decision: Decision)

  /** A record is expired once the clock has passed its reset time (strictly). */
  predicate Expired(r: Record, now: int) {
    now > r.resetTime
  }

  /**
   * One request from `id` at `now`: an expired record is dropped first; with
   * no record the request opens a window of one; a record at or above the
   * limit rejects without changing anything; otherwise the count goes up by
   * one in the same window.
   */
  function Decide(store: RateStore, limits: Limits, id: string, now: int): (r: Decided)
    ensures id !in store || Expired(store[id], now) ==>
      r.decision == Allow && r.store == store[id := Record(1, now + limits.windowMs)]
    ensures id in store && !Expired(store[id], now) && store[id].count >= limits.maxRequests ==>
      r.store == store
      && r.decision == Reject(HTTP_BAD_REQUEST, MSG_RATE_LIMIT_EXCEEDED, "RATE_LIMIT_EXCEEDED", limits.maxRequests, 0, store[id].resetTime)
    ensures id in store && !Expired(store[id], now) && store[id].count < limits.maxRequests ==>
      r.decision == Allow && r.store == store[id := Record(store[id].count + 1, store[id].resetTime)]
  {
    var cleaned := if id in store && Expired(store[id], now) then store - {id} else store;
    if id !in cleaned then
      Decided(cleaned[id := Record(1, now + limits.windowMs)], Allow)
    else
      var current := cleaned[id];
      if current.count >= limits.maxRequests then
        Decided(cleaned, Reject(HTTP_BAD_REQUEST, MSG_RATE_LIMIT_EXCEEDED, "RATE_LIMIT_EXCEEDED", limits.maxRequests, 0, current.resetTime))
      else
        Decided(cleaned[id := current.(count := current.count + 1)], Allow)
  }

  /** A decision touches only the requesting client's record, and keeps it present. */
  lemma OthersUnchanged(store: RateStore, limits: Limits, id: string, now: int)
    ensures id in Decide(store, limits, id, now).store
    ensures forall k :: k != id ==> (k in Decide(store, limits, id, now).store <==> k in store)
    ensures forall k :: k != id && k in store ==> Decide(store, limits, id, now).store[k] == store[k]
  {
  }

  /** A record whose reset time is exactly now is still live: it is counted, not replaced. */
  lemma ResetTimeStillLive(store: RateStore, limits: Limits, id: string)
    requires id in store && store[id].count < limits.maxRequests
    ensures Decide(store, limits, id, store[id].resetTime).store[id] == Record(store[id].count + 1, store[id].resetTime)
  {
  }

  // ---- a window of requests ---------------------------------------------

  /** The larger of two integers. */
  function Max(a: int, b: int): (m: int)
    ensures m >= a && m >= b && (m == a || m == b)
  {
    if a >= b then a else b
  }

  /** Requests from `id` at the given times, in order: the final table and how many were let through. */
  function Replay(store: RateStore, limits: Limits, id: string, times: seq<int>): (RateStore, nat)
    decreases |times|
  {
    if |times| == 0 then (store, 0)
    else
      var step := Decide(store, limits, id, times[0]);
      var rest := Replay(step.store, limits, id, times[1..]);
      (rest.0, rest.1 + (if step.decision == Allow then 1 else 0))
  }

  /**
   * While the window does not expire, the count only grows by the requests
   * let through, and never beyond the larger of the limit and its start.
   */
  lemma {:induction false} ReplayInWindow(store: RateStore, limits: Limits, id: string, times: seq<int>)
    requires id in store
    requires forall i :: 0 <= i < |times| ==> times[i] <= store[id].resetTime
    ensures var (s, n) := Replay(store, limits, id, times);
      id in s && s[id].resetTime == store[id].resetTime
      && s[id].count == store[id].count + n
      && store[id].count + n <= Max(limits.maxRequests, store[id].count)
    decreases |times|
  {
    if |times| > 0 {
      var step := Decide(store, limits, id, times[0]);
      assert !Expired(store[id], times[0]);
      ReplayInWindow(step.store, limits, id, times[1..]);
    }
  }

  /**
   * A request that opens a window, followed by requests up to the window's
   * end, gets at most `max(maxRequests, 1)` requests through.
   */
  lemma WindowLimit(store: RateStore, limits: Limits, id: string, start: int, later: seq<int>)
    requires id !in store || Expired(store[id], start)
    requires forall i :: 0 <= i < |later| ==> later[i] <= start + limits.windowMs
    ensures Replay(store, limits, id, [start] + later).1 <= Max(limits.maxRequests, 1)
  {
    var first := Decide(store, limits, id, start);
    assert ([start] + later)[1..] == later;
    ReplayInWindow(first.store, limits, id, later);
  }

  // ---- the periodic sweep -----------------------------------------------

  /** The sweep at `now`: drops exactly the expired records. */
  function Sweep(store: RateStore, now: int): (r: RateStore)
    ensures forall k :: k in r <==> k in store && !Expired(store[k], now)
    ensures forall k :: k in r ==> r[k] == store[k]
  {
    map k | k in store && !Expired(store[k], now) :: store[k]
  }

  /**
   * Sweeping never changes how a later request is answered, nor the
   * requesting client's record afterwards.
   */
  lemma SweepInvisible(store: RateStore, limits: Limits, id: string, sweptAt: int, now: int)
    requires sweptAt <= now
    ensures Decide(Sweep(store, sweptAt), limits, id, now).decision == Decide(store, limits, id, now).decision
    ensures Decide(Sweep(store, sweptAt), limits, id, now).store[id] == Decide(store, limits, id, now).store[id]
  {
    OthersUnchanged(store, limits, id, now);
    OthersUnchanged(Sweep(store, sweptAt), limits, id, now);
  }

  // ---- the client identifier ----------------------------------------------

  /**
   * `getIdentifier`: the first comma-separated piece (untrimmed) of a
   * non-empty x-forwarded-for header, else a non-empty x-real-ip header, else
   * 'unknown'.
   */
  function GetIdentifier(forwardedFor: Option<string>, realIp: Option<string>): (id: string)
    ensures forwardedFor.Some? && forwardedFor.value != "" ==>
      Strings.StartsWith(forwardedFor.value, id) && ',' !in id
      && (id == forwardedFor.value || forwardedFor.value[|id|] == ',')
    ensures (forwardedFor.None? || forwardedFor.value == "") && realIp.Some? && realIp.value != "" ==> id == realIp.value
    ensures (forwardedFor.None? || forwardedFor.value == "") && (realIp.None? || realIp.value == "") ==> id == "unknown"
  {
    if forwardedFor.Some? && forwardedFor.value != "" then Strings.FirstPiece(forwardedFor.value, ',')
    else if realIp.Some? && realIp.value != "" then realIp.value
    else "unknown"
  }
}

=== FILE: register.dfy ===
/**
 * Account registration (app/api/auth/register/route.ts). Password hashing is
 * a function parameter; the new row's generated ids, the clock reading and
 * the column default of `isActive` (the database schema is not part of this
 * model) come in a `NewAccount` value.
 */
module Register {
  import opened Wrappers
  import opened Constants
  import opened Store
  import opened AppErrors
  import opened ErrorHandler
  import opened Schemas
  import opened Effects
  import Strings
  import Seqs

  /** Generated values for a registration: ids, the time, and the `isActive` default. */
  datatype NewAccount = NewAccount(userId: string, assignmentId: string, now: int, activeByDefault: bool)

  /** The user fields the endpoint answers with; the password hash is not among them. */
  datatype PublicUser = PublicUser(
    id: string, email: string, firstName: string, lastName: string, role: Role,
    targetScore: Option<int>, dailyStudyHours: Option<int>, createdAt: int)

  /** A non-deleted user already has this e-mail. */
  predicate EmailTaken(db: Db, email: string) {
    exists i :: 0 <= i < |db.users| && db.users[i].email == email && !db.users[i].deleted
  }

  /** The first non-deleted exam with this code in table order, if any. */
  function ExamByCode(db: Db, code: string): (r: Option<Exam>)
    ensures r.Some? ==> r.value in db.exams && r.value.code == code && !r.value.deleted
    ensures r.None? <==> forall i :: 0 <= i < |db.exams| ==> db.exams[i].code != code || db.exams[i].deleted
  {
    var hits := Seqs.Filter(db.exams, (e: Exam) => e.code == code && !e.deleted);
    if |hits| == 0 then None else Some(hits[0])
  }

  /**
   * The exam the new user is assigned to: only for a non-empty exam code,
   * matched upper-cased against non-deleted exams. An unknown code is logged
   * and does not fail the registration. `cm` is JavaScript's case mapping.
   */
  function TargetExam(db: Db, examCode: Option<string>, cm: Strings.CaseMapping): (r: Option<Exam>)
    ensures examCode.None? || examCode.value == "" ==> r.None?
    ensures examCode.Some? && examCode.value != "" ==> r == ExamByCode(db, cm.upper(examCode.value))
  {
    if examCode.Some? && examCode.value != "" then ExamByCode(db, cm.upper(examCode.value)) else None
  }

  /** The stored row of a new account. */
  function NewUserRow(v: RegisterData, hash: string -> string, cm: Strings.CaseMapping, gen: NewAccount): (u: User)
    ensures u.id == gen.userId && u.email == cm.lower(v.email) && u.passwordHash == hash(v.password)
    ensures u.role == Individual && u.isActive == gen.activeByDefault && !u.deleted && u.lastLoginAt.None?
    ensures u.firstName == v.firstName && u.lastName == v.lastName && u.institutionId == v.institutionId
    ensures u.targetScore == v.targetScore && u.dailyStudyHours == v.dailyStudyHours
  {
    User(gen.userId, cm.lower(v.email), hash(v.password), v.firstName, v.lastName, Individual,
      v.institutionId, v.targetScore, v.dailyStudyHours, gen.activeByDefault, None, gen.now, false)
  }

  /** The `select` of the create call: every answered field taken from the stored row. */
  function Public(u: User): (p: PublicUser)
    ensures p.id == u.id && p.email == u.email && p.role == u.role && p.createdAt == u.createdAt
    ensures p.firstName == u.firstName && p.lastName == u.lastName
    ensures p.targetScore == u.targetScore && p.dailyStudyHours == u.dailyStudyHours
  {
    PublicUser(u.id, u.email, u.firstName, u.lastName, u.role, u.targetScore, u.dailyStudyHours, u.createdAt)
  }

  /**
   * `registerHandler`: the schema's issues; Conflict(EMAIL_EXISTS) when a
   * non-deleted user has the lower-cased e-mail — the store unchanged in both
   * cases — otherwise the new INDIVIDUAL user appended and, when the exam
   * code names an existing exam, an assignment of that exam to the user.
   */
  function Register(db: Db, input: RegisterInput, hash: string -> string, cm: Strings.CaseMapping, gen: NewAccount)
    : (r: Step<PublicUser>)
    ensures r.out.Threw? ==> r.db == db
    ensures RegisterSchema(input).Invalid? ==> r.out == Threw(ThrowIssues(RegisterSchema(input).issues))
    ensures RegisterSchema(input).Valid? && EmailTaken(db, cm.lower(input.email)) ==>
      r.out == Threw(ThrowApp(NewConflictError(MSG_EMAIL_EXISTS)))
    ensures r.out.Done? <==> RegisterSchema(input).Valid? && !EmailTaken(db, cm.lower(input.email))
    ensures r.out.Done? ==>
      var u := NewUserRow(RegisterSchema(input).value, hash, cm, gen);
      var target := TargetExam(db, input.examCode, cm);
      r.out.value == Public(u)
      && r.db.users == db.users + [u]
      && (target.None? ==> r.db.assignments == db.assignments)
      && (target.Some? ==>
            r.db.assignments == db.assignments + [Assignment(gen.assignmentId, target.value.id, Some(gen.userId), None, gen.now, false)])
      && r.db == db.(users := r.db.users, assignments := r.db.assignments)
  {
    match RegisterSchema(input)
    case Invalid(issues) => Fail(db, ThrowIssues(issues))
    case Valid(v) =>
      var email := cm.lower(v.email);
      if EmailTaken(db, email) then Fail(db, ThrowApp(NewConflictError(MSG_EMAIL_EXISTS)))
      else
        var u := NewUserRow(v, hash, cm, gen);
        var assignments := match TargetExam(db, v.examCode, cm)
          case None => db.assignments
          case Some(exam) =>
            db.assignments + [Assignment(gen.assignmentId, exam.id, Some(gen.userId), None, gen.now, false)];
        Step(db.(users := db.users + [u], assignments := assignments), Done(Public(u)))
  }

  /** Non-deleted users have pairwise distinct e-mails. */
  predicate DistinctEmails(users: seq<User>) {
    forall i, j :: 0 <= i < j < |users| && !users[i].deleted && !users[j].deleted ==> users[i].email != users[j].email
  }

  /** Registration keeps e-mails of non-deleted users distinct. */
  lemma RegisterKeepsEmailsDistinct(db: Db, input: RegisterInput, hash: string -> string, cm: Strings.CaseMapping,
                                     gen: NewAccount)
    requires DistinctEmails(db.users)
    ensures DistinctEmails(Register(db, input, hash, cm, gen).db.users)
  {
    var r := Register(db, input, hash, cm, gen);
    if r.out.Done? {
      var u := NewUserRow(RegisterSchema(input).value, hash, cm, gen);
      assert u.email == cm.lower(input.email);
      assert !u.deleted;
      AppendFreshEmail(db.users, u);
    }
  }

  /** Appending a user whose e-mail no non-deleted user has keeps e-mails distinct. */
  lemma AppendFreshEmail(users: seq<User>, u: User)
    requires DistinctEmails(users)
    requires forall i :: 0 <= i < |users| ==> users[i].email != u.email || users[i].deleted
    ensures DistinctEmails(users + [u])
  {
    var all := users + [u];
    forall i, j | 0 <= i < j < |all| && !all[i].deleted && !all[j].deleted
      ensures all[i].email != all[j].email
    {
      if j < |users| {
        assert all[i] == users[i] && all[j] == users[j];
      } else {
        assert all[i] == users[i] && all[j] == u;
      }
    }
  }

  /**
   * Once an account is registered, registering again with the same e-mail
   * in any letter case is a conflict.
   */
  lemma SecondRegistrationConflicts(db: Db, input: RegisterInput, again: RegisterInput, hash: string -> string,
                                    cm: Strings.CaseMapping, gen: NewAccount, gen2: NewAccount)
    requires Register(db, input, hash, cm, gen).out.Done?
    requires RegisterSchema(again).Valid?
    requires cm.lower(again.email) == cm.lower(input.email)
    ensures Register(Register(db, input, hash, cm, gen).db, again, hash, cm, gen2).out
      == Threw(ThrowApp(NewConflictError(MSG_EMAIL_EXISTS)))
  {
    var db2 := Register(db, input, hash, cm, gen).db;
    var u := NewUserRow(RegisterSchema(input).value, hash, cm, gen);
    assert db2.users[|db.users|] == u;
    assert EmailTaken(db2, cm.lower(again.email));
  }

  /**
   * The stored e-mail is lower-case, and the answer never carries the
   * password hash: the answer is the same for any hash function.
   */
  lemma AnswerIndependentOfHash(db: Db, input: RegisterInput, h1: string -> string, h2: string -> string,
                                 cm: Strings.CaseMapping, gen: NewAccount)
    requires Strings.JsCaseMapping(cm)
    requires Register(db, input, h1, cm, gen).out.Done?
    ensures Register(db, input, h2, cm, gen).out == Register(db, input, h1, cm, gen).out
    ensures forall i :: 0 <= i < |Register(db, input, h1, cm, gen).out.value.email| ==>
      !('A' <= Register(db, input, h1, cm, gen).out.value.email[i] <= 'Z')
  {
    assert Register(db, input, h1, cm, gen).out.value.email == cm.lower(input.email);
  }
}

=== FILE: rounding.dfy ===
/**
 * JavaScript `Math.round` on quotients, stated in integers. `Math.round(y)` is
 * `floor(y + 1/2)`, so `Math.round(n / d)` for `d > 0` is `(2n + d) / (2d)`
 * with floor division. `Percent` rounds the exact percentage; the second half
 * of the module follows the double arithmetic of `(part / total) * 100`,
 * where each operation rounds to the nearest double.
 */
module Rounding {

  /** `Math.round(n / d)` for a positive divisor. */
  function RoundDiv(n: int, d: int): (r: int)
    requires d > 0
    ensures 2 * d * r <= 2 * n + d < 2 * d * (r + 1)
  {
    (2 * n + d) / (2 * d)
  }

  /** Multiplying by a non-negative factor keeps an inequality. */
  lemma MulLe(d: int, x: int, y: int)
    requires d >= 0
    requires x <= y
    ensures d * x <= d * y
  {
    var k := y - x;
    assert d * y == d * x + d * k;
  }

  lemma MulSucc(d: int, x: int)
    ensures d * (x + 1) == d * x + d
  {
  }

  /** Rounding is monotone in the numerator. */
  lemma RoundDivMonotone(a: int, b: int, d: int)
    requires d > 0
    requires a <= b
    ensures RoundDiv(a, d) <= RoundDiv(b, d)
  {
    var ra := RoundDiv(a, d);
    var rb := RoundDiv(b, d);
    if ra > rb {
      MulLe(2 * d, rb + 1, ra);
      assert false;
    }
  }

  /** Rounding an exact multiple gives the factor back. */
  lemma RoundDivMultiple(m: int, d: int)
    requires d > 0
    ensures RoundDiv(m * d, d) == m
  {
    var r := RoundDiv(m * d, d);
    assert 2 * d * m == 2 * (m * d);
    if r > m {
      MulLe(2 * d, m + 1, r);
      assert false;
    }
    if r < m {
      MulLe(2 * d, r + 1, m);
      assert false;
    }
  }

  /**
   * `total > 0 ? Math.round((part / total) * 100) : 0`: a percentage, 0 for an
   * empty total.
   */
  function Percent(part: int, total: int): (r: int)
    ensures total <= 0 ==> r == 0
    ensures total > 0 ==> 2 * total * r <= 200 * part + total < 2 * total * (r + 1)
  {
    if total > 0 then RoundDiv(100 * part, total) else 0
  }

  /** A larger part never gives a smaller percentage of the same total. */
  lemma PercentMonotone(a: int, b: int, total: int)
    requires a <= b
    ensures Percent(a, total) <= Percent(b, total)
  {
    if total > 0 {
      RoundDivMonotone(100 * a, 100 * b, total);
    }
  }

  /** The percentage of `k` times the total is exactly `100k`. */
  lemma PercentOfMultiple(k: int, total: int)
    requires total > 0
    ensures Percent(k * total, total) == 100 * k
  {
    assert 100 * (k * total) == (100 * k) * total;
    RoundDivMultiple(100 * k, total);
  }

  /** A part between 0 and `k` times the total gives a percentage between 0 and `100k`. */
  lemma PercentBounds(part: int, total: int, k: nat)
    requires 0 <= part <= k * total
    ensures 0 <= Percent(part, total) <= 100 * k
  {
    if total > 0 {
      PercentMonotone(0, part, total);
      PercentOfMultiple(0, total);
      PercentMonotone(part, k * total, total);
      PercentOfMultiple(k, total);
    }
  }

  /** A percentage above `100k` needs a part above `k` times the total. */
  lemma PercentAboveNeedsPart(part: int, total: int, k: nat)
    requires Percent(part, total) > 100 * k
    ensures total > 0 && part > k * total
  {
    if total > 0 && part <= k * total {
      PercentMonotone(part, k * total, total);
      PercentOfMultiple(k, total);
      assert false;
    }
  }

  /**
   * `Math.round((minutes / 60) * 10) / 10` written as a whole number of tenths
   * of an hour.
   */
  function HourTenths(minutes: int): (r: int)
    ensures 120 * r <= 20 * minutes + 60 < 120 * (r + 1)
  {
    RoundDiv(10 * minutes, 60)
  }

  /** More minutes never give fewer tenths of an hour. */
  lemma HourTenthsMonotone(a: int, b: int)
    requires a <= b
    ensures HourTenths(a) <= HourTenths(b)
  {
    RoundDivMonotone(10 * a, 10 * b, 60);
  }

  // Double arithmetic as the source performs it.

  /** `2^n`. */
  function Pow2(n: nat): (r: nat)
    ensures r >= 1
  {
    if n == 0 then 1 else 2 * Pow2(n - 1)
  }

  lemma {:induction false} Pow2Add(x: nat, y: nat)
    ensures Pow2(x + y) == Pow2(x) * Pow2(y)
  {
    if x > 0 {
      Pow2Add(x - 1, y);
    }
  }

  lemma Pow2Split(u: nat, v: nat)
    requires u <= v
    ensures Pow2(v) == Pow2(v - u) * Pow2(u)
  {
    Pow2Add(v - u, u);
  }

  /** The number of binary digits of `n`. */
  function BitLength(n: nat): (r: nat)
    ensures n > 0 ==> r > 0 && Pow2(r - 1) <= n < Pow2(r)
  {
    if n == 0 then 0 else 1 + BitLength(n / 2)
  }

  lemma {:induction false} BitLengthOf(n: nat, k: nat)
    requires k > 0 && Pow2(k - 1) <= n < Pow2(k)
    ensures BitLength(n) == k
  {
    if k > 1 {
      BitLengthOf(n / 2, k - 1);
    }
  }

  function Pos(e: int): nat { if e > 0 then e else 0 }
  function Neg(e: int): nat { if e < 0 then -e else 0 }

  /** `a / b < 2^j`, cross-multiplied. */
  predicate Below(a: nat, b: nat, j: int)
  {
    a * Pow2(Neg(j)) < b * Pow2(Pos(j))
  }

  /** Multiplying by a positive factor keeps a strict inequality both ways. */
  lemma ScaleLess(x: int, y: int, c: int)
    requires c > 0
    ensures x < y <==> x * c < y * c
  {
    if x < y {
      MulLe(c, x + 1, y);
    } else {
      MulLe(c, y, x);
    }
  }

  lemma MulAssoc(x: int, y: int, z: int)
    ensures x * (y * z) == (x * y) * z
  {
  }

  /** `a * 2^u < b * 2^v` says `a / b < 2^(v - u)`. */
  lemma BelowScaled(a: nat, b: nat, u: nat, v: nat)
    ensures a * Pow2(u) < b * Pow2(v) <==> Below(a, b, v - u)
  {
    var j := v - u;
    assert Pow2(0) == 1;
    if u <= v {
      assert Neg(j) == 0 && Pos(j) == j;
      var pj, pu, pv := Pow2(j), Pow2(u), Pow2(v);
      assert Below(a, b, j) <==> a * 1 < b * pj;
      Pow2Split(u, v);
      CommonFactor(a, b, 1, pj, pu, pu, pv);
    } else {
      assert Neg(j) == u - v && Pos(j) == 0;
      var pj, pu, pv := Pow2(u - v), Pow2(u), Pow2(v);
      assert Below(a, b, j) <==> a * pj < b * 1;
      Pow2Split(v, u);
      CommonFactor(a, b, pj, 1, pv, pu, pv);
    }
  }

  lemma CommonFactor(a: int, b: int, x: int, y: int, c: int, xc: int, yc: int)
    requires c > 0 && xc == x * c && yc == y * c
    ensures a * x < b * y <==> a * xc < b * yc
  {
    MulAssoc(a, x, c);
    MulAssoc(b, y, c);
    ScaleLess(a * x, b * y, c);
  }

  /** A positive quotient lies between the powers of two its bit lengths give. */
  lemma QuotientRange(a: nat, b: nat)
    requires a > 0 && b > 0
    ensures !Below(a, b, BitLength(a) - BitLength(b) - 1)
    ensures Below(a, b, BitLength(a) - BitLength(b) + 1)
  {
    var la, lb := BitLength(a), BitLength(b);
    var pa, pa1, pb, pb1 := Pow2(la), Pow2(la - 1), Pow2(lb), Pow2(lb - 1);
    assert pa1 <= a < pa && pb1 <= b < pb;
    // a * 2^lb >= 2^(la-1) * 2^lb > 2^(la-1) * b
    MulLe(pb, pa1, a);
    ScaleLess(b, pb, pa1);
    assert b * pa1 < a * pb;
    BelowScaled(a, b, lb, la - 1);
    // a * 2^(lb-1) < 2^la * 2^(lb-1) <= 2^la * b
    ScaleLess(a, pa, pb1);
    MulLe(pa, pb1, b);
    assert a * pb1 < b * pa;
    BelowScaled(a, b, lb - 1, la);
  }

  /** `num / den` rounded to the nearest integer, a halfway case to the even one. */
  function RoundHalfEven(num: nat, den: nat): (r: nat)
    requires den > 0
    ensures 2 * (den * r - num) <= den && 2 * (num - den * r) <= den
    ensures 2 * (den * r - num) == den || 2 * (num - den * r) == den ==> r % 2 == 0
  {
    var q := num / den;
    var rem := num % den;
    assert num == den * q + rem;
    if 2 * rem < den then q
    else if 2 * rem > den then q + 1
    else if q % 2 == 0 then q else q + 1
  }

  /**
   * A finite double: the value `significand * 2^exponent`. The exponent is
   * unbounded, so overflow and subnormal numbers do not arise.
   */
  datatype Binary64 = Binary64(significand: nat, exponent: int)

  /** `x` lies within half of `2^x.exponent` of `a / b`, cross-multiplied by `b * 2^-exponent`. */
  predicate WithinHalfUnit(x: Binary64, a: nat, b: nat)
  {
    var num, den := a * Pow2(Neg(x.exponent)), b * Pow2(Pos(x.exponent));
    2 * (den * x.significand - num) <= den && 2 * (num - den * x.significand) <= den
  }

  /** `a / b` lies exactly halfway between `x` and a neighbour one unit away. */
  predicate Halfway(x: Binary64, a: nat, b: nat)
  {
    var num, den := a * Pow2(Neg(x.exponent)), b * Pow2(Pos(x.exponent));
    2 * (den * x.significand - num) == den || 2 * (num - den * x.significand) == den
  }

  /** A significand of 53 bits, `2^53` standing for the next binade's `2^52`. */
  predicate FullPrecision(x: Binary64)
  {
    Pow2(52) <= x.significand <= Pow2(53)
  }

  /**
   * The double nearest to the quotient `a / b`, ties to an even significand:
   * the result of JavaScript's `/` on two integers.
   */
  function NearestDouble(a: nat, b: nat): (r: Binary64)
    requires b > 0
    ensures a == 0 ==> r.significand == 0
    ensures a > 0 ==> FullPrecision(r)
    ensures a > 0 ==> !Below(a, b, r.exponent + 52) && Below(a, b, r.exponent + 53)
    ensures WithinHalfUnit(r, a, b)
    ensures Halfway(r, a, b) ==> r.significand % 2 == 0
  {
    if a == 0 then Binary64(0, 0)
    else
      var k := BitLength(a) - BitLength(b);
      var e := if Below(a, b, k) then k - 53 else k - 52;
      QuotientRange(a, b);
      NearestDoubleIn(a, b, e)
  }

  /** The nearest double with exponent `e`, for a quotient in the binade of `e`. */
  function NearestDoubleIn(a: nat, b: nat, e: int): (r: Binary64)
    requires b > 0
    ensures r.exponent == e
    ensures WithinHalfUnit(r, a, b)
    ensures Halfway(r, a, b) ==> r.significand % 2 == 0
    ensures !Below(a, b, e + 52) && Below(a, b, e + 53) ==> FullPrecision(r)
  {
    var num, den := a * Pow2(Neg(e)), b * Pow2(Pos(e));
    var m := RoundHalfEven(num, den);
    assert !Below(a, b, e + 52) && Below(a, b, e + 53) ==> Pow2(52) <= m <= Pow2(53) by {
      if !Below(a, b, e + 52) && Below(a, b, e + 53) {
        BinadeScaled(a, b, e);
        SignificandRange(num, den, m);
      }
    }
    Binary64(m, e)
  }

  /** The binade of `e`, cross-multiplied: `2^52 <= num / den < 2^53`. */
  lemma BinadeScaled(a: nat, b: nat, e: int)
    requires b > 0
    requires !Below(a, b, e + 52) && Below(a, b, e + 53)
    ensures Pow2(52) * (b * Pow2(Pos(e))) <= a * Pow2(Neg(e)) < Pow2(53) * (b * Pow2(Pos(e)))
  {
    var pp, pn := Pow2(Pos(e)), Pow2(Neg(e));
    var num, den := a * pn, b * pp;
    Pow2Add(Pos(e), 52);
    Pow2Add(Pos(e), 53);
    BelowScaled(a, b, Neg(e), Pos(e) + 52);
    BelowScaled(a, b, Neg(e), Pos(e) + 53);
    assert Pos(e) + 52 - Neg(e) == e + 52;
    assert Pos(e) + 53 - Neg(e) == e + 53;
    assert !(num < b * Pow2(Pos(e) + 52));
    assert num < b * Pow2(Pos(e) + 53);
    Regroup(b, pp, Pow2(52), Pow2(Pos(e) + 52));
    Regroup(b, pp, Pow2(53), Pow2(Pos(e) + 53));
  }

  /** Regrouping a product of three factors. */
  lemma Regroup(b: int, p: int, q: int, r: int)
    requires r == p * q
    ensures b * r == q * (b * p)
  {
  }

  /** A quotient in `[lo, hi)` rounds to an integer in `[lo, hi]`. */
  lemma SignificandRange(num: nat, den: nat, m: nat)
    requires den > 0
    requires Pow2(52) * den <= num < Pow2(53) * den
    requires 2 * (den * m - num) <= den && 2 * (num - den * m) <= den
    ensures Pow2(52) <= m <= Pow2(53)
  {
    RoundedRange(num, den, m, Pow2(52), Pow2(53));
  }

  lemma RoundedRange(num: int, den: int, m: int, lo: int, hi: int)
    requires den > 0
    requires lo * den <= num < hi * den
    requires 2 * (den * m - num) <= den && 2 * (num - den * m) <= den
    ensures lo <= m <= hi
  {
    if m < lo {
      MulLe(den, m + 1, lo);
      assert false;
    }
    if m > hi {
      MulLe(den, hi + 1, m);
      assert false;
    }
  }

  /** The double nearest to `k` times `x`: JavaScript's `x * k`. */
  function MulDouble(x: Binary64, k: nat): Binary64
  {
    NearestDouble(k * x.significand * Pow2(Pos(x.exponent)), Pow2(Neg(x.exponent)))
  }

  /** `Math.round(x)`: the integer `r` with `r - 1/2 <= x < r + 1/2`. */
  function MathRound(x: Binary64): (r: int)
    ensures var unit := Pow2(Neg(x.exponent));
      2 * unit * r <= 2 * (x.significand * Pow2(Pos(x.exponent))) + unit < 2 * unit * (r + 1)
  {
    RoundDiv(x.significand * Pow2(Pos(x.exponent)), Pow2(Neg(x.exponent)))
  }

  /**
   * `total > 0 ? Math.round((part / total) * 100) : 0` in double arithmetic:
   * the quotient and the product are each rounded to the nearest double.
   */
  function DoublePercent(part: nat, total: nat): (r: int)
    ensures total == 0 || part == 0 ==> r == 0
    ensures total > 0 && part == total ==> r == 100
  {
    if total > 0 then
      DoubleWhole(total);
      MathRound(MulDouble(NearestDouble(part, total), 100))
    else 0
  }

  lemma RoundHalfEvenExact(m: nat, den: nat)
    requires den > 0
    ensures RoundHalfEven(den * m, den) == m
  {
    var r := RoundHalfEven(den * m, den);
    if r > m {
      MulSucc(den, m);
      MulLe(den, m + 1, r);
      assert false;
    }
    if r < m {
      MulSucc(den, r);
      MulLe(den, r + 1, m);
      assert false;
    }
  }

  /** The powers of two the worked examples use. */
  lemma Pow2Values()
    ensures Pow2(6) == 64 && Pow2(7) == 128
    ensures Pow2(46) == 70368744177664 && Pow2(47) == 140737488355328
    ensures Pow2(52) == 4503599627370496 && Pow2(53) == 9007199254740992
    ensures Pow2(58) == 288230376151711744 && Pow2(59) == 576460752303423488
  {
    assert Pow2(10) == 1024;
    Pow2Add(10, 10);
    Pow2Add(20, 20);
    Pow2Add(40, 6);
    Pow2Add(46, 1);
    Pow2Add(46, 6);
    Pow2Add(47, 6);
    Pow2Add(52, 6);
    Pow2Add(53, 6);
  }

  /** `t / t` is exactly one. */
  lemma WholeQuotient(t: nat)
    requires t > 0
    ensures NearestDouble(t, t) == Binary64(Pow2(52), -52)
  {
    assert !Below(t, t, 0);
    assert NearestDouble(t, t) == NearestDoubleIn(t, t, -52);
    RoundHalfEvenExact(Pow2(52), t);
  }

  /** `1 * 100` is exactly one hundred. */
  lemma HundredTimesOne()
    ensures MulDouble(Binary64(Pow2(52), -52), 100) == Binary64(7036874417766400, -46)
  {
    Pow2Values();
    BitLengthOf(450359962737049600, 59);
    BitLengthOf(4503599627370496, 53);
    assert Pow2(Pos(-52)) == 1 && Pow2(Neg(-52)) == 4503599627370496;
    assert MulDouble(Binary64(Pow2(52), -52), 100) == NearestDouble(450359962737049600, 4503599627370496);
    assert Pow2(Neg(6)) == 1 && Pow2(Pos(6)) == 64;
    assert !Below(450359962737049600, 4503599627370496, 6);
    assert NearestDouble(450359962737049600, 4503599627370496) == NearestDoubleIn(450359962737049600, 4503599627370496, -46);
    assert 450359962737049600 * Pow2(46) == 4503599627370496 * 7036874417766400;
    RoundHalfEvenExact(7036874417766400, 4503599627370496);
  }

  /** A whole is one hundred percent in doubles as well. */
  lemma DoubleWhole(t: nat)
    requires t > 0
    ensures MathRound(MulDouble(NearestDouble(t, t), 100)) == 100
  {
    WholeQuotient(t);
    HundredTimesOne();
    Pow2Values();
    assert MathRound(Binary64(7036874417766400, -46)) == RoundDiv(7036874417766400, 70368744177664);
  }

  /** `23 / 40` in doubles is just below 0.575. */
  lemma QuotientOf23And40()
    ensures NearestDouble(23, 40) == Binary64(5179139571476070, -53)
  {
    Pow2Values();
    BitLengthOf(23, 5);
    BitLengthOf(40, 6);
    assert Pow2(1) == 2 && Pow2(Neg(-1)) == 2 && Pow2(Pos(-1)) == 1;
    assert !Below(23, 40, -1);
    assert NearestDouble(23, 40) == NearestDoubleIn(23, 40, -53);
    assert Pow2(Neg(-53)) == 9007199254740992 && Pow2(Pos(-53)) == 1;
    assert RoundHalfEven(207165582859042816, 40) == 5179139571476070;
  }

  /** That quotient times 100 is the double just below 57.5. */
  lemma HundredTimesQuotient()
    ensures MulDouble(Binary64(5179139571476070, -53), 100) == Binary64(8092405580431359, -47)
  {
    Pow2Values();
    assert Pow2(Pos(-53)) == 1 && Pow2(Neg(-53)) == 9007199254740992;
    assert MulDouble(Binary64(5179139571476070, -53), 100) == NearestDouble(517913957147607000, 9007199254740992);
    BitLengthOf(517913957147607000, 59);
    BitLengthOf(9007199254740992, 54);
    assert Pow2(Neg(5)) == 1 && Pow2(Pos(5)) == 32 by {
      assert Pow2(5) == 32;
    }
    assert !Below(517913957147607000, 9007199254740992, 5);
    assert NearestDouble(517913957147607000, 9007199254740992) == NearestDoubleIn(517913957147607000, 9007199254740992, -47);
    assert Pow2(Neg(-47)) == 140737488355328 && Pow2(Pos(-47)) == 1;
    assert 517913957147607000 * 140737488355328 == 72889909513123184956560900096000;
    assert RoundHalfEven(72889909513123184956560900096000, 9007199254740992) == 8092405580431359;
  }

  /**
   * 23 topics of 40 are 57.5%, but `(23 / 40) * 100` is the double
   * 57.49999999999999, which `Math.round` takes to 57.
   */
  lemma DoublePercentLosesHalf()
    ensures DoublePercent(23, 40) == 57
    ensures Percent(23, 40) == 58
  {
    QuotientOf23And40();
    HundredTimesQuotient();
    RoundJustBelowHalf();
    assert Percent(23, 40) == RoundDiv(2300, 40);
  }

  /** `Math.round` takes the double just below 57.5 to 57. */
  lemma RoundJustBelowHalf()
    ensures MathRound(Binary64(8092405580431359, -47)) == 57
  {
    Pow2Values();
    assert Pow2(Neg(-47)) == 140737488355328 && Pow2(Pos(-47)) == 1;
    assert MathRound(Binary64(8092405580431359, -47)) == RoundDiv(8092405580431359, 140737488355328);
  }
}

=== FILE: sanitize.dfy ===
/** Output escaping for HTML (lib/utils/sanitize.ts). */
module Sanitize {
  import Strings

  /** The five characters `escapeHtml` replaces. */
  predicate IsSpecial(c: char) {
    c == '&' || c == '<' || c == '>' || c == '"' || c == '\''
  }

  /** The replacement of one character: its entity, or the character itself. */
  function EscapeChar(c: char): (r: string)
    ensures IsSpecial(c) ==> |r| > 1 && r[0] == '&'
    ensures !IsSpecial(c) ==> r == [c]
    ensures forall i :: 0 <= i < |r| ==> r[i] != '<' && r[i] != '>' && r[i] != '"' && r[i] != '\''
  {
    if c == '&' then "&amp;"
    else if c == '<' then "&lt;"
    else if c == '>' then "&gt;"
    else if c == '"' then "&quot;"
    else if c == '\'' then "&#039;"
    else [c]
  }

  /**
   * `escapeHtml(text)`: every `& < > " '` replaced by its entity. The result
   * contains no `< > " '` and is never shorter than the input.
   */
  function EscapeHtml(s: string): (r: string)
    ensures |r| >= |s|
    ensures forall i :: 0 <= i < |r| ==> r[i] != '<' && r[i] != '>' && r[i] != '"' && r[i] != '\''
  {
    if |s| == 0 then "" else EscapeChar(s[0]) + EscapeHtml(s[1..])
  }

  /** Escaping distributes over concatenation. */
  lemma {:induction false} EscapeHtmlConcat(a: string, b: string)
    ensures EscapeHtml(a + b) == EscapeHtml(a) + EscapeHtml(b)
  {
    if |a| == 0 {
      assert a + b == b;
    } else {
      assert (a + b)[1..] == a[1..] + b;
      EscapeHtmlConcat(a[1..], b);
    }
  }

  /**
   * The output has the input's length exactly when the input has none of the
   * five characters, and then the output is the input itself.
   */
  lemma {:induction false} EscapeHtmlLength(s: string)
    ensures |EscapeHtml(s)| == |s| <==> forall i :: 0 <= i < |s| ==> !IsSpecial(s[i])
    ensures (forall i :: 0 <= i < |s| ==> !IsSpecial(s[i])) ==> EscapeHtml(s) == s
  {
    if |s| > 0 {
      EscapeHtmlLength(s[1..]);
      assert forall i :: 1 <= i < |s| ==> s[i] == s[1..][i - 1];
    }
  }

  /** Decodes the five entities `escapeHtml` produces, leaving other text alone. */
  function Unescape(s: string): string
    decreases |s|
  {
    if |s| == 0 then ""
    else if Strings.StartsWith(s, "&amp;") then "&" + Unescape(s[5..])
    else if Strings.StartsWith(s, "&lt;") then "<" + Unescape(s[4..])
    else if Strings.StartsWith(s, "&gt;") then ">" + Unescape(s[4..])
    else if Strings.StartsWith(s, "&quot;") then "\"" + Unescape(s[6..])
    else if Strings.StartsWith(s, "&#039;") then "'" + Unescape(s[6..])
    else [s[0]] + Unescape(s[1..])
  }

  /** Decoding one escaped character in front of any text recovers that character. */
  lemma UnescapeCons(c: char, t: string)
    ensures Unescape(EscapeChar(c) + t) == [c] + Unescape(t)
  {
    var e := EscapeChar(c) + t;
    var n := |EscapeChar(c)|;
    assert e[..n] == EscapeChar(c);
    assert e[n..] == t;
    if c == '&' {
      assert Strings.StartsWith(e, "&amp;");
    } else if c == '<' {
      assert e[1] == 'l';
      assert !Strings.StartsWith(e, "&amp;");
      assert Strings.StartsWith(e, "&lt;");
    } else if c == '>' {
      assert e[1] == 'g';
      assert !Strings.StartsWith(e, "&amp;") && !Strings.StartsWith(e, "&lt;");
      assert Strings.StartsWith(e, "&gt;");
    } else if c == '"' {
      assert e[1] == 'q';
      assert !Strings.StartsWith(e, "&amp;") && !Strings.StartsWith(e, "&lt;") && !Strings.StartsWith(e, "&gt;");
      assert Strings.StartsWith(e, "&quot;");
    } else if c == '\'' {
      assert e[1] == '#';
      assert !Strings.StartsWith(e, "&amp;") && !Strings.StartsWith(e, "&lt;") && !Strings.StartsWith(e, "&gt;");
      assert !Strings.StartsWith(e, "&quot;");
      assert Strings.StartsWith(e, "&#039;");
    } else {
      assert e[0] == c && c != '&';
      NoEntityAt(e);
    }
  }

  /** Text not starting with `&` starts with no entity. */
  lemma NoEntityAt(e: string)
    requires |e| > 0 && e[0] != '&'
    ensures !Strings.StartsWith(e, "&amp;") && !Strings.StartsWith(e, "&lt;") && !Strings.StartsWith(e, "&gt;")
    ensures !Strings.StartsWith(e, "&quot;") && !Strings.StartsWith(e, "&#039;")
  {
    assert e[0] == e[..1][0];
  }

  /** Decoding the escaped text gives the original back, so escaping is injective. */
  lemma {:induction false} UnescapeEscape(s: string)
    ensures Unescape(EscapeHtml(s)) == s
  {
    if |s| > 0 {
      UnescapeCons(s[0], EscapeHtml(s[1..]));
      UnescapeEscape(s[1..]);
      assert s == [s[0]] + s[1..];
    }
  }

  /** Two texts with the same escaping are the same text. */
  lemma EscapeHtmlInjective(a: string, b: string)
    requires EscapeHtml(a) == EscapeHtml(b)
    ensures a == b
  {
    UnescapeEscape(a);
    UnescapeEscape(b);
  }

  /** Escaping is not idempotent: the `&` of an entity is escaped again. */
  lemma EscapeHtmlNotIdempotent()
    ensures EscapeHtml("&") == "&amp;"
    ensures EscapeHtml(EscapeHtml("&")) == "&amp;amp;"
  {
    assert "&amp;" == ['&'] + "amp;";
    EscapeHtmlConcat(['&'], "amp;");
    EscapeHtmlLength("amp;");
  }

  /**
   * `sanitizeInput(input)` = `escapeHtml(input.trim())`: trimming happens first,
   * so decoding the output gives the trimmed input.
   */
  function SanitizeInput(s: string): (r: string)
    ensures Unescape(r) == Strings.Trim(s)
    ensures forall i :: 0 <= i < |r| ==> r[i] != '<' && r[i] != '>' && r[i] != '"' && r[i] != '\''
  {
    UnescapeEscape(Strings.Trim(s));
    EscapeHtml(Strings.Trim(s))
  }
}

=== FILE: schemas.dfy ===
/**
 * Input validation rules (lib/validation/schemas.ts). Each string rule runs all
 * of its checks and reports one message per failed check, in the order the
 * checks are declared; lengths are counted in UTF-16 code units, as
 * JavaScript's `length` does; a `trim` step transforms the value at its
 * position in the chain. Object schemas collect the issues of their fields in
 * field order; an object-level refinement runs only when no field aborted.
 */
module Schemas {
  import opened Wrappers
  import opened Constants
  import Strings
  import opened ErrorHandler

  /** The outcome of a schema: the parsed value, or the issues found. */
  datatype Validated<+T> = Valid(value: T) | Invalid(issues: seq<Issue>)

  /** Messages of a failed field, each turned into an issue at path `[field]`. */
  function FieldIssues(field: string, messages: seq<string>): (r: seq<Issue>)
    ensures |r| == |messages|
    ensures forall i :: 0 <= i < |r| ==> r[i] == Issue([field], messages[i])
  {
    if |messages| == 0 then [] else [Issue([field], messages[0])] + FieldIssues(field, messages[1..])
  }

  /** One message when `failed`, none otherwise. */
  function Check(failed: bool, message: string): seq<string> {
    if failed then [message] else []
  }

  // ---- string fields ----------------------------------------------------

  /** A character allowed in a code: `A-Z`, `0-9`, `_` or `-`. */
  predicate IsCodeChar(c: char) {
    ('A' <= c <= 'Z') || ('0' <= c <= '9') || c == '_' || c == '-'
  }

  /** The pattern `^[A-Z0-9_-]+$`. */
  predicate MatchesCodePattern(s: string) {
    |s| >= 1 && forall i :: 0 <= i < |s| ==> IsCodeChar(s[i])
  }

  /** `codeSchema`: length 2..50 and only code characters; the value is then trimmed. */
  function CodeMessages(s: string): (r: seq<string>)
    ensures r == [] <==> CODE_MIN_LENGTH <= |s| <= CODE_MAX_LENGTH && forall i :: 0 <= i < |s| ==> IsCodeChar(s[i])
  {
    CodeCharsAreBmp(s);
    Check(Strings.Utf16Length(s) < CODE_MIN_LENGTH, "Code must be at least 2 characters")
    + Check(Strings.Utf16Length(s) > CODE_MAX_LENGTH, "Code must be at most 50 characters")
    + Check(!MatchesCodePattern(s), "Code must contain only uppercase letters, numbers, hyphens, and underscores")
  }

  /** A text of code characters has as many UTF-16 units as characters. */
  lemma CodeCharsAreBmp(s: string)
    ensures (forall i :: 0 <= i < |s| ==> IsCodeChar(s[i])) ==> Strings.Utf16Length(s) == |s|
  {
    if forall i :: 0 <= i < |s| ==> IsCodeChar(s[i]) {
      Strings.Utf16LengthBmp(s);
    }
  }

  /** An accepted code is left unchanged by the final trim (code characters are not whitespace). */
  lemma CodeTrimIdentity(s: string)
    requires CodeMessages(s) == []
    ensures Strings.Trim(s) == s
  {
    Strings.TrimNoEdgeSpace(s);
  }

  /** The same for an optional code. */
  lemma CodeTrimIdentityOpt(s: Option<string>)
    requires s.None? || CodeMessages(s.value) == []
    ensures TrimOpt(s) == s
  {
    if s.Some? { CodeTrimIdentity(s.value); }
  }

  /** At least one character of `s` lies in `lo..hi`. */
  predicate HasCharIn(s: string, lo: char, hi: char) {
    exists i :: 0 <= i < |s| && lo <= s[i] <= hi
  }

  /** `passwordSchema`: length 8..128 with an upper-case letter, a lower-case letter and a digit. */
  function PasswordMessages(s: string): (r: seq<string>)
    ensures r == [] <==> (PASSWORD_MIN_LENGTH <= Strings.Utf16Length(s) <= PASSWORD_MAX_LENGTH
      && HasCharIn(s, 'A', 'Z') && HasCharIn(s, 'a', 'z') && HasCharIn(s, '0', '9'))
  {
    Check(Strings.Utf16Length(s) < PASSWORD_MIN_LENGTH, "Password must be at least 8 characters")
    + Check(Strings.Utf16Length(s) > PASSWORD_MAX_LENGTH, "Password must be at most 128 characters")
    + Check(!HasCharIn(s, 'A', 'Z'), "Password must contain at least one uppercase letter")
    + Check(!HasCharIn(s, 'a', 'z'), "Password must contain at least one lowercase letter")
    + Check(!HasCharIn(s, '0', '9'), "Password must contain at least one number")
  }

  /** `nameSchema`: length 2..100, checked on the untrimmed text. */
  function NameMessages(s: string): (r: seq<string>)
    ensures r == [] <==> NAME_MIN_LENGTH <= Strings.Utf16Length(s) <= NAME_MAX_LENGTH
  {
    Check(Strings.Utf16Length(s) < NAME_MIN_LENGTH, "Name must be at least 2 characters")
    + Check(Strings.Utf16Length(s) > NAME_MAX_LENGTH, "Name must be at most 100 characters")
  }

  /**
   * Lengths count UTF-16 units: one character outside the Basic Multilingual
   * Plane is a valid name, and one inside it is not.
   */
  lemma NameLengthInUnits()
    ensures NameMessages("\U{1F600}") == []
    ensures NameMessages("a") != []
  {
    assert Strings.Utf16Length("\U{1F600}") == 2 by {
      assert "\U{1F600}"[1..] == "";
    }
    assert Strings.Utf16Length("a") == 1 by {
      assert "a"[1..] == "";
    }
  }

  /** The bounds of a name apply before trimming, so the stored name can be shorter than 2. */
  lemma NameBoundsBeforeTrim()
    ensures NameMessages(" a") == []
    ensures |Strings.Trim(" a")| == 1
  {
    assert Strings.Utf16Length(" a") == 2 by {
      assert " a"[1..] == "a" && "a"[1..] == "";
    }
    assert Strings.LeadingSpace(" a") == 1;
    assert Strings.LeadingSpace(" a"[1..]) == 0;
  }

  /** `descriptionSchema`: optional, at most 1000 characters. */
  function DescriptionMessages(s: Option<string>): (r: seq<string>)
    ensures r == [] <==> s.None? || Strings.Utf16Length(s.value) <= DESCRIPTION_MAX_LENGTH
  {
    if s.None? then [] else Check(Strings.Utf16Length(s.value) > DESCRIPTION_MAX_LENGTH, "Description must be at most 1000 characters")
  }

  /** `notesSchema`: optional, at most 5000 characters. */
  function NotesMessages(s: Option<string>): (r: seq<string>)
    ensures r == [] <==> s.None? || Strings.Utf16Length(s.value) <= NOTES_MAX_LENGTH
  {
    if s.None? then [] else Check(Strings.Utf16Length(s.value) > NOTES_MAX_LENGTH, "Notes must be at most 5000 characters")
  }

  /** An optional text after its trailing `trim` step. */
  function TrimOpt(s: Option<string>): Option<string> {
    if s.None? then None else Some(Strings.Trim(s.value))
  }

  /**
   * `emailSchema`: the library's e-mail format check (an input here, the
   * format rule is not modelled) and at most 255 characters.
   */
  function EmailMessages(s: string, formatOk: bool): (r: seq<string>)
    ensures r == [] <==> formatOk && Strings.Utf16Length(s) <= EMAIL_MAX_LENGTH
  {
    Check(!formatOk, "Invalid email format")
    + Check(Strings.Utf16Length(s) > EMAIL_MAX_LENGTH, "Email must be at most 255 characters")
  }

  /** A password with all three character classes and eleven characters is accepted. */
  lemma StrongPasswordAccepted()
    ensures PasswordMessages("Password123") == []
  {
    StrongPasswordFacts("Password123");
  }

  /** "Password123" has eleven code units and a character of each class. */
  lemma StrongPasswordFacts(p: string)
    requires p == "Password123"
    ensures Strings.Utf16Length(p) == 11 && HasCharIn(p, 'A', 'Z') && HasCharIn(p, 'a', 'z') && HasCharIn(p, '0', '9')
  {
    Strings.Utf16LengthBmp(p);
    assert 'A' <= p[0] <= 'Z' && 'a' <= p[1] <= 'z' && '0' <= p[8] <= '9';
  }

  /** A four-character password is rejected. */
  lemma WeakPasswordRejected()
    ensures PasswordMessages("weak") != []
  {
    Strings.Utf16LengthBmp("weak");
  }

  /** An upper-case code with an underscore is accepted; one with lower case and a space is not. */
  lemma CodeExamples()
    ensures CodeMessages("TEST_EXAM") == []
    ensures CodeMessages("test exam") != []
  {
    CodeExampleChars("TEST_EXAM", "test exam");
  }

  /** Every character of the first code is a code character; the first character of the second is not. */
  lemma CodeExampleChars(good: string, bad: string)
    requires good == "TEST_EXAM" && bad == "test exam"
    ensures forall i :: 0 <= i < |good| ==> IsCodeChar(good[i])
    ensures CODE_MIN_LENGTH <= |good| <= CODE_MAX_LENGTH
    ensures !IsCodeChar(bad[0])
  {
  }

  /** `loginSchema`: a valid e-mail and a non-empty password. */
  function LoginMessages(email: string, emailFormatOk: bool, password: string): (r: seq<Issue>)
    ensures r == [] <==> EmailMessages(email, emailFormatOk) == [] && password != ""
  {
    FieldIssues("email", EmailMessages(email, emailFormatOk))
    + FieldIssues("password", Check(password == "", "Password is required"))
  }

  // ---- numeric fields ---------------------------------------------------

  /**
   * A JavaScript number: a finite value, NaN, or an infinity. Finite values
   * are exact reals; the rounding of IEEE doubles is not modelled.
   */
  datatype NumberValue = Finite(x: real) | NaN | Infinity(negative: bool)

  /** `Number.isInteger`: finite with no fractional part. */
  predicate IsInteger(v: NumberValue) {
    v.Finite? && v.x == v.x.Floor as real
  }

  /** The lower bound of a number rule: `.min(n)` (inclusive) or `.positive()` (above 0). */
  datatype LowerBound = AtLeast(n: nat) | Positive

  /** The value passes the lower bound (NaN passes nothing). */
  predicate AboveLower(v: NumberValue, lo: LowerBound) {
    match v
    case NaN => false
    case Infinity(negative) => !negative
    case Finite(x) => if lo.AtLeast? then x >= lo.n as real else x > 0.0
  }

  /** The value passes the upper bound `.max(hi)`, if there is one. */
  predicate BelowUpper(v: NumberValue, hi: Option<nat>) {
    hi.None? ||
    match v
    case NaN => false
    case Infinity(negative) => negative
    case Finite(x) => x <= hi.value as real
  }

  /** An integer within both bounds: what a number rule accepts. */
  predicate AcceptedNumber(v: NumberValue, lo: LowerBound, hi: Option<nat>) {
    IsInteger(v) && AboveLower(v, lo) && BelowUpper(v, hi)
  }

  const NAN_MESSAGE := "Expected number, received nan"
  const FLOAT_MESSAGE := "Expected integer, received float"

  /** The library's message for a failed lower bound. */
  function LowerMessage(lo: LowerBound): string {
    if lo.AtLeast? then "Number must be greater than or equal to " + Strings.NatToString(lo.n)
    else "Number must be greater than 0"
  }

  /** The library's message for a failed upper bound. */
  function UpperMessage(hi: nat): string {
    "Number must be less than or equal to " + Strings.NatToString(hi)
  }

  /** The three messages of a number rule are pairwise distinct. */
  lemma NumberMessagesDistinct(lo: LowerBound, hi: nat)
    ensures FLOAT_MESSAGE != LowerMessage(lo) && FLOAT_MESSAGE != UpperMessage(hi) && LowerMessage(lo) != UpperMessage(hi)
  {
    assert FLOAT_MESSAGE[0] != LowerMessage(lo)[0];
    assert FLOAT_MESSAGE[0] != UpperMessage(hi)[0];
    assert LowerMessage(lo)[15] != UpperMessage(hi)[15];
  }

  /**
   * `z.number().int()` followed by a lower and an optional upper bound:
   * NaN fails the type check alone; any other number runs every check and
   * gets one message for each check it fails, in declaration order.
   */
  function NumberMessages(v: NumberValue, lo: LowerBound, hi: Option<nat>): (r: seq<string>)
    ensures v.NaN? ==> r == [NAN_MESSAGE]
    ensures r == [] <==> AcceptedNumber(v, lo, hi)
    ensures !v.NaN? ==> (FLOAT_MESSAGE in r <==> !IsInteger(v))
    ensures !v.NaN? ==> (LowerMessage(lo) in r <==> !AboveLower(v, lo))
    ensures !v.NaN? && hi.Some? ==> (UpperMessage(hi.value) in r <==> !BelowUpper(v, hi))
    ensures !v.NaN? ==> forall m :: m in r ==> m == FLOAT_MESSAGE || m == LowerMessage(lo) || (hi.Some? && m == UpperMessage(hi.value))
  {
    if v.NaN? then [NAN_MESSAGE]
    else
      NumberMessagesDistinct(lo, if hi.Some? then hi.value else 0);
      Check(!IsInteger(v), FLOAT_MESSAGE)
      + Check(!AboveLower(v, lo), LowerMessage(lo))
      + (if hi.Some? then Check(!BelowUpper(v, hi), UpperMessage(hi.value)) else [])
  }

  /** The integer an accepted number holds. */
  function IntValue(v: NumberValue): (n: int)
    requires IsInteger(v)
    ensures v == Finite(n as real)
  {
    v.x.Floor
  }

  /** An optional integer field parsed from an optional accepted number. */
  function IntOption(v: Option<NumberValue>): (r: Option<int>)
    requires v.None? || IsInteger(v.value)
    ensures SameNumber(r, v)
  {
    if v.None? then None else Some(IntValue(v.value))
  }

  /** A parsed optional integer holds the same number as the request. */
  predicate SameNumber(n: Option<int>, v: Option<NumberValue>) {
    n.None? == v.None? && (n.Some? ==> v.value == Finite(n.value as real))
  }

  /** An optional integer in `lo..hi` (`z.number().int().min(lo).max(hi).optional()`). */
  function RangeMessages(v: Option<NumberValue>, lo: nat, hi: nat): (r: seq<string>)
    ensures r == [] <==> v.None? || AcceptedNumber(v.value, AtLeast(lo), Some(hi))
    ensures v.Some? ==> r == NumberMessages(v.value, AtLeast(lo), Some(hi))
  {
    if v.None? then [] else NumberMessages(v.value, AtLeast(lo), Some(hi))
  }

  /** `order`: an integer at least 0 that defaults to 0 when absent. */
  function OrderField(v: Option<NumberValue>): (r: Validated<int>)
    ensures r.Valid? <==> v.None? || AcceptedNumber(v.value, AtLeast(0), None)
    ensures v.None? ==> r == Valid(0)
    ensures v.Some? && r.Valid? ==> v.value == Finite(r.value as real) && r.value >= 0
    ensures v.Some? && r.Invalid? ==> r.issues == FieldIssues("order", NumberMessages(v.value, AtLeast(0), None))
    ensures r.Invalid? ==> r.issues != []
  {
    if v.None? then Valid(0)
    else
      var messages := NumberMessages(v.value, AtLeast(0), None);
      if messages == [] then Valid(IntValue(v.value)) else Invalid(FieldIssues("order", messages))
  }

  // ---- enumerations -----------------------------------------------------

  /** The wire name of a progress status. */
  function StatusName(s: ProgressStatus): string {
    match s
    case NotStarted => "NOT_STARTED"
    case InProgress => "IN_PROGRESS"
    case Completed => "COMPLETED"
    case Reviewed => "REVIEWED"
  }

  /** The status enum: one of the four names, or nothing. */
  function ParseProgressStatus(s: string): (r: Option<ProgressStatus>)
    ensures r.Some? ==> StatusName(r.value) == s
    ensures r.None? ==> forall st: ProgressStatus :: StatusName(st) != s
  {
    if s == "NOT_STARTED" then Some(NotStarted)
    else if s == "IN_PROGRESS" then Some(InProgress)
    else if s == "COMPLETED" then Some(Completed)
    else if s == "REVIEWED" then Some(Reviewed)
    else None
  }

  /** The library's message for a value outside the status enum. */
  function EnumMessage(received: string): string {
    "Invalid enum value. Expected 'NOT_STARTED' | 'IN_PROGRESS' | 'COMPLETED' | 'REVIEWED', received '" + received + "'"
  }

  /** Every status name parses back to its status. */
  lemma StatusNameRoundTrip(st: ProgressStatus)
    ensures ParseProgressStatus(StatusName(st)) == Some(st)
  {
  }

  // ---- object-level refinements -----------------------------------------

  /**
   * The date refinement of the exam schemas: with both dates present the end
   * must not precede the start (issue on `endDate`); with either absent it passes.
   */
  function DateOrderIssues(startDate: Option<int>, endDate: Option<int>): (r: seq<Issue>)
    ensures r == [] <==> startDate.None? || endDate.None? || endDate.value >= startDate.value
    ensures r != [] ==> r == [Issue(["endDate"], "End date must be after start date")]
  {
    if startDate.Some? && endDate.Some? && endDate.value < startDate.value
    then [Issue(["endDate"], "End date must be after start date")]
    else []
  }

  /**
   * The exam-assignment refinement: at least one of institutionId and userId
   * must be a non-empty string (`!!(institutionId || userId)`).
   */
  function AssignmentTargetIssues(institutionId: Option<string>, userId: Option<string>): (r: seq<Issue>)
    ensures r == [] <==> (institutionId.Some? && institutionId.value != "") || (userId.Some? && userId.value != "")
  {
    if (institutionId.Some? && institutionId.value != "") || (userId.Some? && userId.value != "") then []
    else [Issue([], "Either institutionId or userId must be provided")]
  }

  // ---- object schemas ---------------------------------------------------

  /** Every issue of `d` is among `all`. */
  predicate IssuesAmong(d: seq<Issue>, all: seq<Issue>) {
    forall i :: 0 <= i < |d| ==> d[i] in all
  }

  /** Every issue of the last part of a concatenation is among its issues. */
  lemma SuffixIssues(a: seq<Issue>, d: seq<Issue>)
    ensures IssuesAmong(d, a + d)
  {
    forall i | 0 <= i < |d| ensures d[i] in a + d {
      assert (a + d)[|a| + i] == d[i];
    }
  }

  /** A concatenation of issue lists is empty exactly when each part is. */
  lemma EmptyConcat(a: seq<Issue>, b: seq<Issue>)
    ensures a + b == [] <==> a == [] && b == []
  {
    assert |a + b| == |a| + |b|;
  }

  /** A date as `z.coerce.date()` builds it: a time value, or an invalid date. */
  datatype DateValue = ValidDate(time: int) | InvalidDate

  /** An optional date field's issue: "Invalid date" when the date is invalid. */
  function DateFieldIssues(field: string, d: Option<DateValue>): (r: seq<Issue>)
    ensures r == [] <==> d != Some(InvalidDate)
    ensures r != [] ==> r == [Issue([field], "Invalid date")]
  {
    if d == Some(InvalidDate) then [Issue([field], "Invalid date")] else []
  }

  /** The time of an optional date that is present and valid. */
  function TimeOf(d: Option<DateValue>): (r: Option<int>)
    ensures r.Some? <==> d.Some? && d.value.ValidDate?
    ensures r.Some? ==> d == Some(ValidDate(r.value))
  {
    if d.Some? && d.value.ValidDate? then Some(d.value.time) else None
  }

  /**
   * The date fields of an exam schema, then its refinement: an invalid date
   * aborts its field, and the refinement then does not run; otherwise the
   * date-order check applies to the times.
   */
  function DatesIssues(startDate: Option<DateValue>, endDate: Option<DateValue>): (r: seq<Issue>)
    ensures r == [] <==> (startDate != Some(InvalidDate) && endDate != Some(InvalidDate)
      && DateOrderIssues(TimeOf(startDate), TimeOf(endDate)) == [])
    ensures startDate == Some(InvalidDate) ==> Issue(["startDate"], "Invalid date") in r
    ensures endDate == Some(InvalidDate) ==> Issue(["endDate"], "Invalid date") in r
    ensures startDate == Some(InvalidDate) || endDate == Some(InvalidDate) ==>
      Issue(["endDate"], "End date must be after start date") !in r
  {
    var s := DateFieldIssues("startDate", startDate);
    var e := DateFieldIssues("endDate", endDate);
    EmptyConcat(s, e);
    if s + e != [] then s + e else DateOrderIssues(TimeOf(startDate), TimeOf(endDate))
  }

  /** The fields of an exam create request. */
  datatype ExamInput = ExamInput(name: string, code: string, description: Option<string>,
                                 startDate: Option<DateValue>, endDate: Option<DateValue>)

  /** The parsed exam create request. */
  datatype ExamData = ExamData(name: string, code: string, description: Option<string>, startDate: Option<int>, endDate: Option<int>)

  /** The field issues of an exam create request: name, code and description rules, in field order. */
  function CreateFieldIssues(input: ExamInput): (r: seq<Issue>)
    ensures r == [] <==> NameMessages(input.name) == [] && CodeMessages(input.code) == [] && DescriptionMessages(input.description) == []
  {
    var a := FieldIssues("name", NameMessages(input.name));
    var b := FieldIssues("code", CodeMessages(input.code));
    var c := FieldIssues("description", DescriptionMessages(input.description));
    EmptyConcat(a, b); EmptyConcat(a + b, c);
    a + b + c
  }

  /**
   * `createExamSchema`: name, code and description rules, then the date
   * fields and the date refinement; the parsed name, code and description
   * are trimmed.
   */
  function CreateExamSchema(input: ExamInput): (r: Validated<ExamData>)
    ensures r.Valid? <==> CreateFieldIssues(input) == [] && DatesIssues(input.startDate, input.endDate) == []
    ensures r.Valid? ==> r.value == ExamData(Strings.Trim(input.name), input.code, TrimOpt(input.description),
      TimeOf(input.startDate), TimeOf(input.endDate))
    ensures r.Invalid? ==> IssuesAmong(DatesIssues(input.startDate, input.endDate), r.issues)
  {
    var fields := CreateFieldIssues(input);
    var d := DatesIssues(input.startDate, input.endDate);
    EmptyConcat(fields, d);
    if fields + d == [] then
      CodeTrimIdentity(input.code);
      Valid(ExamData(Strings.Trim(input.name), Strings.Trim(input.code), TrimOpt(input.description),
        TimeOf(input.startDate), TimeOf(input.endDate)))
    else
      SuffixIssues(fields, d);
      Invalid(fields + d)
  }

  /** The fields of an exam update request; every field is optional. */
  datatype ExamUpdate = ExamUpdate(name: Option<string>, code: Option<string>, description: Option<string>,
                                   startDate: Option<DateValue>, endDate: Option<DateValue>)

  /** The parsed exam update request. */
  datatype ExamChanges = ExamChanges(name: Option<string>, code: Option<string>, description: Option<string>,
                                     startDate: Option<int>, endDate: Option<int>)

  /** The issues of an optional field: none when it is absent. */
  function OptionalFieldIssues(field: string, v: Option<string>, messages: string -> seq<string>): (r: seq<Issue>)
    ensures r == [] <==> v.None? || messages(v.value) == []
  {
    if v.None? then [] else FieldIssues(field, messages(v.value))
  }

  /** The field issues of an exam update: each present field's rules, in field order. */
  function UpdateFieldIssues(input: ExamUpdate): (r: seq<Issue>)
    ensures r == [] <==> ((input.name.None? || NameMessages(input.name.value) == [])
      && (input.code.None? || CodeMessages(input.code.value) == []) && DescriptionMessages(input.description) == [])
  {
    var a := OptionalFieldIssues("name", input.name, NameMessages);
    var b := OptionalFieldIssues("code", input.code, CodeMessages);
    var c := FieldIssues("description", DescriptionMessages(input.description));
    EmptyConcat(a, b); EmptyConcat(a + b, c);
    a + b + c
  }

  /** `updateExamSchema`: the rules of each present field, then the same date refinement. */
  function UpdateExamSchema(input: ExamUpdate): (r: Validated<ExamChanges>)
    ensures r.Valid? <==> UpdateFieldIssues(input) == [] && DatesIssues(input.startDate, input.endDate) == []
    ensures r.Valid? ==> r.value == ExamChanges(TrimOpt(input.name), input.code, TrimOpt(input.description),
      TimeOf(input.startDate), TimeOf(input.endDate))
    ensures r.Invalid? ==> IssuesAmong(DatesIssues(input.startDate, input.endDate), r.issues)
  {
    var fields := UpdateFieldIssues(input);
    var d := DatesIssues(input.startDate, input.endDate);
    EmptyConcat(fields, d);
    if fields + d == [] then
      CodeTrimIdentityOpt(input.code);
      Valid(ExamChanges(TrimOpt(input.name), TrimOpt(input.code), TrimOpt(input.description),
        TimeOf(input.startDate), TimeOf(input.endDate)))
    else
      SuffixIssues(fields, d);
      Invalid(fields + d)
  }

  /**
   * The fields of a section, subject or topic create request: the parent id
   * (examId, sectionId or subjectId; its format is checked by the library and
   * given here), name, code, description and order.
   */
  datatype NodeInput = NodeInput(parentId: string, parentIdOk: bool, name: string, code: string, description: Option<string>, order: Option<NumberValue>)

  /** The parsed fields of a section, subject or topic. */
  datatype NodeData = NodeData(parentId: string, name: string, code: string, description: Option<string>, order: int)

  /**
   * `createSectionSchema`, `createSubjectSchema` and `createTopicSchema`:
   * parent id, name, code, description and order rules; order defaults to 0.
   */
  function CreateNodeSchema(parentField: string, input: NodeInput): (r: Validated<NodeData>)
    ensures r.Valid? <==> NodeFieldIssues(parentField, input) == [] && OrderField(input.order).Valid?
    ensures r.Valid? ==> (r.value.code == input.code && r.value.parentId == input.parentId
      && r.value.name == Strings.Trim(input.name) && r.value.description == TrimOpt(input.description)
      && OrderField(input.order) == Valid(r.value.order) && r.value.order >= 0)
  {
    var fields := NodeFieldIssues(parentField, input);
    match OrderField(input.order)
    case Invalid(orderIssues) => Invalid(fields + orderIssues)
    case Valid(order) =>
      if fields != [] then Invalid(fields)
      else
        CodeTrimIdentity(input.code);
        Valid(NodeData(input.parentId, Strings.Trim(input.name), Strings.Trim(input.code), TrimOpt(input.description), order))
  }

  /** The issues of a node request's parent id, name, code and description, in field order. */
  function NodeFieldIssues(parentField: string, input: NodeInput): (r: seq<Issue>)
    ensures r == [] <==> (input.parentIdOk && NameMessages(input.name) == [] && CodeMessages(input.code) == []
      && DescriptionMessages(input.description) == [])
  {
    var a := if input.parentIdOk then [] else [Issue([parentField], "Invalid cuid")];
    var b := FieldIssues("name", NameMessages(input.name));
    var c := FieldIssues("code", CodeMessages(input.code));
    var d := FieldIssues("description", DescriptionMessages(input.description));
    EmptyConcat(a, b); EmptyConcat(a + b, c); EmptyConcat(a + b + c, d);
    a + b + c + d
  }

  /** A subject request with a fresh id, a plain name and an upper-case code passes. */
  lemma MathSubjectAccepted()
    ensures CreateNodeSchema("sectionId", NodeInput("B", true, "Math", "MATH", None, None)).Valid?
  {
    MathSubjectFields("Math", "MATH");
  }

  /** The name and code of that request pass their rules. */
  lemma MathSubjectFields(name: string, code: string)
    requires name == "Math" && code == "MATH"
    ensures NameMessages(name) == [] && CodeMessages(code) == []
  {
    Strings.Utf16LengthBmp(name);
    assert MatchesCodePattern(code);
  }

  /** The fields of a registration request (exam name is accepted and unused). */
  datatype RegisterInput = RegisterInput(
    email: string, emailFormatOk: bool, password: string, firstName: string, lastName: string,
    institutionId: Option<string>, institutionIdOk: bool,
    targetScore: Option<NumberValue>, dailyStudyHours: Option<NumberValue>, examCode: Option<string>)

  /** The parsed registration request. */
  datatype RegisterData = RegisterData(
    email: string, password: string, firstName: string, lastName: string, institutionId: Option<string>,
    targetScore: Option<int>, dailyStudyHours: Option<int>, examCode: Option<string>)

  /** The issues of the identity fields of a registration: e-mail, password and names. */
  function RegisterIdentityIssues(input: RegisterInput): (r: seq<Issue>)
    ensures r == [] <==> (EmailMessages(input.email, input.emailFormatOk) == [] && PasswordMessages(input.password) == []
      && NameMessages(input.firstName) == [] && NameMessages(input.lastName) == [])
  {
    var a := FieldIssues("email", EmailMessages(input.email, input.emailFormatOk));
    var b := FieldIssues("password", PasswordMessages(input.password));
    var c := FieldIssues("firstName", NameMessages(input.firstName));
    var d := FieldIssues("lastName", NameMessages(input.lastName));
    EmptyConcat(a, b); EmptyConcat(a + b, c); EmptyConcat(a + b + c, d);
    a + b + c + d
  }

  /** The issues of the optional registration fields: institution id and the onboarding numbers. */
  function RegisterOptionalIssues(input: RegisterInput): (r: seq<Issue>)
    ensures r == [] <==> ((input.institutionId.None? || input.institutionIdOk)
      && (input.targetScore.None? || AcceptedNumber(input.targetScore.value, AtLeast(0), Some(1000)))
      && (input.dailyStudyHours.None? || AcceptedNumber(input.dailyStudyHours.value, AtLeast(1), Some(24))))
  {
    var a := if input.institutionId.None? || input.institutionIdOk then [] else [Issue(["institutionId"], "Invalid cuid")];
    var b := FieldIssues("targetScore", RangeMessages(input.targetScore, 0, 1000));
    var c := FieldIssues("dailyStudyHours", RangeMessages(input.dailyStudyHours, 1, 24));
    EmptyConcat(a, b); EmptyConcat(a + b, c);
    a + b + c
  }

  /**
   * `registerSchema`: the identity fields, then the optional ones; the names
   * are trimmed and the onboarding numbers are the integers given.
   */
  function RegisterSchema(input: RegisterInput): (r: Validated<RegisterData>)
    ensures r.Valid? <==> RegisterIdentityIssues(input) == [] && RegisterOptionalIssues(input) == []
    ensures r.Valid? ==> (r.value.email == input.email && r.value.password == input.password
      && r.value.firstName == Strings.Trim(input.firstName) && r.value.lastName == Strings.Trim(input.lastName)
      && r.value.institutionId == input.institutionId && r.value.examCode == input.examCode
      && SameNumber(r.value.targetScore, input.targetScore) && SameNumber(r.value.dailyStudyHours, input.dailyStudyHours))
  {
    var issues := RegisterIdentityIssues(input) + RegisterOptionalIssues(input);
    EmptyConcat(RegisterIdentityIssues(input), RegisterOptionalIssues(input));
    if issues == [] then
      Valid(RegisterData(input.email, input.password, Strings.Trim(input.firstName), Strings.Trim(input.lastName),
        input.institutionId, IntOption(input.targetScore), IntOption(input.dailyStudyHours), input.examCode))
    else Invalid(issues)
  }

  /** The fields of a progress update request. */
  datatype ProgressInput = ProgressInput(topicId: string, topicIdOk: bool, status: string, notes: Option<string>)

  /** The parsed progress update. */
  datatype ProgressData = ProgressData(topicId: string, status: ProgressStatus, notes: Option<string>)

  /** `updateProgressSchema`: an id, one of the four status names, optional notes of at most 5000 characters. */
  function UpdateProgressSchema(input: ProgressInput): (r: Validated<ProgressData>)
    ensures r.Valid? <==> input.topicIdOk && ParseProgressStatus(input.status).Some? && NotesMessages(input.notes) == []
    ensures r.Valid? ==> r.value.topicId == input.topicId && StatusName(r.value.status) == input.status
    ensures r.Valid? ==> r.value.notes == TrimOpt(input.notes)
  {
    var a := TopicIdIssues(input.topicIdOk);
    var c := FieldIssues("notes", NotesMessages(input.notes));
    match ParseProgressStatus(input.status)
    case None => Invalid(a + [Issue(["status"], EnumMessage(input.status))] + c)
    case Some(status) =>
      EmptyConcat(a, c);
      if a + c == [] then Valid(ProgressData(input.topicId, status, TrimOpt(input.notes))) else Invalid(a + c)
  }

  /** The issue of the topic id: "Invalid cuid" when its format is wrong. */
  function TopicIdIssues(ok: bool): (r: seq<Issue>)
    ensures r == [] <==> ok
  {
    if ok then [] else [Issue(["topicId"], "Invalid cuid")]
  }

  /** A status outside the enum is reported on `status` with the library's message naming the received value. */
  lemma UnknownStatusReported(input: ProgressInput)
    requires ParseProgressStatus(input.status).None?
    ensures UpdateProgressSchema(input).Invalid?
    ensures Issue(["status"], EnumMessage(input.status)) in UpdateProgressSchema(input).issues
  {
    var a := TopicIdIssues(input.topicIdOk);
    var b := [Issue(["status"], EnumMessage(input.status))];
    assert (a + b + FieldIssues("notes", NotesMessages(input.notes)))[|a|] == b[0];
  }

  /** The "Invalid cuid" issue of an optional id field: present and of the wrong format. */
  function OptionalIdIssues(field: string, id: Option<string>, ok: bool): (r: seq<Issue>)
    ensures r == [] <==> id.None? || ok
  {
    if id.Some? && !ok then [Issue([field], "Invalid cuid")] else []
  }

  /**
   * `createExamAssignmentSchema`: the exam id, the institution id and the
   * user id each checked for the cuid format (the optional ones only when
   * present), then the target refinement. The `Ok` flags are the format
   * checks.
   */
  function CreateAssignmentSchema(examIdOk: bool, institutionId: Option<string>, institutionIdOk: bool,
                                  userId: Option<string>, userIdOk: bool): (r: seq<Issue>)
    ensures r == [] <==>
      examIdOk && (institutionId.None? || institutionIdOk) && (userId.None? || userIdOk)
      && ((institutionId.Some? && institutionId.value != "") || (userId.Some? && userId.value != ""))
    ensures !examIdOk ==> Issue(["examId"], "Invalid cuid") in r
    ensures institutionId.Some? && !institutionIdOk ==> Issue(["institutionId"], "Invalid cuid") in r
    ensures userId.Some? && !userIdOk ==> Issue(["userId"], "Invalid cuid") in r
  {
    var a := if examIdOk then [] else [Issue(["examId"], "Invalid cuid")];
    var b := OptionalIdIssues("institutionId", institutionId, institutionIdOk);
    var c := OptionalIdIssues("userId", userId, userIdOk);
    var d := AssignmentTargetIssues(institutionId, userId);
    EmptyConcat(a, b);
    EmptyConcat(a + b, c);
    EmptyConcat(a + b + c, d);
    assert !examIdOk ==> (a + b + c + d)[0] == a[0];
    assert institutionId.Some? && !institutionIdOk ==> (a + b + c + d)[|a|] == b[0];
    assert userId.Some? && !userIdOk ==> (a + b + c + d)[|a| + |b|] == c[0];
    a + b + c + d
  }

  // ---- pagination -------------------------------------------------------

  /** A field as the pagination schema receives it: `undefined`, `null`, or a value `Number(·)` turned into a number. */
  datatype RawField = UndefinedField | NullField | NumberField(v: NumberValue)

  /** `Number(·)` of a field: `undefined` becomes NaN and `null` becomes 0. */
  function Coerce(raw: RawField): NumberValue {
    match raw
    case UndefinedField => NaN
    case NullField => Finite(0.0)
    case NumberField(v) => v
  }

  /**
   * One coerced integer field with a default: `undefined` takes the default;
   * anything else is passed through `Number` and must be an integer of at
   * least `lo` and, when `hi` is given, at most `hi`; the issues are the
   * number rule's messages.
   */
  function CoercedIntField(field: string, raw: RawField, default: int, lo: nat, hi: Option<nat>): (r: Validated<int>)
    ensures raw.UndefinedField? ==> r == Valid(default)
    ensures !raw.UndefinedField? ==> (r.Valid? <==> AcceptedNumber(Coerce(raw), AtLeast(lo), hi))
    ensures !raw.UndefinedField? && r.Valid? ==> Coerce(raw) == Finite(r.value as real)
    ensures !raw.UndefinedField? && r.Invalid? ==> r.issues == FieldIssues(field, NumberMessages(Coerce(raw), AtLeast(lo), hi))
  {
    if raw.UndefinedField? then Valid(default)
    else
      var v := Coerce(raw);
      var messages := NumberMessages(v, AtLeast(lo), hi);
      if messages == [] then Valid(IntValue(v)) else Invalid(FieldIssues(field, messages))
  }

  /** A fraction below the minimum fails twice; text that is not a number fails once, on its type. */
  lemma CoercedMessages()
    ensures CoercedIntField("page", NumberField(Finite(0.5)), 1, 1, None)
      == Invalid([Issue(["page"], FLOAT_MESSAGE), Issue(["page"], "Number must be greater than or equal to 1")])
    ensures CoercedIntField("page", NumberField(NaN), 1, 1, None) == Invalid([Issue(["page"], NAN_MESSAGE)])
  {
    assert (0.5).Floor == 0;
    assert Strings.NatToString(1) == "1";
    var messages := [FLOAT_MESSAGE, "Number must be greater than or equal to 1"];
    assert !IsInteger(Finite(0.5)) && !AboveLower(Finite(0.5), AtLeast(1));
    assert LowerMessage(AtLeast(1)) == messages[1];
    assert NumberMessages(Finite(0.5), AtLeast(1), None) == messages;
    assert FieldIssues("page", messages)[1] == Issue(["page"], messages[1]);
  }

  /**
   * `paginationSchema`: page an integer of at least 1 defaulting to 1,
   * pageSize an integer in 1..100 defaulting to 20.
   */
  function PaginationSchema(page: RawField, pageSize: RawField): (r: Validated<(int, int)>)
    ensures r.Valid? <==> CoercedIntField("page", page, 1, 1, None).Valid? && CoercedIntField("pageSize", pageSize, 20, 1, Some(100)).Valid?
    ensures r.Valid? ==> r.value.0 >= 1 && 1 <= r.value.1 <= 100
    ensures r.Valid? && !page.UndefinedField? ==> Coerce(page) == Finite(r.value.0 as real)
    ensures r.Valid? && !pageSize.UndefinedField? ==> Coerce(pageSize) == Finite(r.value.1 as real)
    ensures page.UndefinedField? && pageSize.UndefinedField? ==> r == Valid((1, 20))
    ensures page.NullField? || pageSize.NullField? ==> r.Invalid?
  {
    var p := CoercedIntField("page", page, 1, 1, None);
    var s := CoercedIntField("pageSize", pageSize, 20, 1, Some(100));
    if p.Valid? && s.Valid? then Valid((p.value, s.value))
    else Invalid((if p.Invalid? then p.issues else []) + (if s.Invalid? then s.issues else []))
  }

  /**
   * A query parameter missing from the URL reads as `null`; the evidently
   * intended reading treats it like an omitted field, so the default applies.
   */
  function AbsentAsOmitted(raw: RawField): (r: RawField)
    ensures raw.NullField? ==> r.UndefinedField?
    ensures !raw.NullField? ==> r == raw
  {
    if raw.NullField? then UndefinedField else raw
  }

  /** The pagination schema with missing parameters taking their defaults. */
  function PaginationSchemaIntended(page: RawField, pageSize: RawField): (r: Validated<(int, int)>)
    ensures (page.NullField? || page.UndefinedField?) && (pageSize.NullField? || pageSize.UndefinedField?) ==>
      r == Valid((1, 20))
    ensures !page.NullField? && !pageSize.NullField? ==> r == PaginationSchema(page, pageSize)
    ensures r.Valid? ==> r.value.0 >= 1 && 1 <= r.value.1 <= 100
  {
    PaginationSchema(AbsentAsOmitted(page), AbsentAsOmitted(pageSize))
  }

  /**
   * A request without page parameters: the written schema rejects it with
   * an issue on each field, the intended one takes page 1 of 20 rows.
   */
  lemma MissingParamsRejected()
    ensures PaginationSchema(NullField, NullField).Invalid?
    ensures |PaginationSchema(NullField, NullField).issues| == 2
    ensures PaginationSchemaIntended(NullField, NullField) == Valid((1, 20))
  {
  }
}

=== FILE: seqs.dfy ===
/** Sequence helpers: order-preserving filters, counts, sums and sorts. */
module Seqs {
  import opened Wrappers

  /** Elements of `s` satisfying `p`, in their original order. */
  function Filter<T>(s: seq<T>, p: T -> bool): (r: seq<T>)
    ensures |r| <= |s|
    ensures forall i :: 0 <= i < |r| ==> r[i] in s && p(r[i])
    ensures forall i :: 0 <= i < |s| && p(s[i]) ==> s[i] in r
  {
    if |s| == 0 then []
    else (if p(s[0]) then [s[0]] else []) + Filter(s[1..], p)
  }

  /** Every member of a filtered sequence comes from `s` and satisfies `p`. */
  lemma FilterMembers<T>(s: seq<T>, p: T -> bool)
    ensures forall x :: x in Filter(s, p) ==> x in s && p(x)
  {
    var r := Filter(s, p);
    forall x | x in r
      ensures x in s && p(x)
    {
      var i :| 0 <= i < |r| && r[i] == x;
    }
  }

  /** Filtering distributes over concatenation. */
  lemma {:induction false} FilterConcat<T>(a: seq<T>, b: seq<T>, p: T -> bool)
    ensures Filter(a + b, p) == Filter(a, p) + Filter(b, p)
  {
    if |a| == 0 {
      assert a + b == b;
    } else {
      assert (a + b)[1..] == a[1..] + b;
      FilterConcat(a[1..], b, p);
    }
  }

  /** Two conditions that agree everywhere select the same elements. */
  lemma {:induction false} FilterSameCondition<T>(s: seq<T>, p: T -> bool, q: T -> bool)
    requires forall x :: p(x) == q(x)
    ensures Filter(s, p) == Filter(s, q)
  {
    if |s| > 0 {
      FilterSameCondition(s[1..], p, q);
    }
  }

  /** A stronger condition never selects more elements. */
  lemma {:induction false} FilterMonotone<T>(s: seq<T>, p: T -> bool, q: T -> bool)
    requires forall x :: q(x) ==> p(x)
    ensures |Filter(s, q)| <= |Filter(s, p)|
  {
    if |s| > 0 {
      FilterMonotone(s[1..], p, q);
    }
  }

  /** The number of elements of `s` satisfying `p`. */
  function Count<T>(s: seq<T>, p: T -> bool): (n: nat)
    ensures n <= |s|
  {
    |Filter(s, p)|
  }

  /** Sum of `f` over the elements of `s`. */
  function SumOf<T>(s: seq<T>, f: T -> int): int
  {
    if |s| == 0 then 0 else f(s[0]) + SumOf(s[1..], f)
  }

  /** Summing distributes over concatenation. */
  lemma {:induction false} SumOfConcat<T>(a: seq<T>, b: seq<T>, f: T -> int)
    ensures SumOf(a + b, f) == SumOf(a, f) + SumOf(b, f)
  {
    if |a| == 0 {
      assert a + b == b;
    } else {
      assert (a + b)[1..] == a[1..] + b;
      SumOfConcat(a[1..], b, f);
    }
  }

  /** A sum of non-negative terms is non-negative. */
  lemma {:induction false} SumOfNonNegative<T>(s: seq<T>, f: T -> int)
    requires forall i :: 0 <= i < |s| ==> f(s[i]) >= 0
    ensures SumOf(s, f) >= 0
  {
    if |s| > 0 {
      SumOfNonNegative(s[1..], f);
    }
  }

  /**
   * Selecting fewer elements of non-negative weight never gives a larger sum:
   * the sum over `Filter(s, q)` is at most the sum over `Filter(s, p)` when `q`
   * implies `p`.
   */
  lemma {:induction false} SumOfFilterMonotone<T>(s: seq<T>, p: T -> bool, q: T -> bool, f: T -> int)
    requires forall x :: q(x) ==> p(x)
    requires forall i :: 0 <= i < |s| ==> f(s[i]) >= 0
    ensures SumOf(Filter(s, q), f) <= SumOf(Filter(s, p), f)
  {
    if |s| > 0 {
      var hq := if q(s[0]) then [s[0]] else [];
      var hp := if p(s[0]) then [s[0]] else [];
      SumOfConcat(hq, Filter(s[1..], q), f);
      SumOfConcat(hp, Filter(s[1..], p), f);
      SumOfFilterMonotone(s[1..], p, q, f);
    }
  }

  /** `s` is in ascending order of `key`. */
  predicate SortedBy<T>(s: seq<T>, key: T -> int) {
    forall i, j :: 0 <= i < j < |s| ==> key(s[i]) <= key(s[j])
  }

  /** Inserts `x` into the sorted `s` before the first element with a larger or equal key. */
  function Insert<T>(x: T, s: seq<T>, key: T -> int): (r: seq<T>)
    requires SortedBy(s, key)
    ensures SortedBy(r, key)
    ensures multiset(r) == multiset(s) + multiset{x}
    ensures |r| == |s| + 1
    ensures r[0] == x || (|s| > 0 && r[0] == s[0])
  {
    if |s| == 0 then [x]
    else if key(x) <= key(s[0]) then [x] + s
    else
      var rest := Insert(x, s[1..], key);
      assert s == [s[0]] + s[1..];
      assert key(s[0]) <= key(rest[0]);
      [s[0]] + rest
  }

  /**
   * A stable insertion sort: the result is ascending in `key` and holds
   * exactly the elements of `s` (as a multiset).
   */
  function SortBy<T>(s: seq<T>, key: T -> int): (r: seq<T>)
    ensures SortedBy(r, key)
    ensures multiset(r) == multiset(s)
    ensures |r| == |s|
  {
    if |s| == 0 then []
    else
      assert s == [s[0]] + s[1..];
      Insert(s[0], SortBy(s[1..], key), key)
  }

  /** Sorting keeps exactly the elements of the input. */
  lemma SortByMembers<T>(s: seq<T>, key: T -> int)
    ensures forall x :: x in SortBy(s, key) <==> x in s
  {
    var r := SortBy(s, key);
    assert forall x :: x in r <==> x in multiset(r);
    assert forall x :: x in s <==> x in multiset(s);
  }

  /**
   * The elements of a set in some order, each once: a table scan, whose
   * order the caller does not rely on.
   */
  ghost function FromSet<T(!new)>(s: set<T>): (r: seq<T>)
    ensures |r| == |s|
    ensures forall x :: x in r <==> x in s
    decreases |s|
  {
    if s == {} then []
    else
      var x :| x in s;
      [x] + FromSet(s - {x})
  }

  /**
   * Sorting the matches of `p` keeps exactly the elements of `s` that satisfy
   * `p`, indexed so that callers need no further reasoning about `x in`.
   */
  lemma SortedFilterMembers<T>(s: seq<T>, p: T -> bool, key: T -> int)
    ensures forall i :: 0 <= i < |SortBy(Filter(s, p), key)| ==>
      SortBy(Filter(s, p), key)[i] in s && p(SortBy(Filter(s, p), key)[i])
    ensures forall i :: 0 <= i < |s| && p(s[i]) ==> s[i] in SortBy(Filter(s, p), key)
  {
    var live := Filter(s, p);
    var r := SortBy(live, key);
    FilterMembers(s, p);
    forall i | 0 <= i < |r|
      ensures r[i] in s && p(r[i])
    {
      assert r[i] in multiset(r);
      assert r[i] in live;
    }
    forall i | 0 <= i < |s| && p(s[i])
      ensures s[i] in r
    {
      assert s[i] in multiset(live);
    }
  }

  /**
   * The element with the greatest `key`; among equal keys the earliest one.
   * `None` exactly for the empty sequence.
   */
  function LatestBy<T>(s: seq<T>, key: T -> int): (r: Option<T>)
    ensures r.None? <==> |s| == 0
    ensures r.Some? ==> r.value in s
    ensures r.Some? ==> forall i :: 0 <= i < |s| ==> key(s[i]) <= key(r.value)
  {
    if |s| == 0 then None
    else
      var rest := LatestBy(s[1..], key);
      if rest.None? || key(s[0]) >= key(rest.value) then Some(s[0]) else rest
  }

  /** `|set x | x in s|` is at most `|s|`. */
  lemma {:induction false} ElementSetSize<T>(s: seq<T>)
    ensures |set x | x in s| <= |s|
  {
    if |s| > 0 {
      ElementSetSize(s[1..]);
      assert (set x | x in s) == (set x | x in s[1..]) + {s[0]};
    }
  }

  /** A subset has at most as many elements as its superset. */
  lemma {:induction false} SubsetSize<T>(a: set<T>, b: set<T>)
    requires a <= b
    ensures |a| <= |b|
    decreases |b|
  {
    if a != {} {
      var x :| x in a;
      SubsetSize(a - {x}, b - {x});
    }
  }
}

=== FILE: store.dfy ===
/**
 * The stored records the handlers read and write, as immutable values. Every
 * table keeps soft-deleted rows (`deleted`), as the database does with its
 * `deletedAt` column; times are integers (milliseconds).
 */
module Store {
  import opened Wrappers
  import opened Constants
  import Seqs

  datatype Exam = Exam(
    id: string, name: string, code: string, description: Option<string>, status: ExamStatus,
    startDate: Option<int>, endDate: Option<int>, createdAt: int, deleted: bool)

  datatype Section = Section(id: string, examId: string, code: string, name: string, order: int, deleted: bool)

  datatype Subject = Subject(
    id: string, sectionId: string, code: string, name: string, description: Option<string>, order: int, deleted: bool)

  datatype Topic = Topic(id: string, subjectId: string, code: string, name: string, order: int, deleted: bool)

  datatype User = User(
    id: string, email: string, passwordHash: string, firstName: string, lastName: string, role: Role,
    institutionId: Option<string>, targetScore: Option<int>, dailyStudyHours: Option<int>,
    isActive: bool, lastLoginAt: Option<int>, createdAt: int, deleted: bool)

  /** An exam assigned to a user, to an institution, or to both. */
  datatype Assignment = Assignment(
    id: string, examId: string, userId: Option<string>, institutionId: Option<string>, assignedAt: int, deleted: bool)

  datatype Progress = Progress(
    userId: string, topicId: string, status: ProgressStatus, notes: Option<string>,
    completedAt: Option<int>, updatedAt: int, deleted: bool)

  datatype PomodoroSession = PomodoroSession(
    id: string, userId: string, duration: int, isBreak: bool, completed: bool, startedAt: int, deleted: bool)

  /**
   * The whole store. Progress rows are keyed by (user id, topic id), which is
   * the table's unique index, so a pair has at most one row.
   */
  datatype Db = Db(
    exams: seq<Exam>, sections: seq<Section>, subjects: seq<Subject>, topics: seq<Topic>,
    users: seq<User>, assignments: seq<Assignment>,
    progress: map<(string, string), Progress>, pomodoros: seq<PomodoroSession>)

  /** The user of the current session, as the session callback fills it in. */
  datatype SessionUser = SessionUser(id: string, role: Role, institutionId: JsId)

  // ---- hierarchy queries ------------------------------------------------

  /** The non-deleted sections of an exam, ascending by `order`. */
  function ExamSections(db: Db, examId: string): (r: seq<Section>)
    ensures Seqs.SortedBy(r, (s: Section) => s.order)
    ensures forall i :: 0 <= i < |r| ==> r[i] in db.sections && r[i].examId == examId && !r[i].deleted
    ensures forall i :: 0 <= i < |db.sections| && db.sections[i].examId == examId && !db.sections[i].deleted ==> db.sections[i] in r
  {
    var live := Seqs.Filter(db.sections, (s: Section) => s.examId == examId && !s.deleted);
    Seqs.SortedFilterMembers(db.sections, (s: Section) => s.examId == examId && !s.deleted, (s: Section) => s.order);
    Seqs.SortBy(live, (s: Section) => s.order)
  }

  /** The non-deleted subjects of a section, ascending by `order`. */
  function SectionSubjects(db: Db, sectionId: string): (r: seq<Subject>)
    ensures Seqs.SortedBy(r, (s: Subject) => s.order)
    ensures forall i :: 0 <= i < |r| ==> r[i] in db.subjects && r[i].sectionId == sectionId && !r[i].deleted
    ensures forall i :: 0 <= i < |db.subjects| && db.subjects[i].sectionId == sectionId && !db.subjects[i].deleted ==> db.subjects[i] in r
  {
    var live := Seqs.Filter(db.subjects, (s: Subject) => s.sectionId == sectionId && !s.deleted);
    Seqs.SortedFilterMembers(db.subjects, (s: Subject) => s.sectionId == sectionId && !s.deleted, (s: Subject) => s.order);
    Seqs.SortBy(live, (s: Subject) => s.order)
  }

  /** The non-deleted topics of a subject, ascending by `order`. */
  function SubjectTopics(db: Db, subjectId: string): (r: seq<Topic>)
    ensures Seqs.SortedBy(r, (t: Topic) => t.order)
    ensures forall i :: 0 <= i < |r| ==> r[i] in db.topics && r[i].subjectId == subjectId && !r[i].deleted
    ensures forall i :: 0 <= i < |db.topics| && db.topics[i].subjectId == subjectId && !db.topics[i].deleted ==> db.topics[i] in r
  {
    var live := Seqs.Filter(db.topics, (t: Topic) => t.subjectId == subjectId && !t.deleted);
    Seqs.SortedFilterMembers(db.topics, (t: Topic) => t.subjectId == subjectId && !t.deleted, (t: Topic) => t.order);
    Seqs.SortBy(live, (t: Topic) => t.order)
  }

  /** There is a non-deleted section with this id belonging to `examId`. */
  predicate LiveSectionOf(db: Db, sectionId: string, examId: string) {
    exists i :: 0 <= i < |db.sections| && db.sections[i].id == sectionId && db.sections[i].examId == examId && !db.sections[i].deleted
  }

  /** A non-deleted subject under a non-deleted section of `examId`. */
  predicate LiveSubjectOf(db: Db, subjectId: string, examId: string) {
    exists i :: 0 <= i < |db.subjects| && db.subjects[i].id == subjectId && !db.subjects[i].deleted
      && LiveSectionOf(db, db.subjects[i].sectionId, examId)
  }

  /**
   * The non-deleted topics whose subject and section are non-deleted and whose
   * section belongs to `examId`, in table order.
   */
  function ExamTopics(db: Db, examId: string): (r: seq<Topic>)
    ensures forall i :: 0 <= i < |r| ==> r[i] in db.topics && !r[i].deleted && LiveSubjectOf(db, r[i].subjectId, examId)
    ensures forall i :: 0 <= i < |db.topics| && !db.topics[i].deleted && LiveSubjectOf(db, db.topics[i].subjectId, examId) ==> db.topics[i] in r
  {
    Seqs.Filter(db.topics, (t: Topic) => !t.deleted && LiveSubjectOf(db, t.subjectId, examId))
  }

  /** The non-deleted subjects under a non-deleted section of `examId`, in table order. */
  function ExamSubjects(db: Db, examId: string): (r: seq<Subject>)
    ensures forall i :: 0 <= i < |r| ==> r[i] in db.subjects && !r[i].deleted && LiveSectionOf(db, r[i].sectionId, examId)
  {
    Seqs.Filter(db.subjects, (s: Subject) => !s.deleted && LiveSectionOf(db, s.sectionId, examId))
  }

  // ---- active assignment ------------------------------------------------

  /** A non-deleted assignment of this user whose exam is ACTIVE and not deleted. */
  predicate QualifyingAssignment(db: Db, userId: string, a: Assignment) {
    a.userId == Some(userId) && !a.deleted
    && exists i :: 0 <= i < |db.exams| && db.exams[i].id == a.examId && db.exams[i].status == Active && !db.exams[i].deleted
  }

  /** The active exam as the dashboard handlers select it: id, name and code. */
  datatype ExamRef = ExamRef(id: string, name: string, code: string)

  /**
   * The user's active assignment: among the qualifying assignments the one
   * with the latest `assignedAt` (the first query result in that order).
   */
  function ActiveAssignment(db: Db, userId: string): (r: Option<Assignment>)
    ensures r.Some? ==> r.value in db.assignments && QualifyingAssignment(db, userId, r.value)
    ensures r.Some? ==> forall i :: 0 <= i < |db.assignments| && QualifyingAssignment(db, userId, db.assignments[i]) ==>
      db.assignments[i].assignedAt <= r.value.assignedAt
    ensures r.None? <==> forall i :: 0 <= i < |db.assignments| ==> !QualifyingAssignment(db, userId, db.assignments[i])
  {
    var q := Seqs.Filter(db.assignments, (a: Assignment) => QualifyingAssignment(db, userId, a));
    Seqs.LatestBy(q, (a: Assignment) => a.assignedAt)
  }

  /** The exam of the active assignment, as included in the query result. */
  function ActiveExam(db: Db, userId: string): (r: Option<ExamRef>)
    ensures r.Some? <==> ActiveAssignment(db, userId).Some?
    ensures r.Some? ==> r.value.id == ActiveAssignment(db, userId).value.examId
    ensures r.Some? ==> exists i :: (0 <= i < |db.exams| && db.exams[i].id == r.value.id
      && db.exams[i].status == Active && !db.exams[i].deleted
      && r.value == ExamRef(db.exams[i].id, db.exams[i].name, db.exams[i].code))
  {
    var a := ActiveAssignment(db, userId);
    if a.None? then None
    else
      var hits := Seqs.Filter(db.exams, (e: Exam) => e.id == a.value.examId && e.status == Active && !e.deleted);
      assert exists i :: 0 <= i < |db.exams| && db.exams[i].id == a.value.examId && db.exams[i].status == Active && !db.exams[i].deleted;
      var i :| 0 <= i < |db.exams| && db.exams[i].id == a.value.examId && db.exams[i].status == Active && !db.exams[i].deleted;
      assert db.exams[i] in hits;
      var e := hits[0];
      assert e in db.exams;
      Some(ExamRef(e.id, e.name, e.code))
  }

  // ---- visibility through assignments -----------------------------------

  /**
   * The `{ institutionId }` condition of an assignment filter, given the
   * session's institution id: an `undefined` value adds no condition, `null`
   * matches assignments without an institution, a string matches that
   * institution.
   */
  predicate InstitutionCondition(sessionInstitution: JsId, column: Option<string>) {
    match sessionInstitution
    case Undefined => true
    case Null => column.None?
    case Val(s) => column == Some(s)
  }

  /**
   * The exam has a non-deleted assignment to this user, or one whose
   * institution satisfies the institution condition.
   */
  predicate AssignedTo(db: Db, examId: string, userId: string, sessionInstitution: JsId) {
    exists i :: 0 <= i < |db.assignments| && db.assignments[i].examId == examId && !db.assignments[i].deleted
      && (db.assignments[i].userId == Some(userId) || InstitutionCondition(sessionInstitution, db.assignments[i].institutionId))
  }

  /**
   * The exam filter of the listing and the counters: non-deleted, and, when
   * `restricted`, reachable through an assignment.
   */
  predicate VisibleExam(db: Db, restricted: bool, session: SessionUser, e: Exam) {
    !e.deleted && (!restricted || AssignedTo(db, e.id, session.id, session.institutionId))
  }

  // ---- study sessions ---------------------------------------------------

  /** A non-deleted, completed work (not break) session of this user. */
  predicate StudySession(userId: string, s: PomodoroSession) {
    s.userId == userId && !s.deleted && s.completed && !s.isBreak
  }

  /** The user's study sessions: non-deleted, completed, not breaks. */
  function StudySessions(db: Db, userId: string): (r: seq<PomodoroSession>)
    ensures forall i :: 0 <= i < |r| ==> r[i] in db.pomodoros && StudySession(userId, r[i])
    ensures forall i :: 0 <= i < |db.pomodoros| && StudySession(userId, db.pomodoros[i]) ==> db.pomodoros[i] in r
  {
    Seqs.Filter(db.pomodoros, (s: PomodoroSession) => StudySession(userId, s))
  }

  /** Sum of session durations in minutes. */
  function Minutes(sessions: seq<PomodoroSession>): int {
    Seqs.SumOf(sessions, (s: PomodoroSession) => s.duration)
  }
}

=== FILE: strings.dfy ===
/**
 * String helpers mirroring the JavaScript string methods the source calls:
 * `startsWith`, `split`, `join`, `trim`, `toUpperCase` and `toLowerCase`.
 */
module Strings {

  /** `s.startsWith(prefix)`. */
  predicate StartsWith(s: string, prefix: string) {
    |prefix| <= |s| && s[..|prefix|] == prefix
  }

  /** Position of the first `c` in `s`, or `|s|` when there is none. */
  function IndexOf(s: string, c: char): (i: nat)
    ensures i <= |s|
    ensures forall k :: 0 <= k < i ==> s[k] != c
    ensures i < |s| ==> s[i] == c
  {
    if |s| == 0 then 0
    else if s[0] == c then 0
    else 1 + IndexOf(s[1..], c)
  }

  /** `s.split(sep)[0]`: the text before the first `sep`, or all of `s`. */
  function FirstPiece(s: string, sep: char): (r: string)
    ensures StartsWith(s, r)
    ensures sep !in r
    ensures r == s || (|r| < |s| && s[|r|] == sep)
  {
    s[..IndexOf(s, sep)]
  }

  /** `s.split(sep)` for a one-character separator; never empty. */
  function Split(s: string, sep: char): (r: seq<string>)
    ensures |r| >= 1
    ensures r[0] == FirstPiece(s, sep)
    ensures forall i :: 0 <= i < |r| ==> sep !in r[i]
    decreases |s|
  {
    var i := IndexOf(s, sep);
    if i == |s| then [s]
    else [s[..i]] + Split(s[i + 1..], sep)
  }

  /** `pieces.join(sep)`. */
  function Join(pieces: seq<string>, sep: string): string
  {
    if |pieces| == 0 then ""
    else if |pieces| == 1 then pieces[0]
    else pieces[0] + sep + Join(pieces[1..], sep)
  }

  /** Joining the pieces of a split gives back the original string. */
  lemma {:induction false} JoinSplit(s: string, sep: char)
    ensures Join(Split(s, sep), [sep]) == s
    decreases |s|
  {
    var i := IndexOf(s, sep);
    if i < |s| {
      var rest := Split(s[i + 1..], sep);
      JoinSplit(s[i + 1..], sep);
      JoinCons(s[..i], rest, [sep]);
      assert s == s[..i] + [sep] + s[i + 1..];
    }
  }

  /** Joining a non-empty tail after a first piece puts one separator between them. */
  lemma JoinCons(a: string, rest: seq<string>, sep: string)
    requires |rest| >= 1
    ensures Join([a] + rest, sep) == a + sep + Join(rest, sep)
  {
    assert ([a] + rest)[1..] == rest;
  }

  /** Splitting a join of separator-free pieces gives back the pieces. */
  lemma {:induction false} SplitJoin(pieces: seq<string>, sep: char)
    requires |pieces| >= 1
    requires forall i :: 0 <= i < |pieces| ==> sep !in pieces[i]
    ensures Split(Join(pieces, [sep]), sep) == pieces
  {
    if |pieces| > 1 {
      var rest := Join(pieces[1..], [sep]);
      var s := pieces[0] + [sep] + rest;
      IndexOfPrefix(pieces[0], sep, rest);
      assert s[..|pieces[0]|] == pieces[0];
      assert s[|pieces[0]| + 1..] == rest;
      SplitJoin(pieces[1..], sep);
    } else {
      IndexOfPrefix(pieces[0], sep, "");
      assert pieces[0] + [sep] + "" == pieces[0] + [sep];
      IndexOfAbsent(pieces[0], sep);
    }
  }

  /** The first `sep` in `a + [sep] + b` is right after `a` when `a` has none. */
  lemma {:induction false} IndexOfPrefix(a: string, sep: char, b: string)
    requires sep !in a
    ensures IndexOf(a + [sep] + b, sep) == |a|
  {
    if |a| > 0 {
      assert (a + [sep] + b)[1..] == a[1..] + [sep] + b;
      IndexOfPrefix(a[1..], sep, b);
    }
  }

  /** A string without `sep` has it at position `|s|`. */
  lemma {:induction false} IndexOfAbsent(s: string, sep: char)
    requires sep !in s
    ensures IndexOf(s, sep) == |s|
  {
    if |s| > 0 {
      IndexOfAbsent(s[1..], sep);
    }
  }

  /**
   * The characters JavaScript's `trim` removes: the ECMAScript WhiteSpace and
   * LineTerminator code points.
   */
  predicate IsJsWhitespace(c: char) {
    c == '\t' || c == '\n' || c == '\U{000B}' || c == '\U{000C}' || c == '\r'
    || c == ' ' || c == '\U{00A0}' || c == '\U{1680}'
    || ('\U{2000}' <= c <= '\U{200A}')
    || c == '\U{2028}' || c == '\U{2029}' || c == '\U{202F}' || c == '\U{205F}'
    || c == '\U{3000}' || c == '\U{FEFF}'
  }

  /** Number of leading whitespace characters of `s`. */
  function LeadingSpace(s: string): (n: nat)
    ensures n <= |s|
    ensures forall k :: 0 <= k < n ==> IsJsWhitespace(s[k])
    ensures n < |s| ==> !IsJsWhitespace(s[n])
  {
    if |s| == 0 || !IsJsWhitespace(s[0]) then 0 else 1 + LeadingSpace(s[1..])
  }

  /** Number of trailing whitespace characters of `s`. */
  function TrailingSpace(s: string): (n: nat)
    ensures n <= |s|
    ensures forall k :: |s| - n <= k < |s| ==> IsJsWhitespace(s[k])
    ensures n < |s| ==> !IsJsWhitespace(s[|s| - n - 1])
  {
    if |s| == 0 || !IsJsWhitespace(s[|s| - 1]) then 0 else 1 + TrailingSpace(s[..|s| - 1])
  }

  /**
   * `s.trim()`: the slice between the leading and the trailing whitespace. It
   * neither starts nor ends with whitespace, and everything cut off is whitespace.
   */
  function Trim(s: string): (r: string)
    ensures |r| <= |s|
    ensures |r| > 0 ==> !IsJsWhitespace(r[0]) && !IsJsWhitespace(r[|r| - 1])
    ensures LeadingSpace(s) + |r| <= |s|
    ensures r == s[LeadingSpace(s)..LeadingSpace(s) + |r|]
    ensures forall k :: LeadingSpace(s) + |r| <= k < |s| ==> IsJsWhitespace(s[k])
  {
    var a := LeadingSpace(s);
    var t := s[a..];
    var b := TrailingSpace(t);
    var r := t[..|t| - b];
    assert r == s[a..a + |r|];
    r
  }

  /** A string with no whitespace at either end is its own trim. */
  lemma TrimNoEdgeSpace(s: string)
    requires |s| > 0 ==> !IsJsWhitespace(s[0]) && !IsJsWhitespace(s[|s| - 1])
    ensures Trim(s) == s
  {
    assert LeadingSpace(s) == 0;
    assert s[0..] == s;
  }

  /** Trimming twice is trimming once. */
  lemma TrimIdempotent(s: string)
    ensures Trim(Trim(s)) == Trim(s)
  {
    TrimNoEdgeSpace(Trim(s));
  }

  /** ASCII upper-casing of one character. */
  function UpperChar(c: char): char {
    if 'a' <= c <= 'z' then (c as int - 32) as char else c
  }

  /** ASCII lower-casing of one character. */
  function LowerChar(c: char): char {
    if 'A' <= c <= 'Z' then (c as int + 32) as char else c
  }

  /** Every character of `s` is ASCII. */
  predicate IsAscii(s: string) {
    forall i :: 0 <= i < |s| ==> s[i] as int < 128
  }

  /** `s.toUpperCase()` restricted to ASCII text: `a`-`z` become `A`-`Z`, nothing else changes. */
  function AsciiUpper(s: string): (r: string)
    ensures |r| == |s|
    ensures forall i :: 0 <= i < |s| ==> r[i] == UpperChar(s[i])
  {
    seq(|s|, i requires 0 <= i < |s| => UpperChar(s[i]))
  }

  /** `s.toLowerCase()` restricted to ASCII text: `A`-`Z` become `a`-`z`, nothing else changes. */
  function AsciiLower(s: string): (r: string)
    ensures |r| == |s|
    ensures forall i :: 0 <= i < |s| ==> r[i] == LowerChar(s[i])
  {
    seq(|s|, i requires 0 <= i < |s| => LowerChar(s[i]))
  }

  /** ASCII upper-casing leaves no lower-case letter, fixes text without one, and is idempotent. */
  lemma AsciiUpperEffect(s: string)
    ensures forall i :: 0 <= i < |s| ==> !('a' <= AsciiUpper(s)[i] <= 'z')
    ensures (forall i :: 0 <= i < |s| ==> !('a' <= s[i] <= 'z')) ==> AsciiUpper(s) == s
    ensures AsciiUpper(AsciiUpper(s)) == AsciiUpper(s)
  {
  }

  /** ASCII lower-casing leaves no upper-case letter, fixes text without one, and is idempotent. */
  lemma AsciiLowerEffect(s: string)
    ensures forall i :: 0 <= i < |s| ==> !('A' <= AsciiLower(s)[i] <= 'Z')
    ensures (forall i :: 0 <= i < |s| ==> !('A' <= s[i] <= 'Z')) ==> AsciiLower(s) == s
    ensures AsciiLower(AsciiLower(s)) == AsciiLower(s)
  {
  }

  /**
   * JavaScript's full Unicode case mapping, `toLowerCase` and
   * `toUpperCase`, whose tables are outside this model. Such a mapping may
   * change the length (`"ß".toUpperCase()` is `"SS"`) and maps characters
   * outside ASCII (the Kelvin sign lower-cases to `k`).
   */
  datatype CaseMapping = CaseMapping(lower: string -> string, upper: string -> string)

  /**
   * What every such mapping of JavaScript satisfies: on ASCII text it is the
   * ASCII mapping, and lower-casing never yields an ASCII upper-case letter.
   */
  ghost predicate JsCaseMapping(cm: CaseMapping) {
    (forall s :: IsAscii(s) ==> cm.lower(s) == AsciiLower(s) && cm.upper(s) == AsciiUpper(s))
    && (forall s, i :: 0 <= i < |cm.lower(s)| ==> !('A' <= cm.lower(s)[i] <= 'Z'))
  }

  // ---- UTF-16 length ----------------------------------------------------

  /**
   * `s.length` in JavaScript: the number of UTF-16 code units, so a
   * character above U+FFFF (a surrogate pair) counts twice.
   */
  function Utf16Length(s: string): (n: nat)
    ensures |s| <= n <= 2 * |s|
    ensures |s| == 0 <==> n == 0
  {
    if |s| == 0 then 0 else (if s[0] as int > 0xFFFF then 2 else 1) + Utf16Length(s[1..])
  }

  /** Text of the Basic Multilingual Plane has as many code units as characters. */
  lemma {:induction false} Utf16LengthBmp(s: string)
    requires forall i :: 0 <= i < |s| ==> s[i] as int <= 0xFFFF
    ensures Utf16Length(s) == |s|
  {
    if |s| > 0 {
      Utf16LengthBmp(s[1..]);
    }
  }

  // ---- decimal rendering ------------------------------------------------

  /** A character is a decimal digit. */
  predicate IsDigit(c: char) {
    '0' <= c <= '9'
  }

  /** The decimal rendering of a natural number, as template literals print it. */
  function NatToString(n: nat): (r: string)
    ensures |r| >= 1
    ensures forall i :: 0 <= i < |r| ==> IsDigit(r[i])
    ensures n >= 10 <==> |r| >= 2
    decreases n
  {
    var d := (48 + n % 10) as char;
    if n < 10 then [d] else NatToString(n / 10) + [d]
  }

  /** The number a string of decimal digits denotes. */
  function DigitsValue(s: string): nat
    requires forall i :: 0 <= i < |s| ==> IsDigit(s[i])
  {
    if |s| == 0 then 0
    else
      assert IsDigit(s[|s| - 1]);
      DigitsValue(s[..|s| - 1]) * 10 + (s[|s| - 1] as int - '0' as int)
  }

  /** Reading the rendering back gives the number. */
  lemma {:induction false} NatToStringValue(n: nat)
    ensures DigitsValue(NatToString(n)) == n
    decreases n
  {
    var r := NatToString(n);
    if n >= 10 {
      NatToStringValue(n / 10);
      assert r[..|r| - 1] == NatToString(n / 10);
    }
  }
}

=== FILE: subjects.dfy ===
/**
 * The subject collection endpoints (app/api/subjects/route.ts): the listing
 * of an exam's subjects and subject creation under a section.
 */
module Subjects {
  import opened Wrappers
  import opened Constants
  import opened Store
  import opened AppErrors
  import opened ErrorHandler
  import opened Schemas
  import opened Effects
  import opened Permissions
  import Seqs
  import Exams
  import Strings

  // ---- listing ----------------------------------------------------------

  /** A listed subject with its non-deleted topics, ascending by order. */
  datatype SubjectWithTopics = SubjectWithTopics(subject: Subject, topics: seq<Topic>)

  /** The exam exists and is not deleted. */
  predicate LiveExamId(db: Db, examId: string) {
    exists i :: 0 <= i < |db.exams| && db.exams[i].id == examId && !db.exams[i].deleted
  }

  /** One listed subject: the subject and its non-deleted topics in order. */
  function WithTopics(db: Db, s: Subject): (r: SubjectWithTopics)
    ensures r.subject == s && r.topics == SubjectTopics(db, s.id)
  {
    SubjectWithTopics(s, SubjectTopics(db, s.id))
  }

  /** Each subject paired with its topics, in order. */
  function AllWithTopics(db: Db, subjects: seq<Subject>): (r: seq<SubjectWithTopics>)
    ensures |r| == |subjects|
    ensures forall i :: 0 <= i < |r| ==> r[i] == WithTopics(db, subjects[i])
  {
    if |subjects| == 0 then [] else [WithTopics(db, subjects[0])] + AllWithTopics(db, subjects[1..])
  }

  /** The exam's listed subjects, ascending by order across sections. */
  function ByOrder(subjects: seq<Subject>): (r: seq<Subject>)
    ensures Seqs.SortedBy(r, (s: Subject) => s.order)
    ensures multiset(r) == multiset(subjects)
  {
    Seqs.SortBy(subjects, (s: Subject) => s.order)
  }

  /**
   * `getSubjectsHandler`: 401 without a session user; a plain Error (so a 500
   * answer) without a non-empty examId; NotFound('Exam not found') for a
   * missing or deleted exam; otherwise the non-deleted subjects under the
   * exam's non-deleted sections, ascending by order across sections, each
   * with its topics.
   */
  function GetSubjects(db: Db, session: Option<SessionUser>, examId: Option<string>): (r: Outcome<seq<SubjectWithTopics>>)
    ensures session.None? ==> r == Threw(ThrowApp(NewUnauthorizedError(None)))
    ensures session.Some? && (examId.None? || examId.value == "") ==> r == Threw(ThrowPlain("examId is required"))
    ensures session.Some? && examId.Some? && examId.value != "" && !LiveExamId(db, examId.value) ==>
      r == Threw(ThrowApp(NewNotFoundError(Some("Exam not found"))))
    ensures r.Done? <==> session.Some? && examId.Some? && examId.value != "" && LiveExamId(db, examId.value)
    ensures r.Done? ==> r.value == AllWithTopics(db, ByOrder(ExamSubjects(db, examId.value)))
  {
    if session.None? then Threw(ThrowApp(NewUnauthorizedError(None)))
    else if examId.None? || examId.value == "" then Threw(ThrowPlain("examId is required"))
    else if !LiveExamId(db, examId.value) then Threw(ThrowApp(NewNotFoundError(Some("Exam not found"))))
    else Done(AllWithTopics(db, ByOrder(ExamSubjects(db, examId.value))))
  }

  /**
   * The missing-examId error reaches the client as a 500 with the generic
   * message, not as a validation error.
   */
  lemma MissingExamIdIs500(db: Db, u: SessionUser)
    ensures AsyncHandler(GetSubjects(db, Some(u), None)).ErrorReply?
    ensures AsyncHandler(GetSubjects(db, Some(u), None)).error.status == HTTP_INTERNAL_SERVER_ERROR
    ensures AsyncHandler(GetSubjects(db, Some(u), None)).error.message == MSG_INTERNAL_ERROR
  {
  }

  /** Sorting by order keeps exactly the subjects it is given. */
  lemma ByOrderKeeps(subjects: seq<Subject>)
    ensures forall x :: x in ByOrder(subjects) <==> x in subjects
  {
    var r := ByOrder(subjects);
    assert forall x :: x in r <==> x in multiset(r);
    assert forall x :: x in subjects <==> x in multiset(subjects);
  }

  /** The sorted subjects are exactly the exam's live subjects. */
  lemma ByOrderMembers(db: Db, examId: string)
    ensures forall x :: x in ByOrder(ExamSubjects(db, examId)) <==>
      x in db.subjects && !x.deleted && LiveSectionOf(db, x.sectionId, examId)
  {
    var live := ExamSubjects(db, examId);
    ByOrderKeeps(live);
    forall x | x in db.subjects && !x.deleted && LiveSectionOf(db, x.sectionId, examId)
      ensures x in live
    {
      var k :| 0 <= k < |db.subjects| && db.subjects[k] == x;
    }
    forall x | x in live
      ensures x in db.subjects && !x.deleted && LiveSectionOf(db, x.sectionId, examId)
    {
      var k :| 0 <= k < |live| && live[k] == x;
    }
  }

  /**
   * A successful listing is ascending by order, and holds exactly the
   * non-deleted subjects under non-deleted sections of the exam.
   */
  lemma ListingContents(db: Db, u: SessionUser, examId: string)
    requires GetSubjects(db, Some(u), Some(examId)).Done?
    ensures var r := GetSubjects(db, Some(u), Some(examId)).value;
      (forall i, j :: 0 <= i < j < |r| ==> r[i].subject.order <= r[j].subject.order)
      && (forall i :: 0 <= i < |r| ==> !r[i].subject.deleted && LiveSectionOf(db, r[i].subject.sectionId, examId))
      && (forall s :: s in db.subjects && !s.deleted && LiveSectionOf(db, s.sectionId, examId) ==>
            exists i :: 0 <= i < |r| && r[i].subject == s)
  {
    var live := ExamSubjects(db, examId);
    ListedInOrder(db, live);
    ByOrderMembers(db, examId);
    ListedExactly(db, ByOrder(live));
  }

  /** Listing sorted subjects keeps them ascending by order. */
  lemma ListedInOrder(db: Db, subjects: seq<Subject>)
    ensures var r := AllWithTopics(db, ByOrder(subjects));
      forall i, j :: 0 <= i < j < |r| ==> r[i].subject.order <= r[j].subject.order
  {
    var sorted := ByOrder(subjects);
    var r := AllWithTopics(db, sorted);
    forall i, j | 0 <= i < j < |r|
      ensures r[i].subject.order <= r[j].subject.order
    {
      assert r[i].subject == sorted[i] && r[j].subject == sorted[j];
    }
  }

  /** The listed subjects are exactly the given ones. */
  lemma ListedExactly(db: Db, subjects: seq<Subject>)
    ensures var r := AllWithTopics(db, subjects);
      (forall i :: 0 <= i < |r| ==> r[i].subject in subjects)
      && (forall s :: s in subjects ==> exists i :: 0 <= i < |r| && r[i].subject == s)
  {
    var r := AllWithTopics(db, subjects);
    forall s | s in subjects
      ensures exists i :: 0 <= i < |r| && r[i].subject == s
    {
      var i :| 0 <= i < |subjects| && subjects[i] == s;
      assert r[i].subject == s;
    }
  }

  // ---- creation ---------------------------------------------------------

  /** The section exists and is not deleted. */
  predicate LiveSection(db: Db, sectionId: string) {
    exists i :: 0 <= i < |db.sections| && db.sections[i].id == sectionId && !db.sections[i].deleted
  }

  /** A non-deleted subject of this section already has this code. */
  predicate CodeInSection(db: Db, sectionId: string, code: string) {
    exists i :: 0 <= i < |db.subjects| && db.subjects[i].sectionId == sectionId && db.subjects[i].code == code
      && !db.subjects[i].deleted
  }

  /**
   * Some subject row of this section, deleted or not, has this code. The
   * pair (sectionId, code) is unique in the subject table (the seed script
   * upserts by it), and the index covers soft-deleted rows too.
   */
  predicate CodeStoredInSection(db: Db, sectionId: string, code: string) {
    exists i :: 0 <= i < |db.subjects| && db.subjects[i].sectionId == sectionId && db.subjects[i].code == code
  }

  /** The error the database raises when a new row repeats a unique (sectionId, code) pair. */
  const UNIQUE_SECTION_CODE := "Unique constraint failed on the fields: (`sectionId`,`code`)"

  /** No two subject rows, deleted or not, share both section and code: the unique index. */
  predicate UniqueSectionCodes(subjects: seq<Subject>) {
    forall i, j ::
      (0 <= i < |subjects| && 0 <= j < |subjects| && i != j && subjects[i].sectionId == subjects[j].sectionId)
      ==> subjects[i].code != subjects[j].code
  }

  /** Within each section, non-deleted subjects have pairwise distinct codes. */
  predicate DistinctCodesPerSection(subjects: seq<Subject>) {
    forall i, j ::
      (0 <= i < |subjects| && 0 <= j < |subjects| && i != j && !subjects[i].deleted && !subjects[j].deleted
       && subjects[i].sectionId == subjects[j].sectionId) ==> subjects[i].code != subjects[j].code
  }

  /**
   * `createSubjectHandler`: 401 without a session user; Forbidden for a role
   * that may not create exams; the schema's issues; NotFound('Section not
   * found') for a missing or deleted section; a plain Error when the section
   * already has a non-deleted subject with the code; a plain Error from the
   * unique index when only a deleted subject of the section has it — the
   * store unchanged in each case — otherwise the new subject appended.
   */
  function CreateSubject(db: Db, session: Option<SessionUser>, input: NodeInput, id: string): (r: Step<Subject>)
    ensures r.out.Threw? ==> r.db == db
    ensures session.None? ==> r.out == Threw(ThrowApp(NewUnauthorizedError(None)))
    ensures session.Some? && !CanCreateExam(Exams.PermissionsOf(session.value)) ==>
      r.out == Threw(ThrowApp(NewForbiddenError(None)))
    ensures (session.Some? && CanCreateExam(Exams.PermissionsOf(session.value))
             && CreateNodeSchema("sectionId", input).Valid? && !LiveSection(db, input.parentId)) ==>
      r.out == Threw(ThrowApp(NewNotFoundError(Some("Section not found"))))
    ensures (session.Some? && CanCreateExam(Exams.PermissionsOf(session.value))
             && CreateNodeSchema("sectionId", input).Valid? && LiveSection(db, input.parentId)
             && CodeInSection(db, input.parentId, input.code)) ==>
      r.out == Threw(ThrowPlain("Subject code already exists for this exam"))
    ensures (session.Some? && CanCreateExam(Exams.PermissionsOf(session.value))
             && CreateNodeSchema("sectionId", input).Valid? && LiveSection(db, input.parentId)
             && !CodeInSection(db, input.parentId, input.code) && CodeStoredInSection(db, input.parentId, input.code)) ==>
      r.out == Threw(ThrowPlain(UNIQUE_SECTION_CODE))
    ensures r.out.Done? <==> (session.Some? && CanCreateExam(Exams.PermissionsOf(session.value))
                              && CreateNodeSchema("sectionId", input).Valid? && LiveSection(db, input.parentId)
                              && !CodeStoredInSection(db, input.parentId, input.code))
    ensures r.out.Done? ==>
      var v := CreateNodeSchema("sectionId", input).value;
      r.out.value == Subject(id, v.parentId, v.code, v.name, v.description, v.order, false)
      && r.db == db.(subjects := db.subjects + [r.out.value])
  {
    if session.None? then Fail(db, ThrowApp(NewUnauthorizedError(None)))
    else if !CanCreateExam(Exams.PermissionsOf(session.value)) then Fail(db, ThrowApp(NewForbiddenError(None)))
    else
      match CreateNodeSchema("sectionId", input)
      case Invalid(issues) => Fail(db, ThrowIssues(issues))
      case Valid(v) =>
        if !LiveSection(db, v.parentId) then Fail(db, ThrowApp(NewNotFoundError(Some("Section not found"))))
        else if CodeInSection(db, v.parentId, v.code) then Fail(db, ThrowPlain("Subject code already exists for this exam"))
        else if CodeStoredInSection(db, v.parentId, v.code) then Fail(db, ThrowPlain(UNIQUE_SECTION_CODE))
        else
          var subject := Subject(id, v.parentId, v.code, v.name, v.description, v.order, false);
          Step(db.(subjects := db.subjects + [subject]), Done(subject))
  }

  /** A successful creation keeps codes unique per section. */
  lemma CreateKeepsCodesUnique(db: Db, session: Option<SessionUser>, input: NodeInput, id: string)
    requires DistinctCodesPerSection(db.subjects)
    ensures DistinctCodesPerSection(CreateSubject(db, session, input, id).db.subjects)
  {
    var r := CreateSubject(db, session, input, id);
    if r.out.Done? {
      AppendFreshCode(db.subjects, r.out.value);
    }
  }

  /** Appending a subject whose code its section does not use yet keeps codes unique per section. */
  lemma AppendFreshCode(subjects: seq<Subject>, s: Subject)
    requires DistinctCodesPerSection(subjects)
    requires forall i :: 0 <= i < |subjects| ==>
      subjects[i].sectionId != s.sectionId || subjects[i].code != s.code || subjects[i].deleted
    ensures DistinctCodesPerSection(subjects + [s])
  {
    var all := subjects + [s];
    forall i, j | 0 <= i < |all| && 0 <= j < |all| && i != j && !all[i].deleted && !all[j].deleted
      && all[i].sectionId == all[j].sectionId
      ensures all[i].code != all[j].code
    {
      if i < |subjects| && j < |subjects| {
        assert all[i] == subjects[i] && all[j] == subjects[j];
      } else if i < |subjects| {
        assert all[i] == subjects[i] && all[j] == s;
      } else {
        assert all[j] == subjects[j] && all[i] == s;
      }
    }
  }

  /** Appending a subject whose (section, code) pair no row has keeps the pairs unique. */
  lemma AppendKeepsUnique(subjects: seq<Subject>, s: Subject)
    requires UniqueSectionCodes(subjects)
    requires forall i :: 0 <= i < |subjects| ==> subjects[i].sectionId != s.sectionId || subjects[i].code != s.code
    ensures UniqueSectionCodes(subjects + [s])
  {
    var all := subjects + [s];
    forall i, j | 0 <= i < |all| && 0 <= j < |all| && i != j && all[i].sectionId == all[j].sectionId
      ensures all[i].code != all[j].code
    {
      if i < |subjects| && j < |subjects| {
        assert all[i] == subjects[i] && all[j] == subjects[j];
      } else if i < |subjects| {
        assert all[i] == subjects[i] && all[j] == s;
      } else {
        assert all[j] == subjects[j] && all[i] == s;
      }
    }
  }

  /** Creation keeps the unique index: no two subject rows, deleted or not, share section and code. */
  lemma CreateKeepsUniqueIndex(db: Db, session: Option<SessionUser>, input: NodeInput, id: string)
    requires UniqueSectionCodes(db.subjects)
    ensures UniqueSectionCodes(CreateSubject(db, session, input, id).db.subjects)
  {
    var r := CreateSubject(db, session, input, id);
    if r.out.Done? {
      AppendKeepsUnique(db.subjects, r.out.value);
    }
  }

  /**
   * The same code is accepted in another section: a subject of section A
   * with code C does not block C in section B.
   */
  lemma SameCodeOtherSection()
    ensures var db := Db([], [Section("A", "E", "SA", "Section A", 0, false), Section("B", "E", "SB", "Section B", 1, false)],
        [Subject("s1", "A", "MATH", "Math", None, 0, false)], [], [], [], map[], []);
      var admin := SessionUser("u", Admin, Null);
      CreateSubject(db, Some(admin), NodeInput("B", true, "Math", "MATH", None, None), "s2").out.Done?
  {
    var db := Db([], [Section("A", "E", "SA", "Section A", 0, false), Section("B", "E", "SB", "Section B", 1, false)],
      [Subject("s1", "A", "MATH", "Math", None, 0, false)], [], [], [], map[], []);
    SameCodeFacts(db);
    MathSubjectAccepted();
    assert CanCreateExam(Exams.PermissionsOf(SessionUser("u", Admin, Null)));
  }

  /** The tables of the example above: section B is live and has no MATH subject. */
  lemma SameCodeFacts(db: Db)
    requires db.sections == [Section("A", "E", "SA", "Section A", 0, false), Section("B", "E", "SB", "Section B", 1, false)]
    requires db.subjects == [Subject("s1", "A", "MATH", "Math", None, 0, false)]
    ensures LiveSection(db, "B") && !CodeInSection(db, "B", "MATH") && !CodeStoredInSection(db, "B", "MATH")
  {
    assert db.sections[1].id == "B" && !db.sections[1].deleted;
  }
}

=== FILE: wrappers.dfy ===
/** Small value wrappers shared by the whole model. */
module Wrappers {

  /** An optional value: a field that may be absent or `null` in the source. */
  datatype Option<+T> = None | Some(value: T) {

    /** The value, or `default` when absent. */
    function GetOr(default: T): T {
      match this
      case Some(v) => v
      case None => default
    }
  }

  /**
   * A JavaScript value that may be `undefined`, `null` or a string. The source
   * distinguishes the first two: `===` keeps them apart, and a query builder
   * treats an `undefined` filter field as "no condition".
   */
  datatype JsId = Undefined | Null | Val(s: string) {

    /** JavaScript strict equality `===` on two such values. */
    predicate StrictEq(other: JsId) {
      match (this, other)
      case (Undefined, Undefined) => true
      case (Null, Null) => true
      case (Val(a), Val(b)) => a == b
      case _ => false
    }
  }

  /** The `string | null` column value held by a stored row, read as a JsId. */
  function FromColumn(c: Option<string>): (r: JsId)
    ensures r.Undefined? == false
    ensures c.None? <==> r.Null?
    ensures c.Some? ==> r == Val(c.value)
  {
    match c
    case None => Null
    case Some(s) => Val(s)
  }
}
